=== FILE: README.md ===
# IVN citation and spreadsheet tools, modelled in Dafny

This project models the text-processing core of a set of scripts that build
and maintain an "IVN" spreadsheet, a table of component dependencies drawn
from federal documents. The scripts do five things:

- **Citation extraction** (`extract_citations.py`). Each PDF page's text is
  scanned for U.S. Code, CFR, Executive Order, Public Law, "Act of" and
  "Title" citations. Each match is turned into a record. The record holds
  the canonical citation, a link to the page, a section name inferred from
  the table of contents or from the page's lines, the surrounding context
  and the document URL. Records are sanitised once more when saved.
- **Text scrubbing** (`scrub_IVN_Excel.py`). `clean_text` normalises
  component descriptions. `deduplicate_column` replaces each description by
  an earlier one that a fuzzy matcher calls close enough.
- **URL inference** (`Infer_URLs.py`). Missing component URLs are filled
  from other rows that name the same component. Every URL is then checked
  once through a cache, and broken ones are counted.
- **Component IDs** (`ivn_generate_unique_IDs_for_components.py`). A
  component without an ID gets the SHA-256 digest of its normalised source
  and description.
- **Executive orders** (`import_new_EOs.py`). For each order number in a
  range, the first 300 words of its page are kept.

Everything is modelled as pure functions over strings and sequences of rows,
except the loops of `deduplicate_column` and of the URL checks, which are
methods. Things
the scripts get from outside become parameters:

- the page texts of a downloaded PDF;
- the fuzzy matcher;
- the HTTP probe;
- the digest function;
- the browser's page loader.

Python's `\w`, `\d`, `str.lower()` and `re.IGNORECASE` are modelled over
ASCII. Whitespace is the character set of `str.isspace()`.

Files:

| file | module | contents |
|---|---|---|
| common.dfy | `Common` | characters, `Filter`, `strip`, `find`, `splitlines`, `str(int)`, `join` |
| page_text.dfy | `PageText` | `sanitize_text` |
| citation_patterns.dfy | `CitationPatterns` | citation recognisers for both pattern sets, `clean_citation` |
| citation_laws.dfy | `CitationLaws` | round trips and idempotence of citation cleaning |
| clean_passes.dfy | `CleanPasses` | `clean_citation` as written: its seven substitutions in turn |
| table_of_contents.dfy | `TableOfContents` | `extract_toc`, `infer_section_name` |
| citation_records.dfy | `CitationRecords`, `SavedRows` | the page scan, the record of a match, the saved row |
| text_scrub.dfy | `TextScrub` | `clean_text` |
| deduplicate.dfy | `Deduplicate`, `ScrubColumns` | `deduplicate_column`, and one column cleaned then deduplicated |
| infer_urls.dfy | `InferUrls` | URL map and fill, `check_url_status`, the status loop |
| component_ids.dfy | `ComponentIds` | `normalize`, `generate_id`, the two fill loops |
| executive_orders.dfy | `ExecutiveOrders` | `get_first_300_words`, the order-number loop |

The two regular-expression sets for citations are read by one recogniser
with a `Mode`. The scanner's alternation at extract_citations.py:168-177
and `clean_citation`'s substitutions at extract_citations.py:23-81 differ
in four places:

- The USC/CFR section suffix admits parentheses only in `clean_citation`.
- "Public Law" must be followed by whitespace only in the scanner.
- The long Executive Order form needs a leading word boundary only in
  `clean_citation`.
- Only the scanner demands a trailing word boundary after the Public Law,
  Act and Title numbers. The short Executive Order form ("EO 13771") has
  that boundary in both sets.

`CitationLaws.ExtractedCleans` shows that these differences never change
which citation the cleaning patterns read in a scanned match.

`clean_citation` runs its substitutions one after another over the whole
string. A citation whose section holds, at a word boundary, a citation of
the other code or an Executive Order ("1 CFR 2USC3") is therefore rewritten
inside as well. `CitationPatterns.NestFree` names the citations without
such a nest. The claims that cleaning gives the canonical rendering are
stated for those. `CleanPasses` models the substitutions as written and
shows that a doubly nested citation ("1 USC 2CFR3USC4") makes the code's
cleaning change its own output.

## Model

| member | source | states |
|---|---|---|
| PageText.SanitizeText | extract_citations.py:17-18 | the result has no `\r` or `\n`, is stripped, and is no longer than the input |
| PageText.SanitizeIdempotent | extract_citations.py:17-18 | sanitising twice equals sanitising once |
| PageText.SanitizeFixes | extract_citations.py:17-18 | a stripped text without line breaks is left unchanged |
| PageText.SanitizeWithoutNewlines | extract_citations.py:17-18 | on a text without line breaks, sanitising is just `strip` |
| PageText.SanitizeKeepsNonSpace | extract_citations.py:17-18 | only whitespace is touched: the non-space characters are kept, in order |
| PageText.CollapseCopiesPlainText | extract_citations.py:18 | the newline substitution copies text without line breaks verbatim, so spaces and tabs inside are kept |
| Common.Find | extract_citations.py:152 | `str.find`: -1 exactly when the context does not occur; otherwise the first index where it occurs |
| Common.SplitLines | extract_citations.py:151 | `splitlines` gives lines without line-break characters, and no lines exactly for the empty text |
| Common.SplitLinesRebuild | extract_citations.py:151 | the lines, each followed by its break, join back into the text; every line but the last ends in exactly one break, with "\r\n" read as one |
| Common.Strip | extract_citations.py:154 | the stripped text has no whitespace at either end and is no longer than the input |
| Common.StripSlice | extract_citations.py:154 | the stripped text is the slice of the input from its first non-space character, with only whitespace after it |
| Common.StripUnique | extract_citations.py:154 | any stripped slice with only whitespace around it is the stripped text, so the slice is unique |
| Common.NatToStringRoundTrip | import_new_EOs.py:57 | the decimal digits `str()` writes for a number read back as that number |
| Common.IntToString | import_new_EOs.py:57 | `str(int)` is non-empty and starts with "-" exactly for a negative number |
| CitationLaws.ParseWellFormed | extract_citations.py:23-81 | every recognised citation has well-formed parts: digit runs, a dotted section, a dash, a four-digit year |
| CitationLaws.RenderRoundTrip | extract_citations.py:23-81 | the canonical rendering of every well-formed citation is recognised again as that same citation |
| CitationLaws.CodeRoundTrip | extract_citations.py:23-37 | "t USC s" and "t CFR s" are read back as the citation they render |
| CitationLaws.ExecutiveOrderRoundTrip | extract_citations.py:41-46 | "Executive Order n" is read back as order n |
| CitationLaws.PublicLawRoundTrip | extract_citations.py:58-63 | "Public Law g-l" is read back with the same congress, dash and law number |
| CitationLaws.ActRoundTrip | extract_citations.py:67-72 | "Act of y" is read back as year y |
| CitationLaws.TitleRoundTrip | extract_citations.py:76-81 | "Title n" is read back as title n |
| CitationLaws.CleanCitationIdempotent | extract_citations.py:187 | the one-citation canonicalisation the model uses for `clean_citation` leaves its own output alone, for every input; the code as written does not (see Findings) |
| CleanPasses.SubNoMatch | extract_citations.py:23-81 | a substitution whose pattern matches nowhere returns the text unchanged |
| CleanPasses.WordPassesKeep | extract_citations.py:41-81 | the five substitutions after the two code ones leave alone a text with no letter that starts their patterns |
| CleanPasses.CleanOnce | extract_citations.py:23-81 | the substitutions, in order, turn "1 USC 2CFR3USC4" into "1 USC 2 CFR 3USC4" |
| CleanPasses.CleanTwice | extract_citations.py:23-81 | and turn "1 USC 2 CFR 3USC4" into "1 USC 2 CFR 3 USC 4" |
| CleanPasses.DoublyNestedNotIdempotent | extract_citations.py:23-81 | that citation is not nest-free; cleaning it twice differs from cleaning it once, whereas the one-citation canonicalisation keeps it as it is |
| CitationLaws.CleanedIsCanonical | extract_citations.py:216-217 | a recognised nest-free citation cleans to its rendering, and the cleaned text is recognised as the same citation |
| CitationLaws.NumericSectionNestFree | extract_citations.py:23-37 | a USC or CFR citation whose section is only digits and dots has no nested citation |
| CitationLaws.ExtractedCleans | extract_citations.py:184-187 | the text the scanner matches is, read with the cleaning patterns, exactly one citation and the same one the scanner saw |
| CitationLaws.ExtractedCitationIsRendered | extract_citations.py:186-187 | the citation stored for a nest-free scanned match is the canonical rendering of what the scanner recognised |
| CitationLaws.UscDottedForm | extract_citations.py:23-28 | every `t U.S.C. § s`, with the section sign and a nest-free section, cleans to "t USC s" |
| CitationLaws.ExecutiveOrderDottedForm | extract_citations.py:41-46 | "E.O. n" cleans to "Executive Order n" |
| CitationLaws.ExecutiveOrderShortForm | extract_citations.py:49-54 | "EO n" cleans to "Executive Order n" |
| CitationLaws.PublicLawDottedForm | extract_citations.py:58-63 | "P.L. g-l" cleans to "Public Law g-l" |
| CitationRecords.ScanFrom | extract_citations.py:184 | the finditer model: reported matches lie in the text, start at or after the scan position, and are real matches |
| CitationRecords.ScanOrdered | extract_citations.py:184 | reported matches come left to right without overlapping |
| CitationRecords.ScanComplete | extract_citations.py:184 | every position where the pattern matches is covered by some reported match |
| CitationRecords.ScanLeftmost | extract_citations.py:184 | no match starts before the first reported one |
| CitationRecords.ScanGaps | extract_citations.py:184 | no match starts between two consecutive reported ones |
| CitationRecords.Scan | extract_citations.py:184 | the matches of one page: each inside the text and a real match of the scanner pattern |
| CitationRecords.ScanInOrder | extract_citations.py:184 | a page's matches come left to right without overlapping |
| CitationRecords.FoundRendered | extract_citations.py:186-187 | a scanned match is well formed, the cleaning patterns read its text as the same citation, and a nest-free one cleans to its rendering |
| CitationRecords.Context | extract_citations.py:189 | the context keeps the non-space characters of the 100-character window around the match, and is at most (end - start) + 200 long |
| CitationRecords.ContextWindow | extract_citations.py:189 | the window reaches 100 characters either side, clipped at the ends of the text |
| CitationRecords.PageUrl | extract_citations.py:191 | the page link starts with the document URL |
| CitationRecords.PageUrlInjective | extract_citations.py:191 | different pages get different links |
| CitationRecords.RecordOf | extract_citations.py:186-192 | a record carries the document URL and the link to its 1-based page |
| CitationRecords.RecordOfFixed | extract_citations.py:186-192 | the record with the corrected section inference carries the same URL and page link |
| CitationRecords.RecordOfFixedAgrees | extract_citations.py:151-156 | the corrected record differs from the code's only in its section, and not at all when the context is on the page |
| CitationRecords.PageRecords | extract_citations.py:185-192 | one record per scanned match |
| CitationRecords.PageRecordMeaning | extract_citations.py:186-192 | each record holds the rendered citation (for a nest-free match), the sanitised context, the section `infer_section_name` gives for page k+1 from that context, and the page link |
| CitationRecords.PageRecordLink | extract_citations.py:191-192 | every record of a page links to that page and its document |
| CitationRecords.DocumentRecordOrigin | extract_citations.py:180-193 | every record of a document comes from a non-empty page and links to it |
| CitationRecords.RenderSanitized | extract_citations.py:216 | sanitising a canonical citation leaves it unchanged |
| SavedRows.SaveRow | extract_citations.py:215-217 | a saved row has one cell per header column |
| SavedRows.SavedCitation | extract_citations.py:216-217 | the save-time sanitise-then-clean keeps a nest-free canonical citation as it is |
| SavedRows.CitationCellKept | extract_citations.py:216-217 | a citation cell that `clean_citation` made from one whole, nest-free citation is saved unchanged |
| SavedRows.InferSectionSanitized | extract_citations.py:144-156 | with sanitised headings, every section name the inference gives, as written and as corrected, is already sanitised |
| SavedRows.SavedPageRecord | extract_citations.py:215-217 | saving a page record keeps its section and context cells unchanged, and its citation cell too when that cell reads as one nest-free citation |
| SavedRows.SavedPageMember | extract_citations.py:215-217 | the same for any record of a page, given as a member of the page's records |
| SavedRows.SavedDocumentRecord | extract_citations.py:215-217 | the same for every record of a document |
| TableOfContents.TocMatchAtLazy | extract_citations.py:132 | one lazy `heading\s+digits` match: the shortest heading without `\n` that is followed by whitespace and digits |
| TableOfContents.TocMatchFromLazy | extract_citations.py:132 | the lazy heading search from one point: a match is the first end of heading, without crossing a line break, that digits follow after whitespace; no match means no such end exists |
| TableOfContents.TocScan | extract_citations.py:136 | findall over a page: every hit is a valid match starting at or after the scan position |
| TableOfContents.TocScanOrdered | extract_citations.py:136 | findall's hits come left to right without overlapping |
| TableOfContents.TocScanSound | extract_citations.py:136 | each reported match is the match at its own start |
| TableOfContents.TocScanComplete | extract_citations.py:136 | every position at or after the scan start where a match begins lies inside some reported match |
| TableOfContents.TocScanLeftmost | extract_citations.py:136 | no match begins between the scan start and the first hit, nor anywhere after it when there is no hit |
| TableOfContents.TocScanGaps | extract_citations.py:136 | no match begins between the end of one hit and the start of the next |
| TableOfContents.TocPagesAppend | extract_citations.py:133-140 | entries are appended in page order |
| TableOfContents.FirstTenPagesOnly | extract_citations.py:133 | pages after the tenth never contribute |
| TableOfContents.TocPagesMembers | extract_citations.py:135-140 | an entry is in the table exactly when some page that carries the marker contributes it |
| TableOfContents.NoMarkerNoToc | extract_citations.py:135 | without "Table of Contents" in the first ten pages the table is empty |
| TableOfContents.TocHeadingsSanitized | extract_citations.py:138 | every heading is sanitised |
| TableOfContents.TocIndex | extract_citations.py:146-150 | the first entry whose interval holds the page, or none |
| TableOfContents.InferFromToc | extract_citations.py:145-150 | the first entry whose interval holds the page gives the section |
| TableOfContents.SortedTocCovers | extract_citations.py:147-150 | in a sorted table, a page at or after some entry always finds an interval |
| TableOfContents.TocLookupExample | extract_citations.py:145-150 | Introduction/Scope/Procedures at 1/5/12 give "Scope" for page 7 and "Procedures" for page 20 |
| TableOfContents.InferFallback | extract_citations.py:151-156 | with no interval, the result is "Unknown Section" when no line qualifies, otherwise the sanitised last line whose stripped form occurs before the context |
| TableOfContents.MissingContextPrefix | extract_citations.py:152-154 | when the context is not found, the prefix searched is the page minus its last character |
| TableOfContents.MissingContextExample | extract_citations.py:151-156 | on page "A\nB\nC" with context "B C" the code returns "B"; the corrected version returns "Unknown Section" |
| TableOfContents.FixedLinePrecedesContext | extract_citations.py:151-156 | in the corrected version, a fallback line always occurs before the context, which was found |
| TableOfContents.FixedAgreesWhenFound | extract_citations.py:151-156 | when the context is on the page, the corrected inference answers what the code answers |
| TableOfContents.EmptyPrefixUnknown | extract_citations.py:153-156 | an empty prefix admits no line |
| TextScrub.CollapseSpaces | scrub_IVN_Excel.py:47 | after `\s+` to " " there are no two whitespace characters in a row and every whitespace is a plain space |
| TextScrub.DeleteSpecial | scrub_IVN_Excel.py:52 | only letters, digits, the listed punctuation and whitespace remain |
| TextScrub.CleanText | scrub_IVN_Excel.py:42-54 | a non-string gives ""; the result is stripped and holds only letters, digits, the listed punctuation and spaces |
| TextScrub.CleanTextVisible | scrub_IVN_Excel.py:46-53 | the visible characters of the result are exactly the input's letters, digits and punctuation after dash and quote mapping, in order |
| TextScrub.CleanTextFixes | scrub_IVN_Excel.py:46-53 | a stripped, single-spaced text of allowed characters is left unchanged |
| TextScrub.CleanTextWhenNothingDeleted | scrub_IVN_Excel.py:46-53 | when no character is deleted, the result is single-spaced and cleaning is idempotent |
| TextScrub.DeletionLeavesDoubleSpace | scrub_IVN_Excel.py:47-52 | "a § b" cleans to "a  b", which is not single-spaced and changes when cleaned again; the corrected version gives "a b" |
| TextScrub.CleanTextFixed | scrub_IVN_Excel.py:31-54 | the corrected cleaning also yields a single-spaced result |
| TextScrub.CleanTextFixedIdempotent | scrub_IVN_Excel.py:35 | the corrected cleaning is idempotent |
| Deduplicate.Step | scrub_IVN_Excel.py:88-112 | a blank entry or a known text passes through; a new text becomes the key the matcher names among the non-blank keys, leaving the registry as it was, or, when it names none or there are no keys, becomes a key itself, appended last; representatives only grow |
| Deduplicate.NonBlankKeys | scrub_IVN_Excel.py:99 | exactly the non-blank representatives are offered to the matcher |
| Deduplicate.DeduplicateColumn | scrub_IVN_Excel.py:76-125 | same length; blanks pass through; every other output is an earlier (or the same) entry that kept its own text; a repeat of such an entry keeps its text; a text not yet kept becomes the matcher's answer against the texts kept before it, in the order they were kept, or stays itself when there is no answer |
| ScrubColumns.ScrubWith | scrub_IVN_Excel.py:66-68 | cleaning then deduplicating a column keeps its length; every output is the cleaned text of a cell at or before it; a cell that cleans to blank stays as cleaned; a repeat of a kept cleaned text stays itself; a new cleaned text becomes the matcher's answer against the cleaned texts kept before it |
| ScrubColumns.ScrubColumn | scrub_IVN_Excel.py:66-68 | with `clean_text` as written, every output is the cleaned text of a cell at or before it, so it is stripped and made of allowed characters; a cell that cleans to blank stays as cleaned; a repeat of a kept cleaned text stays itself; a new cleaned text becomes the matcher's answer |
| ScrubColumns.ScrubColumnFixed | scrub_IVN_Excel.py:66-68 | the same clauses with the corrected cleaning, and every output is moreover single-spaced |
| InferUrls.UrlMapKeys | Infer_URLs.py:37-38 | a name is in the URL map exactly when some row gives it a URL |
| InferUrls.UrlMapLastWins | Infer_URLs.py:37-38 | for a repeated name the last row with a URL wins |
| InferUrls.UrlMapUniform | Infer_URLs.py:37-38 | when every row with a given name carries the same URL, the map holds that URL for the name |
| InferUrls.CountKnownMonotone | Infer_URLs.py:50-51 | a column in which every known URL stays known counts at least as many |
| InferUrls.FillKeepsUrls | Infer_URLs.py:41-46 | a row that had a URL still has one |
| InferUrls.FillFindsUrl | Infer_URLs.py:41-46 | a row has a URL after the fill exactly when some row with its name had one |
| InferUrls.FillCountGrows | Infer_URLs.py:50-51 | the number of known URLs never goes down |
| InferUrls.FillOverwrites | Infer_URLs.py:41-46 | a row's own URL is replaced by a later row's URL for the same name |
| InferUrls.FillKeepsMap | Infer_URLs.py:37-46 | the filled column builds the same URL map |
| InferUrls.FillIdempotent | Infer_URLs.py:37-46 | filling twice equals filling once |
| InferUrls.CheckUrlStatus | Infer_URLs.py:61-73 | a cached URL returns its cached status without a request; otherwise "error" exactly when the request raised or answered 400 or more, and the status is cached; cached entries never change |
| InferUrls.CheckCell | Infer_URLs.py:87-96 | a present URL's status cell gets the cached status; an absent URL leaves the cell alone |
| InferUrls.CheckAll | Infer_URLs.py:86-98 | each present URL's status is its cached status; each cached status reflects its probe; every URL is requested at most once; the broken counts are the rows whose present URL has status "error"; the final cache holds exactly the URLs present in the rows |
| ComponentIds.NormalizeKeyChars | ivn_generate_unique_IDs_for_components.py:13 | a key holds only lower-case ASCII letters and digits |
| ComponentIds.NormalizeIdempotent | ivn_generate_unique_IDs_for_components.py:13 | normalising a key again gives the same key |
| ComponentIds.NormalizeIgnoresCase | ivn_generate_unique_IDs_for_components.py:13 | upper- or lower-casing the text does not change its key |
| ComponentIds.NormalizeIgnoresOthers | ivn_generate_unique_IDs_for_components.py:13 | inserting a character outside [a-zA-Z0-9] does not change the key |
| ComponentIds.IdIgnoresCase | ivn_generate_unique_IDs_for_components.py:15-17 | texts differing only in case get the same ID |
| ComponentIds.IdBoundaryCollision | ivn_generate_unique_IDs_for_components.py:16 | ("ab", "c") and ("a", "bc") get the same ID whatever the digest |
| ComponentIds.FillRow | ivn_generate_unique_IDs_for_components.py:27-30 | an ID is written only when the cell is missing or blank, and it is the digest of that side's source and description; no other column changes |
| ComponentIds.FillIdsCells | ivn_generate_unique_IDs_for_components.py:26-41 | after both loops, each ID cell is kept or filled from its own side's columns; all other cells are unchanged |
| ComponentIds.FillRowsCommute | ivn_generate_unique_IDs_for_components.py:26-41 | the enabling and dependent loops touch disjoint columns, so their order does not matter |
| ComponentIds.FillRowIdempotent | ivn_generate_unique_IDs_for_components.py:27-30 | with a hex digest, a filled ID is never blank, so a second pass changes nothing |
| ComponentIds.FillIdsIdempotent | ivn_generate_unique_IDs_for_components.py:23-43 | running the whole script on its output changes nothing |
| ExecutiveOrders.Words | import_new_EOs.py:21 | every found word is a non-empty run of word characters |
| ExecutiveOrders.WordsKeepWordChars | import_new_EOs.py:21 | the words hold every word character of the text, in order, and nothing else |
| ExecutiveOrders.WordsAreMaximalRuns | import_new_EOs.py:21 | each word is the text of a maximal run of word characters (a separator or the text's end on both sides), the runs come left to right with a separator between neighbours, and every word character lies in one |
| ExecutiveOrders.WordsOfUnwords | import_new_EOs.py:21-22 | words joined by spaces are found again |
| ExecutiveOrders.UnwordsShape | import_new_EOs.py:22 | joining words with a space leaves no space at either end and no two in a row |
| ExecutiveOrders.FirstWords | import_new_EOs.py:20-22 | the result is "" exactly when the text has no words; it has no space at either end and no double space |
| ExecutiveOrders.FirstWordsAreFirst | import_new_EOs.py:21-22 | the result's words are the text's first 300 words, or all of them when there are fewer |
| ExecutiveOrders.FirstWordsIdempotent | import_new_EOs.py:21-22 | applying it to its own output changes nothing |
| ExecutiveOrders.LoadsSound | import_new_EOs.py:41-55 | every kept page is a number in the inclusive range, with the text its loader gave |
| ExecutiveOrders.LoadsComplete | import_new_EOs.py:41-60 | every number in the range whose page loaded is kept; a page that raised is skipped |
| ExecutiveOrders.LoadsIncreasing | import_new_EOs.py:41 | pages are kept in increasing order of number |
| ExecutiveOrders.LabelInjective | import_new_EOs.py:57 | different numbers get different "EO n" labels |
| ExecutiveOrders.Fetch | import_new_EOs.py:41-60 | one row per page that loaded |
| ExecutiveOrders.FetchSound | import_new_EOs.py:41-57 | every row is "EO n" with the first words of page n, for some n in the inclusive range whose page loaded |
| ExecutiveOrders.FetchComplete | import_new_EOs.py:41-57 | every number in the range whose page loaded has its row |
| ExecutiveOrders.FetchTitlesDistinct | import_new_EOs.py:57 | no order number is written twice: the row titles are pairwise distinct |

## Left out

- PDF download and text extraction (`download_pdf`, its retries, the
  temporary file, PyPDF2). A document is given as its page texts, or as no
  download. A page whose text is empty is skipped, as in the code.
- The workbook side of `save_to_excel`: column widths, hyperlinks, file
  writing. Only the cell values are modelled.
- The 300-URL literal list and the driver in `main`. The model handles one
  URL at a time.
- CleanCitation: `clean_citation` is modelled only on a string that is
  exactly one citation, which is how the pipeline calls it, and the result
  is that citation's rendering. The code runs each substitution over the
  whole string in turn. So a citation nested in the section of another is
  rewritten too: "1 CFR 2USC3" becomes "1 CFR 2 USC 3", and "42 USC 2CFR3"
  becomes "42 USC 2 CFR 3". The model leaves such a section as it
  is. Any other string comes back unchanged here, whereas the code
  substitutes every citation found inside it.
- CitationLaws.CleanedIsCanonical: states the rendering only for
  nest-free citations, because of the nested rewriting above.
- CitationLaws.ExtractedCitationIsRendered: states the rendering only for
  nest-free matches, for the same reason.
- CitationLaws.UscDottedForm: requires a nest-free section, for the same
  reason.
- CitationRecords.FoundRendered: states the rendering only for nest-free
  matches, for the same reason.
- CitationRecords.PageRecordMeaning: states the record's citation only for
  nest-free matches, for the same reason.
- SavedRows.SavedCitation: requires a nest-free citation, for the same
  reason.
- SavedRows.CitationCellKept: requires a nest-free citation. The code
  cleans the citation cell a second time when it saves it. On a doubly
  nested citation that second cleaning rewrites the cell: "1 USC 2CFR3USC4"
  is extracted as "1 USC 2 CFR 3USC4" and saved as "1 USC 2 CFR 3 USC 4".
- SavedRows.SavedPageRecord: promises the citation cell only when it reads
  as one nest-free citation, for the reason above.
- SavedRows.SavedPageMember: the same.
- SavedRows.SavedDocumentRecord: the same.
- CitationLaws.CleanCitationIdempotent: is proved for the one-citation
  canonicalisation, which is the corrected definition. The code's
  sequential substitutions are not idempotent (see Findings).
- The fuzzy matcher's scoring (fuzzywuzzy with cutoff 90). It is a
  parameter that either returns one of the offered keys or nothing.
- Progress bars, progress printing, timing and `time.sleep`.
- The `Component ID` renumbering in scrub_IVN_Excel.py. It depends on
  pandas float/int conversion.
- Spreadsheet loading and saving in every script.
- The `astype(str)` of pre-existing status cells in Infer_URLs.py. Status
  cells are modelled as text, and a missing status column starts as "".
- The orange highlighting in Infer_URLs.py. It is styling only; note that
  it tests the URL columns for the text "error".
- The URL map and the status loop in Infer_URLs.py work on different
  projections of the same sheet: a `Link` per side for the map, and a
  `StatusRow` for the checks.
- Non-string spreadsheet values are represented by the text `str()` gives
  for them.
- A component name that is itself a missing value (a NaN dictionary key)
  is not modelled.
- InferUrls.CheckUrlStatus: only `requests.RequestException` is caught in
  the code. Any other exception would stop the script; the model's probe
  either answers or raises a request error.
- SHA-256 itself: the digest is a parameter. The idempotence lemmas assume
  only that it yields 64 hex digits.
- The Selenium browser in `fetch_executive_orders`: waiting for the page,
  and choosing between the `article-body` element and `main`. The loader
  is a parameter giving the element's text, or nothing when anything
  raised.
- ComponentIds.Normalize: `lower()` is ASCII. A non-ASCII character that
  Python lower-cases into ASCII (the Kelvin sign, for example) is removed
  here rather than kept.
- ExecutiveOrders.Words: `\w` is ASCII, so non-ASCII letters split words
  here.
- generate_ivn_recommendations.py: calls to a remote language-model API
  with unbounded retry. It is not part of this model.

## Findings

| source | as written | input that shows it | evidently intended | confidence | as-written member | corrected member |
|---|---|---|---|---|---|---|
| scrub_IVN_Excel.py:47-53 | whitespace is collapsed before special characters are deleted, so a deleted character between two spaces leaves a double space, and a second cleaning changes the text | `clean_text("a § b")` gives `"a  b"`, and cleaning that gives `"a b"` | a single-spaced result, as the docstring promises, and idempotence | high; not executed | TextScrub.DeletionLeavesDoubleSpace | TextScrub.CleanTextFixedIdempotent |
| extract_citations.py:23-81 | each substitution runs over the whole output of the one before, so a citation nested in a section that itself sits in another citation's section is split only by a later call | `clean_citation("1 USC 2CFR3USC4")` gives `"1 USC 2 CFR 3USC4"`, and cleaning that gives `"1 USC 2 CFR 3 USC 4"` | cleaning is idempotent, so the save-time cleaning at extract_citations.py:217 changes nothing | medium; not executed | CleanPasses.DoublyNestedNotIdempotent | CitationLaws.CleanCitationIdempotent |
| extract_citations.py:152-154 | when the context is not on the page, `find` returns -1 and `page_text[:-1]` is searched, so almost any line qualifies | page `"A\nB\nC"` with context `"B C"` gives section `"B"` | no fallback line when the context is not found | high; not executed | TableOfContents.MissingContextExample | TableOfContents.FixedLinePrecedesContext |

The pipeline members model the code as written. The corrected definitions
sit beside them:

- `TextScrub.CleanTextFixed` strips, maps, deletes, then collapses
  whitespace. `ScrubColumns.ScrubColumnFixed` scrubs a column with it,
  next to `ScrubColumns.ScrubColumn`, which uses `TextScrub.CleanText`.
- `TableOfContents.InferSectionFixed` searches an empty prefix when the
  context is missing. `CitationRecords.RecordOfFixed` builds a record with
  it, next to `CitationRecords.RecordOf`, which uses
  `TableOfContents.InferSection`.
- `CitationPatterns.CleanCitation` reads a citation cell as one citation
  and renders it once. The records and the saved rows use it.
  `CleanPasses.CleanAsWritten` runs the seven substitutions of the code in
  turn.

The context is sanitised before the search, so it is missing from the page
whenever its window crosses a line break. With no table of contents, page
"A\nTitle 5" gives section "A" as written and "Unknown Section" corrected.
`CitationRecords.RecordOfFixedAgrees` shows that the two records differ
only when the context is missing from the page.

=== FILE: citation_laws.dfy ===
/** What the citation recognisers promise: every citation they read is well
    formed, reading a rendered citation gives it back, clean_citation is
    idempotent, and whatever the page scanner matches, clean_citation reads as
    the same citation. */
module CitationLaws {
  import opened Common
  import opened CitationPatterns

  /** The shape of each kind's canonical parts. */
  predicate WellFormed(c: Citation)
  {
    match c
    case Usc(t, sec) => Digits(t) && IsSection(sec)
    case Cfr(t, sec) => Digits(t) && IsSection(sec)
    case ExecutiveOrder(n) => Digits(n)
    case PublicLaw(g, d, l) => Digits(g) && |g| <= 3 && IsDash(d) && Digits(l) && |l| <= 4
    case ActOf(y) => Digits(y) && |y| == 4
    case TitleRef(n) => Digits(n)
  }

  // ------------------------------------------------------------ sections

  lemma {:induction false} DottedEndShift(pre: string, s: string, k: nat)
    requires k <= |s|
    ensures DottedEnd(pre + s, |pre| + k) == |pre| + DottedEnd(s, k)
    decreases |s| - k
  {
    var t := pre + s;
    if k + 1 < |s| {
      assert t[|pre| + k] == s[k] && t[|pre| + k + 1] == s[k + 1];
    }
    if k + 1 < |s| && s[k] == '.' && IsDigit(s[k + 1]) {
      SpanEndShift(pre, s, k + 1, IsDigit);
      DottedEndShift(pre, s, SpanEnd(s, k + 1, IsDigit));
    }
  }

  lemma SectionEndShift(pre: string, s: string, j: nat, mode: Mode)
    requires j <= |s|
    ensures SectionEnd(pre + s, |pre| + j, mode) == |pre| + SectionEnd(s, j, mode)
  {
    SpanEndShift(pre, s, j, IsDigit);
    var d := SpanEnd(s, j, IsDigit);
    if d != j {
      SectionTailShift(pre, s, d, mode);
    }
  }

  /** The part of a section number after its leading digits moves with it. */
  lemma SectionTailShift(pre: string, s: string, d: nat, mode: Mode)
    requires d <= |s|
    ensures SpanEnd(pre + s, DottedEnd(pre + s, |pre| + d), SuffixClass(mode))
         == |pre| + SpanEnd(s, DottedEnd(s, d), SuffixClass(mode))
  {
    DottedEndShift(pre, s, d);
    SpanEndShift(pre, s, DottedEnd(s, d), SuffixClass(mode));
  }

  lemma {:induction false} DottedEndTruncate(s: string, k: nat, n: nat)
    requires k <= n <= |s|
    requires DottedEnd(s, k) <= n
    ensures DottedEnd(s[..n], k) == DottedEnd(s, k)
    decreases |s| - k
  {
    var t := s[..n];
    if k + 1 < n {
      assert t[k] == s[k] && t[k + 1] == s[k + 1];
    }
    if k + 1 < |s| && s[k] == '.' && IsDigit(s[k + 1]) {
      var d := SpanEnd(s, k + 1, IsDigit);
      SpanEndTruncate(s, k + 1, n, IsDigit);
      DottedEndTruncate(s, d, n);
    }
  }

  lemma SectionEndTruncate(s: string, j: nat, n: nat, mode: Mode)
    requires j <= n <= |s|
    requires SectionEnd(s, j, mode) <= n
    ensures SectionEnd(s[..n], j, mode) == SectionEnd(s, j, mode)
  {
    var d := SpanEnd(s, j, IsDigit);
    SpanEndTruncate(s, j, n, IsDigit);
    if d != j {
      var g := DottedEnd(s, d);
      DottedEndTruncate(s, d, n);
      SpanEndTruncate(s, g, n, SuffixClass(mode));
    }
  }

  /** A section the scanner ends at `n` is, cut there, a whole section for
      clean_citation, whose suffix class is the wider one. */
  lemma SectionExtractToClean(s: string, j: nat, n: nat)
    requires j <= n <= |s|
    requires SectionEnd(s, j, Extract) == n
    ensures SectionEnd(s[..n], j, Clean) == n
  {
    var d := SpanEnd(s, j, IsDigit);
    SpanEndTruncate(s, j, n, IsDigit);
    if d != j {
      var g := DottedEnd(s, d);
      DottedEndTruncate(s, d, n);
      SpanEndUnique(s[..n], g, n, IsAlnumOrParen);
    }
  }

  /** The characters a section spans form a section on their own. */
  lemma SectionSliceIsSection(s: string, c: nat, mode: Mode)
    requires c < |s| && IsDigit(s[c])
    ensures IsSection(s[c..SectionEnd(s, c, mode)])
  {
    var e := SectionEnd(s, c, mode);
    var x := s[c..e];
    SectionEndTruncate(s, c, e, mode);
    assert s[..e] == s[..c] + x;
    SectionEndShift(s[..c], x, 0, mode);
    assert SectionEnd(x, 0, mode) == |x|;
    if mode == Extract {
      SectionExtractToClean(x, 0, |x|);
      assert x[..|x|] == x;
    }
  }

  // ------------------------------------------------------------ soundness

  lemma DigitsSlice(s: string, a: nat, e: nat)
    requires a < e <= |s|
    requires forall i :: a <= i < e ==> IsDigit(s[i])
    ensures Digits(s[a..e])
  {
  }

  lemma CodeWellFormed(s: string, b: bool, m: Mode)
    ensures ParseCode(s, b, m).Some? ==> WellFormed(ParseCode(s, b, m).value.citation)
  {
    if ParseCode(s, b, m).Some? {
      var t := SpanEnd(s, 0, IsDigit);
      var g := CodeForm(s, SpanEnd(s, t, IsSpace)).value.1;
      SectionSliceIsSection(s, SectionStart(s, g), m);
      DigitsSlice(s, 0, t);
    }
  }

  lemma ExecutiveOrderWellFormed(s: string, b: bool, m: Mode)
    ensures ParseExecutiveOrder(s, b, m).Some? ==> WellFormed(ParseExecutiveOrder(s, b, m).value.citation)
  {
    if ParseExecutiveOrder(s, b, m).Some? {
      var a := SpanEnd(s, ExecutiveOrderHead(s).value, IsSpace);
      DigitsSlice(s, a, SpanEnd(s, a, IsDigit));
    }
  }

  lemma ShortOrderWellFormed(s: string, b: bool)
    ensures ParseShortOrder(s, b).Some? ==> WellFormed(ParseShortOrder(s, b).value.citation)
  {
    if ParseShortOrder(s, b).Some? {
      var a := SpanEnd(s, 2, IsSpace);
      DigitsSlice(s, a, SpanEnd(s, a, IsDigit));
    }
  }

  lemma LawNumberWellFormed(s: string, a: nat, m: Mode)
    requires a <= |s|
    ensures ParseLawNumber(s, a, m).Some? ==> WellFormed(ParseLawNumber(s, a, m).value.citation)
  {
    if ParseLawNumber(s, a, m).Some? {
      var d1 := SpanEnd(s, a, IsDigit);
      var d2 := SpanEnd(s, d1 + 1, IsDigit);
      var e := if d2 - (d1 + 1) > 4 then d1 + 5 else d2;
      DigitsSlice(s, a, d1);
      DigitsSlice(s, d1 + 1, d2);
      DigitsSlice(s, d1 + 1, e);
    }
  }

  lemma PublicLawWellFormed(s: string, b: bool, m: Mode)
    ensures ParsePublicLaw(s, b, m).Some? ==> WellFormed(ParsePublicLaw(s, b, m).value.citation)
  {
    if ParsePublicLaw(s, b, m).Some? {
      LawNumberWellFormed(s, SpanEnd(s, PublicLawHead(s).value.0, IsSpace), m);
    }
  }

  lemma ActWellFormed(s: string, b: bool, m: Mode)
    ensures ParseAct(s, b, m).Some? ==> WellFormed(ParseAct(s, b, m).value.citation)
  {
    if ParseAct(s, b, m).Some? {
      var w := ActHead(s).value;
      DigitsSlice(s, w, w + 4);
    }
  }

  lemma TitleWellFormed(s: string, b: bool, m: Mode)
    ensures ParseTitle(s, b, m).Some? ==> WellFormed(ParseTitle(s, b, m).value.citation)
  {
    if ParseTitle(s, b, m).Some? {
      var w := SpanEnd(s, 5, IsSpace);
      DigitsSlice(s, w, SpanEnd(s, w, IsDigit));
    }
  }

  /** Every citation the recognisers read, in either mode, is well formed. */
  lemma ParseWellFormed(s: string, boundary: bool, mode: Mode)
    ensures ParseAt(s, boundary, mode).Some? ==> WellFormed(ParseAt(s, boundary, mode).value.citation)
  {
    CodeWellFormed(s, boundary, mode);
    ExecutiveOrderWellFormed(s, boundary, mode);
    ShortOrderWellFormed(s, boundary);
    PublicLawWellFormed(s, boundary, mode);
    ActWellFormed(s, boundary, mode);
    TitleWellFormed(s, boundary, mode);
  }

  // ------------------------------------------------------------ round trip

  lemma LiteralMismatch(s: string, j: nat, lit: string, i: nat)
    requires i < |lit| && j + i < |s|
    requires Lower(s[j + i]) != Lower(lit[i])
    ensures !LiteralAt(s, j, lit)
  {
  }

  lemma LiteralAtChar(s: string, j: nat, lit: string, i: nat)
    requires LiteralAt(s, j, lit) && i < |lit|
    ensures Lower(s[j + i]) == Lower(lit[i])
  {
  }

  lemma LiteralAtSlice(s: string, j: nat, lit: string)
    requires j + |lit| <= |s| && s[j..j + |lit|] == lit
    ensures LiteralAt(s, j, lit)
  {
    forall i | 0 <= i < |lit|
      ensures Lower(s[j + i]) == Lower(lit[i])
    {
      assert s[j + i] == s[j..j + |lit|][i];
    }
  }

  /** A literal inside the fixed head of a string. */
  lemma LiteralInHead(s: string, head: string, j: nat, lit: string)
    requires |head| <= |s| && s[..|head|] == head
    requires j + |lit| <= |head| && head[j..j + |lit|] == lit
    ensures LiteralAt(s, j, lit)
  {
    forall i | 0 <= i < |lit|
      ensures Lower(s[j + i]) == Lower(lit[i])
    {
      assert s[j + i] == s[..|head|][j + i] == head[j..j + |lit|][i];
    }
  }

  /** A digit run that ends the string. */
  lemma DigitsTail(pre: string, n: string)
    requires Digits(n)
    ensures SpanEnd(pre + n, |pre|, IsDigit) == |pre + n|
    ensures (pre + n)[|pre|..|pre + n|] == n
  {
    var r := pre + n;
    assert forall i :: |pre| <= i < |r| ==> r[i] == n[i - |pre|];
    SpanEndUnique(r, |pre|, |r|, IsDigit);
  }

  /** A digit run that ends at a non-digit. */
  lemma DigitsBefore(pre: string, n: string, c: char, rest: string)
    requires Digits(n) && !IsDigit(c)
    ensures SpanEnd(pre + n + [c] + rest, |pre|, IsDigit) == |pre| + |n|
  {
    var tail := n + ([c] + rest);
    assert pre + n + [c] + rest == pre + tail;
    DigitsRun(n, [c] + rest);
    SpanEndShift(pre, tail, 0, IsDigit);
  }

  /** Where the parts of `pre n c rest` sit. */
  lemma PartsAt(pre: string, n: string, c: char, rest: string)
    ensures var r := pre + n + [c] + rest;
      r[|pre|..|pre| + |n|] == n && r[|pre| + |n|] == c && r[|pre| + |n| + 1..] == rest
  {
  }

  /** A well-formed law number read from position |pre| to the end. */
  lemma LawNumberAt(pre: string, g: string, d: char, l: string)
    requires WellFormed(PublicLaw(g, d, l))
    ensures ParseLawNumber(pre + g + [d] + l, |pre|, Clean)
              == Some(Match(PublicLaw(g, d, l), |pre + g + [d] + l|))
  {
    var r := pre + g + [d] + l;
    DigitsBefore(pre, g, d, l);
    PartsAt(pre, g, d, l);
    DigitsTail(pre + g + [d], l);
  }

  // Each alternative starts with its own pair of characters, so at most one
  // alternative can match at a position.

  lemma CodeLead(s: string, b: bool, m: Mode)
    ensures ParseCode(s, b, m).Some? ==> |s| > 0 && IsDigit(s[0])
  {
  }

  lemma ExecutiveOrderHeadLead(s: string)
    ensures ExecutiveOrderHead(s).Some? ==>
              |s| >= 2 && Lower(s[0]) == 'e' && (Lower(s[1]) == '.' || Lower(s[1]) == 'x')
  {
    if LiteralAt(s, 0, "E.O.") {
      LiteralAtChar(s, 0, "E.O.", 0);
      LiteralAtChar(s, 0, "E.O.", 1);
    } else if LiteralAt(s, 0, "Executive") {
      LiteralAtChar(s, 0, "Executive", 0);
      LiteralAtChar(s, 0, "Executive", 1);
    }
  }

  lemma ExecutiveOrderLead(s: string, b: bool, m: Mode)
    ensures ParseExecutiveOrder(s, b, m).Some? ==>
              |s| >= 2 && Lower(s[0]) == 'e' && (Lower(s[1]) == '.' || Lower(s[1]) == 'x')
  {
    ExecutiveOrderHeadLead(s);
  }

  lemma ShortOrderLead(s: string, b: bool)
    ensures ParseShortOrder(s, b).Some? ==> |s| >= 2 && Lower(s[0]) == 'e' && Lower(s[1]) == 'o'
  {
    if LiteralAt(s, 0, "EO") {
      LiteralAtChar(s, 0, "EO", 0);
      LiteralAtChar(s, 0, "EO", 1);
    }
  }

  lemma PublicLawHeadLead(s: string)
    ensures PublicLawHead(s).Some? ==>
              |s| >= 2 && Lower(s[0]) == 'p' && (Lower(s[1]) == 'u' || Lower(s[1]) == '.')
  {
    if LiteralAt(s, 0, "Public") {
      LiteralAtChar(s, 0, "Public", 0);
      LiteralAtChar(s, 0, "Public", 1);
    } else if LiteralAt(s, 0, "P.L.") {
      LiteralAtChar(s, 0, "P.L.", 0);
      LiteralAtChar(s, 0, "P.L.", 1);
    }
  }

  lemma PublicLawLead(s: string, b: bool, m: Mode)
    ensures ParsePublicLaw(s, b, m).Some? ==>
              |s| >= 2 && Lower(s[0]) == 'p' && (Lower(s[1]) == 'u' || Lower(s[1]) == '.')
  {
    PublicLawHeadLead(s);
  }

  lemma ActLead(s: string, b: bool, m: Mode)
    ensures ParseAct(s, b, m).Some? ==> |s| >= 2 && Lower(s[0]) == 'a' && Lower(s[1]) == 'c'
  {
    if LiteralAt(s, 0, "Act") {
      LiteralAtChar(s, 0, "Act", 0);
      LiteralAtChar(s, 0, "Act", 1);
    }
  }

  lemma TitleLead(s: string, b: bool, m: Mode)
    ensures ParseTitle(s, b, m).Some? ==> |s| >= 2 && Lower(s[0]) == 't' && Lower(s[1]) == 'i'
  {
    if LiteralAt(s, 0, "Title") {
      LiteralAtChar(s, 0, "Title", 0);
      LiteralAtChar(s, 0, "Title", 1);
    }
  }

  lemma TitleParses(num: string)
    requires Digits(num)
    ensures ParseTitle(Render(TitleRef(num)), true, Clean) == Some(Match(TitleRef(num), |Render(TitleRef(num))|))
  {
    var r := Render(TitleRef(num));
    assert r == "Title " + num;
    assert r[..5] == "Title";
    LiteralAtSlice(r, 0, "Title");
    assert r[5] == ' ' && r[6] == num[0];
    SpanEndUnique(r, 5, 6, IsSpace);
    assert forall i :: 6 <= i < |r| ==> r[i] == num[i - 6];
    SpanEndUnique(r, 6, |r|, IsDigit);
    assert r[6..|r|] == num;
    assert LiteralAt(r, 0, "Title");
    assert SpanEnd(r, 5, IsSpace) == 6;
    assert SpanEnd(r, 6, IsDigit) == |r|;
    assert ParseTitle(r, true, Clean) == Some(Match(TitleRef(r[6..|r|]), |r|));
  }

  lemma TitleRoundTrip(num: string)
    requires Digits(num)
    ensures Recognize(Render(TitleRef(num))) == Some(TitleRef(num))
  {
    var r := Render(TitleRef(num));
    assert r[0] == 'T' && r[1] == 'i';
    CodeLead(r, true, Clean);
    ExecutiveOrderLead(r, true, Clean);
    ShortOrderLead(r, true);
    PublicLawLead(r, true, Clean);
    ActLead(r, true, Clean);
    TitleParses(num);
  }

  /** "Executive Order " is read as the long head, up to the blank. */
  lemma ExecutiveOrderHeadRendered(n: string)
    ensures ExecutiveOrderHead("Executive Order " + n) == Some(15)
  {
    var head := "Executive Order ";
    var r := head + n;
    assert r[..|head|] == head;
    assert r[1] == 'x' && r[9] == ' ' && r[10] == 'O';
    LiteralMismatch(r, 0, "E.O.", 1);
    assert head[0..9] == "Executive";
    LiteralInHead(r, head, 0, "Executive");
    SpanEndUnique(r, 9, 10, IsSpace);
    assert head[10..15] == "Order";
    LiteralInHead(r, head, 10, "Order");
  }

  lemma ExecutiveOrderParses(n: string)
    requires Digits(n)
    ensures ParseExecutiveOrder(Render(ExecutiveOrder(n)), true, Clean)
              == Some(Match(ExecutiveOrder(n), |Render(ExecutiveOrder(n))|))
  {
    var head := "Executive Order ";
    var r := head + n;
    ExecutiveOrderHeadRendered(n);
    assert r[15] == ' ' && r[16] == n[0];
    SpanEndUnique(r, 15, 16, IsSpace);
    DigitsTail(head, n);
  }

  lemma ExecutiveOrderRoundTrip(n: string)
    requires Digits(n)
    ensures Recognize(Render(ExecutiveOrder(n))) == Some(ExecutiveOrder(n))
  {
    var r := Render(ExecutiveOrder(n));
    assert r[0] == 'E';
    CodeLead(r, true, Clean);
    ExecutiveOrderParses(n);
  }

  lemma ActParses(y: string)
    requires Digits(y) && |y| == 4
    ensures ParseAct(Render(ActOf(y)), true, Clean) == Some(Match(ActOf(y), |Render(ActOf(y))|))
  {
    var r := Render(ActOf(y));
    assert r == "Act of " + y;
    assert r[..3] == "Act";
    LiteralAtSlice(r, 0, "Act");
    SpanEndUnique(r, 3, 4, IsSpace);
    assert r[4..6] == "of";
    LiteralAtSlice(r, 4, "of");
    assert r[7] == y[0];
    SpanEndUnique(r, 6, 7, IsSpace);
    assert ActHead(r) == Some(7);
    assert forall i :: 7 <= i < |r| ==> r[i] == y[i - 7];
    SpanEndUnique(r, 7, |r|, IsDigit);
    assert r[7..11] == y;
  }

  lemma ActRoundTrip(y: string)
    requires Digits(y) && |y| == 4
    ensures Recognize(Render(ActOf(y))) == Some(ActOf(y))
  {
    var r := Render(ActOf(y));
    assert r[0] == 'A';
    CodeLead(r, true, Clean);
    ExecutiveOrderLead(r, true, Clean);
    ShortOrderLead(r, true);
    PublicLawLead(r, true, Clean);
    ActParses(y);
  }

  lemma PublicLawParses(g: string, d: char, l: string)
    requires WellFormed(PublicLaw(g, d, l))
    ensures ParsePublicLaw(Render(PublicLaw(g, d, l)), true, Clean)
              == Some(Match(PublicLaw(g, d, l), |Render(PublicLaw(g, d, l))|))
  {
    var head := "Public Law ";
    var r := head + g + [d] + l;
    assert r[..|head|] == head;
    assert r[6] == ' ' && r[7] == 'L' && r[10] == ' ' && r[11] == g[0];
    assert head[0..6] == "Public";
    LiteralInHead(r, head, 0, "Public");
    SpanEndUnique(r, 6, 7, IsSpace);
    assert head[7..10] == "Law";
    LiteralInHead(r, head, 7, "Law");
    assert PublicLawHead(r) == Some((10, true));
    SpanEndUnique(r, 10, 11, IsSpace);
    LawNumberAt(head, g, d, l);
  }

  lemma PublicLawRoundTrip(g: string, d: char, l: string)
    requires WellFormed(PublicLaw(g, d, l))
    ensures Recognize(Render(PublicLaw(g, d, l))) == Some(PublicLaw(g, d, l))
  {
    var r := Render(PublicLaw(g, d, l));
    assert r[0] == 'P';
    CodeLead(r, true, Clean);
    ExecutiveOrderLead(r, true, Clean);
    ShortOrderLead(r, true);
    PublicLawParses(g, d, l);
  }

  /** The code name as rendered, "USC" or "CFR", is read as its own kind. */
  lemma CodeFormRendered(r: string, f: nat, kind: CodeKind)
    requires f + 3 <= |r|
    requires r[f..f + 3] == CodeName(kind)
    ensures CodeForm(r, f) == Some((kind, f + 3))
  {
    assert r[f] == r[f..f + 3][0] && r[f + 1] == r[f..f + 3][1];
    if kind == UscKind {
      LiteralMismatch(r, f, "U.S.C.", 1);
      LiteralAtSlice(r, f, "USC");
    } else {
      LiteralMismatch(r, f, "U.S.C.", 0);
      LiteralMismatch(r, f, "USC", 0);
      LiteralMismatch(r, f, "U.S. Code", 0);
      LiteralMismatch(r, f, "C.F.R.", 1);
      LiteralAtSlice(r, f, "CFR");
    }
  }

  /** A digit run followed by a non-digit ends where the run does. */
  lemma DigitsRun(t: string, rest: string)
    requires Digits(t) && |rest| > 0 && !IsDigit(rest[0])
    ensures SpanEnd(t + rest, 0, IsDigit) == |t|
    ensures (t + rest)[..|t|] == t
  {
    var r := t + rest;
    assert forall i :: 0 <= i < |t| ==> r[i] == t[i];
    assert r[|t|] == rest[0];
    SpanEndUnique(r, 0, |t|, IsDigit);
  }

  /** Blanks and then a digit: the section starts at the digit. */
  lemma SectionStartAtDigit(s: string, g: nat, c: nat)
    requires g <= c < |s| && IsDigit(s[c])
    requires forall i :: g <= i < c ==> IsSpace(s[i])
    ensures SectionStart(s, g) == c
  {
    SpanEndUnique(s, g, c, IsSpace);
    assert s[c] != '§';
    SpanEndUnique(s, c, c, IsSpace);
  }

  /** The code name Render writes. */
  function CodeName(kind: CodeKind): (name: string)
    ensures |name| == 3
  {
    if kind == UscKind then "USC" else "CFR"
  }

  /** The characters of `t name sec` after the title digits. */
  lemma CodeRenderedChars(t: string, name: string, sec: string)
    requires |name| == 3 && |sec| > 0
    ensures var r, p := t + " " + name + " " + sec, |t|;
      && |r| == p + 5 + |sec| && r[p] == ' ' && r[p + 1..p + 4] == name
      && r[p + 1] == name[0] && r[p + 4] == ' ' && r[p + 5] == sec[0]
  {
    var tail := " " + name + " " + sec;
    var r := t + " " + name + " " + sec;
    var p := |t|;
    assert r == t + tail;
    assert forall k :: 0 <= k < |tail| ==> r[p + k] == tail[k];
    assert tail[1..4] == name;
  }

  /** The positions in `t name sec`, for the rendered code names. */
  lemma CodeRenderedHead(t: string, kind: CodeKind, sec: string)
    requires Digits(t) && |sec| > 0 && IsDigit(sec[0])
    ensures var r, p := t + " " + CodeName(kind) + " " + sec, |t|;
      && SpanEnd(r, 0, IsDigit) == p && r[..p] == t
      && SpanEnd(r, p, IsSpace) == p + 1
      && CodeForm(r, p + 1) == Some((kind, p + 4))
      && SectionStart(r, p + 4) == p + 5
  {
    var name := CodeName(kind);
    var r := t + " " + name + " " + sec;
    var p := |t|;
    CodeRenderedChars(t, name, sec);
    assert r == t + (" " + name + " " + sec);
    DigitsRun(t, " " + name + " " + sec);
    SpanEndUnique(r, p, p + 1, IsSpace);
    CodeFormRendered(r, p + 1, kind);
    SectionStartAtDigit(r, p + 4, p + 5);
  }

  /** The USC/CFR alternative, given where each of its parts ends. */
  lemma ParseCodeAt(s: string, mode: Mode, t: nat, f: nat, kind: CodeKind, g: nat, c: nat, e: nat)
    requires 0 < t && SpanEnd(s, 0, IsDigit) == t && SpanEnd(s, t, IsSpace) == f
    requires CodeForm(s, f) == Some((kind, g)) && SectionStart(s, g) == c
    requires SectionEnd(s, c, mode) == e && c < e
    ensures ParseCode(s, true, mode)
              == Some(Match(if kind == UscKind then Usc(s[..t], s[c..e]) else Cfr(s[..t], s[c..e]), e))
  {
  }

  /** The second part of a concatenation, as a slice. */
  lemma SuffixSlice(pre: string, x: string)
    ensures (pre + x)[|pre|..|pre + x|] == x
  {
  }

  /** A whole string read by the USC/CFR alternative is cleaned to the
      rendering of what it reads. */
  lemma CodeRecognized(s: string, m: Match)
    requires ParseCode(s, true, Clean) == Some(m) && m.end == |s|
    ensures Recognize(s) == Some(m.citation)
    ensures CleanCitation(s) == Render(m.citation)
  {
  }

  /** `t name sec` read by the USC/CFR alternative. */
  lemma CodeParsesRendered(t: string, kind: CodeKind, sec: string)
    requires Digits(t) && IsSection(sec)
    ensures var r := t + " " + CodeName(kind) + " " + sec;
      var m := if kind == UscKind then Usc(t, sec) else Cfr(t, sec);
      ParseCode(r, true, Clean) == Some(Match(m, |r|))
  {
    var pre := t + " " + CodeName(kind) + " ";
    var r := pre + sec;
    var p := |t|;
    CodeRenderedHead(t, kind, sec);
    SectionEndShift(pre, sec, 0, Clean);
    SuffixSlice(pre, sec);
    ParseCodeAt(r, Clean, p, p + 1, kind, p + 4, p + 5, |r|);
  }

  lemma CodeRenderShape(c: Citation)
    requires c.Usc? || c.Cfr?
    ensures Render(c) == c.title + " " + CodeName(if c.Usc? then UscKind else CfrKind) + " " + c.section
  {
  }

  lemma CodeParses(c: Citation)
    requires (c.Usc? || c.Cfr?) && WellFormed(c)
    ensures ParseCode(Render(c), true, Clean) == Some(Match(c, |Render(c)|))
  {
    var kind := if c.Usc? then UscKind else CfrKind;
    CodeRenderShape(c);
    CodeParsesRendered(c.title, kind, c.section);
  }

  lemma CodeRoundTrip(c: Citation)
    requires (c.Usc? || c.Cfr?) && WellFormed(c)
    ensures Recognize(Render(c)) == Some(c)
  {
    CodeParses(c);
  }

  /** Reading a rendered citation gives the citation back. */
  lemma RenderRoundTrip(c: Citation)
    requires WellFormed(c)
    ensures Recognize(Render(c)) == Some(c)
  {
    match c
    case ExecutiveOrder(n) => ExecutiveOrderRoundTrip(n);
    case PublicLaw(g, d, l) => PublicLawRoundTrip(g, d, l);
    case ActOf(y) => ActRoundTrip(y);
    case TitleRef(n) => TitleRoundTrip(n);
    case Usc(_, _) => CodeRoundTrip(c);
    case Cfr(_, _) => CodeRoundTrip(c);
  }

  /** clean_citation leaves its own output alone. */
  lemma CleanCitationIdempotent(s: string)
    ensures CleanCitation(CleanCitation(s)) == CleanCitation(s)
  {
    match Recognize(s)
    case None =>
    case Some(c) =>
      ParseWellFormed(s, true, Clean);
      RenderRoundTrip(c);
  }

  /** A section made of digits and dots holds no nested citation: the
      nesting case needs letters in the section. */
  lemma NumericSectionNestFree(c: Citation)
    requires c.Usc? || c.Cfr?
    requires forall i :: 0 <= i < |c.section| ==> IsDigit(c.section[i]) || c.section[i] == '.'
    ensures NestFree(c)
  {
    var sec := c.section;
    forall i | 0 <= i < |sec|
      ensures !NestedCodeAt(sec, i, "CFR") && !NestedCodeAt(sec, i, "USC") && !NestedOrderAt(sec, i)
    {
      var d := SpanEnd(sec, i, IsDigit);
      if d < |sec| {
        FirstLetterDiffers(sec, d, "CFR");
        FirstLetterDiffers(sec, d, "USC");
      }
      FirstLetterDiffers(sec, i, "ExecutiveOrder");
    }
  }

  /** A literal that starts with a letter is not found at a digit or a dot. */
  lemma FirstLetterDiffers(s: string, j: nat, lit: string)
    requires j < |s| && (IsDigit(s[j]) || s[j] == '.')
    requires |lit| > 0 && IsLetter(lit[0])
    ensures !LiteralAt(s, j, lit)
  {
  }

  /** A nest-free citation cleans to the rendering of the citation it was
      read from, and reading that rendering gives the same citation. */
  lemma CleanedIsCanonical(s: string)
    ensures Recognize(s).Some? && NestFree(Recognize(s).value) ==>
      && CleanCitation(s) == Render(Recognize(s).value)
      && Recognize(CleanCitation(s)) == Recognize(s)
  {
    if Recognize(s).Some? {
      ParseWellFormed(s, true, Clean);
      RenderRoundTrip(Recognize(s).value);
    }
  }

  // ------------------------------------------------------------ scanner to cleaner

  lemma CodeFormTruncate(s: string, f: nat, n: nat)
    requires n <= |s| && CodeForm(s, f).Some? && CodeForm(s, f).value.1 <= n
    ensures CodeForm(s[..n], f) == CodeForm(s, f)
  {
    LiteralAtTruncate(s, f, n, "U.S.C.");
    LiteralAtTruncate(s, f, n, "USC");
    LiteralAtTruncate(s, f, n, "U.S. Code");
    LiteralAtTruncate(s, f, n, "C.F.R.");
    LiteralAtTruncate(s, f, n, "CFR");
    LiteralAtTruncate(s, f, n, "Code of Federal Regulations");
  }

  lemma SectionStartTruncate(s: string, g: nat, n: nat)
    requires g <= n <= |s| && SectionStart(s, g) < n
    ensures SectionStart(s[..n], g) == SectionStart(s, g)
  {
    var a := SpanEnd(s, g, IsSpace);
    SpanEndTruncate(s, g, n, IsSpace);
    var b := if a < |s| && s[a] == '§' then a + 1 else a;
    if a < n {
      assert s[..n][a] == s[a];
    }
    SpanEndTruncate(s, b, n, IsSpace);
  }

  /** What the scanner's USC/CFR alternative matched, cut out of the page,
      is read by clean_citation as the same citation. */
  lemma CodeExtractCleans(s: string, b: bool, m: Match)
    requires ParseCode(s, b, Extract) == Some(m)
    ensures ParseCode(s[..m.end], true, Clean) == Some(m)
  {
    var e := m.end;
    var x := s[..e];
    var t := SpanEnd(s, 0, IsDigit);
    var f := SpanEnd(s, t, IsSpace);
    var g := CodeForm(s, f).value.1;
    var c := SectionStart(s, g);
    assert e == SectionEnd(s, c, Extract);
    SpanEndTruncate(s, 0, e, IsDigit);
    SpanEndTruncate(s, t, e, IsSpace);
    CodeFormTruncate(s, f, e);
    SectionStartTruncate(s, g, e);
    SectionExtractToClean(s, c, e);
    SliceOfPrefix(s, e, 0, t);
    SliceOfPrefix(s, e, c, e);
  }

  lemma ExecutiveOrderHeadTruncate(s: string, n: nat)
    requires n <= |s| && ExecutiveOrderHead(s).Some? && ExecutiveOrderHead(s).value <= n
    ensures ExecutiveOrderHead(s[..n]) == ExecutiveOrderHead(s)
  {
    LiteralAtTruncate(s, 0, n, "E.O.");
    LiteralAtTruncate(s, 0, n, "Executive");
    if !LiteralAt(s, 0, "E.O.") {
      var w := SpanEnd(s, 9, IsSpace);
      SpanEndTruncate(s, 9, n, IsSpace);
      LiteralAtTruncate(s, w, n, "Order");
    }
  }

  lemma ExecutiveOrderExtractCleans(s: string, b: bool, m: Match)
    requires ParseExecutiveOrder(s, b, Extract) == Some(m)
    ensures ParseExecutiveOrder(s[..m.end], true, Clean) == Some(m)
  {
    var e := m.end;
    var h := ExecutiveOrderHead(s).value;
    var a := SpanEnd(s, h, IsSpace);
    ExecutiveOrderHeadTruncate(s, e);
    SpanEndTruncate(s, h, e, IsSpace);
    SpanEndTruncate(s, a, e, IsDigit);
    SliceOfPrefix(s, e, a, e);
  }

  lemma ShortOrderExtractCleans(s: string, b: bool, m: Match)
    requires ParseShortOrder(s, b) == Some(m)
    ensures ParseShortOrder(s[..m.end], true) == Some(m)
  {
    var e := m.end;
    var a := SpanEnd(s, 2, IsSpace);
    LiteralAtTruncate(s, 0, e, "EO");
    SpanEndTruncate(s, 2, e, IsSpace);
    SpanEndTruncate(s, a, e, IsDigit);
    SliceOfPrefix(s, e, a, e);
  }

  lemma PublicLawHeadTruncate(s: string, n: nat)
    requires n <= |s| && PublicLawHead(s).Some? && PublicLawHead(s).value.0 <= n
    ensures PublicLawHead(s[..n]) == PublicLawHead(s)
  {
    LiteralAtTruncate(s, 0, n, "Public");
    LiteralAtTruncate(s, 0, n, "P.L.");
    if LiteralAt(s, 0, "Public") {
      var w := SpanEnd(s, 6, IsSpace);
      SpanEndTruncate(s, 6, n, IsSpace);
      LiteralAtTruncate(s, w, n, "Law");
    }
  }

  lemma LawNumberExtractCleans(s: string, a: nat, m: Match)
    requires a <= |s| && ParseLawNumber(s, a, Extract) == Some(m)
    ensures ParseLawNumber(s[..m.end], a, Clean) == Some(m)
  {
    var e := m.end;
    var d1 := SpanEnd(s, a, IsDigit);
    SpanEndTruncate(s, a, e, IsDigit);
    assert s[..e][d1] == s[d1];
    SpanEndTruncate(s, d1 + 1, e, IsDigit);
    SliceOfPrefix(s, e, a, d1);
    SliceOfPrefix(s, e, d1 + 1, e);
  }

  lemma PublicLawExtractCleans(s: string, b: bool, m: Match)
    requires ParsePublicLaw(s, b, Extract) == Some(m)
    ensures ParsePublicLaw(s[..m.end], true, Clean) == Some(m)
  {
    var e := m.end;
    var h := PublicLawHead(s).value.0;
    var a := SpanEnd(s, h, IsSpace);
    LawNumberExtractCleans(s, a, m);
    PublicLawHeadTruncate(s, e);
    SpanEndTruncate(s, h, e, IsSpace);
  }

  lemma ActHeadTruncate(s: string, n: nat)
    requires n <= |s| && ActHead(s).Some? && ActHead(s).value <= n
    ensures ActHead(s[..n]) == ActHead(s)
  {
    var w1 := SpanEnd(s, 3, IsSpace);
    LiteralAtTruncate(s, 0, n, "Act");
    SpanEndTruncate(s, 3, n, IsSpace);
    LiteralAtTruncate(s, w1, n, "of");
    SpanEndTruncate(s, w1 + 2, n, IsSpace);
  }

  lemma ActExtractCleans(s: string, b: bool, m: Match)
    requires ParseAct(s, b, Extract) == Some(m)
    ensures ParseAct(s[..m.end], true, Clean) == Some(m)
  {
    var e := m.end;
    var w := ActHead(s).value;
    ActHeadTruncate(s, e);
    SpanEndTruncate(s, w, e, IsDigit);
    SliceOfPrefix(s, e, w, w + 4);
  }

  lemma TitleExtractCleans(s: string, b: bool, m: Match)
    requires ParseTitle(s, b, Extract) == Some(m)
    ensures ParseTitle(s[..m.end], true, Clean) == Some(m)
  {
    var e := m.end;
    var w := SpanEnd(s, 5, IsSpace);
    assert e == SpanEnd(s, w, IsDigit);
    LiteralAtTruncate(s, 0, e, "Title");
    SpanEndTruncate(s, 5, e, IsSpace);
    SpanEndTruncate(s, w, e, IsDigit);
    SliceOfPrefix(s, e, w, e);
  }

  // One lemma per alternative of the scanner: cut at the match's end, the
  // text fails every earlier alternative of clean_citation, whose leading
  // characters differ, and passes the same one.

  lemma ExecutiveOrderFirst(s: string, b: bool, m: Match)
    requires ParseExecutiveOrder(s, b, Extract) == Some(m)
    ensures ParseAt(s[..m.end], true, Clean) == Some(m)
  {
    var x := s[..m.end];
    ExecutiveOrderExtractCleans(s, b, m);
    ExecutiveOrderLead(s, b, Extract);
    assert x[0] == s[0];
    CodeLead(x, true, Clean);
  }

  lemma ShortOrderFirst(s: string, b: bool, m: Match)
    requires ParseShortOrder(s, b) == Some(m)
    ensures ParseAt(s[..m.end], true, Clean) == Some(m)
  {
    var x := s[..m.end];
    ShortOrderExtractCleans(s, b, m);
    ShortOrderLead(x, true);
    CodeLead(x, true, Clean);
    assert ParseCode(x, true, Clean).None?;
    ExecutiveOrderLead(x, true, Clean);
    assert ParseExecutiveOrder(x, true, Clean).None?;
  }

  lemma PublicLawFirst(s: string, b: bool, m: Match)
    requires ParsePublicLaw(s, b, Extract) == Some(m)
    ensures ParseAt(s[..m.end], true, Clean) == Some(m)
  {
    var x := s[..m.end];
    PublicLawExtractCleans(s, b, m);
    PublicLawLead(x, true, Clean);
    CodeLead(x, true, Clean);
    assert ParseCode(x, true, Clean).None?;
    ExecutiveOrderLead(x, true, Clean);
    assert ParseExecutiveOrder(x, true, Clean).None?;
    ShortOrderLead(x, true);
    assert ParseShortOrder(x, true).None?;
  }

  lemma ActFirst(s: string, b: bool, m: Match)
    requires ParseAct(s, b, Extract) == Some(m)
    ensures ParseAt(s[..m.end], true, Clean) == Some(m)
  {
    var x := s[..m.end];
    ActExtractCleans(s, b, m);
    ActLead(x, true, Clean);
    CodeLead(x, true, Clean);
    assert ParseCode(x, true, Clean).None?;
    ExecutiveOrderLead(x, true, Clean);
    assert ParseExecutiveOrder(x, true, Clean).None?;
    ShortOrderLead(x, true);
    assert ParseShortOrder(x, true).None?;
    PublicLawLead(x, true, Clean);
    assert ParsePublicLaw(x, true, Clean).None?;
  }

  lemma TitleFirst(s: string, b: bool, m: Match)
    requires ParseTitle(s, b, Extract) == Some(m)
    ensures ParseAt(s[..m.end], true, Clean) == Some(m)
  {
    var x := s[..m.end];
    TitleExtractCleans(s, b, m);
    TitleLead(x, true, Clean);
    CodeLead(x, true, Clean);
    assert ParseCode(x, true, Clean).None?;
    ExecutiveOrderLead(x, true, Clean);
    assert ParseExecutiveOrder(x, true, Clean).None?;
    ShortOrderLead(x, true);
    assert ParseShortOrder(x, true).None?;
    PublicLawLead(x, true, Clean);
    assert ParsePublicLaw(x, true, Clean).None?;
    ActLead(x, true, Clean);
    assert ParseAct(x, true, Clean).None?;
  }

  /** Whatever the page scanner matches, clean_citation reads the matched
      text as exactly the same citation. */
  lemma ExtractedCleans(s: string, b: bool)
    requires ParseAt(s, b, Extract).Some?
    ensures var m := ParseAt(s, b, Extract).value;
      Recognize(s[..m.end]) == Some(m.citation)
  {
    var m := ParseAt(s, b, Extract).value;
    if ParseCode(s, b, Extract).Some? {
      CodeExtractCleans(s, b, m);
    } else if ParseExecutiveOrder(s, b, Extract).Some? {
      ExecutiveOrderFirst(s, b, m);
    } else if ParseShortOrder(s, b).Some? {
      ShortOrderFirst(s, b, m);
    } else if ParsePublicLaw(s, b, Extract).Some? {
      PublicLawFirst(s, b, m);
    } else if ParseAct(s, b, Extract).Some? {
      ActFirst(s, b, m);
    } else {
      TitleFirst(s, b, m);
    }
  }

  /** So the citation the scanner stores is its canonical rendering, when
      the citation is nest-free. */
  lemma ExtractedCitationIsRendered(s: string, b: bool)
    requires ParseAt(s, b, Extract).Some?
    ensures var m := ParseAt(s, b, Extract).value;
      NestFree(m.citation) ==> CleanCitation(s[..m.end]) == Render(m.citation)
  {
    ExtractedCleans(s, b);
  }

  /** The two facts about one scanner match, for a known match. */
  lemma MatchRendered(s: string, b: bool, m: Match)
    requires ParseAt(s, b, Extract) == Some(m)
    ensures WellFormed(m.citation)
    ensures Recognize(s[..m.end]) == Some(m.citation)
    ensures NestFree(m.citation) ==> CleanCitation(s[..m.end]) == Render(m.citation)
  {
    ParseWellFormed(s, b, Extract);
    ExtractedCleans(s, b);
  }

  // ------------------------------------------------------------ long and short forms

  /** Blanks, a section sign, blanks and then a digit: the section starts
      at the digit. */
  lemma SectionStartAfterSign(s: string, g: nat, a: nat, c: nat)
    requires g <= a < c < |s| && s[a] == '§' && IsDigit(s[c])
    requires forall i :: g <= i < a ==> IsSpace(s[i])
    requires forall i :: a < i < c ==> IsSpace(s[i])
    ensures SectionStart(s, g) == c
  {
    SpanEndUnique(s, g, a, IsSpace);
    SpanEndUnique(s, a + 1, c, IsSpace);
  }

  /** The characters of "<t> U.S.C. § <sec>" after the title digits. */
  lemma UscDottedChars(t: string, sec: string)
    requires |sec| > 0
    ensures var r, p := t + " U.S.C. § " + sec, |t|;
      && |r| == p + 10 + |sec| && r[p] == ' ' && LiteralAt(r, p + 1, "U.S.C.")
      && r[p + 7] == ' ' && r[p + 8] == '§' && r[p + 9] == ' ' && r[p + 10] == sec[0]
  {
    var tail := " U.S.C. § " + sec;
    var r := t + " U.S.C. § " + sec;
    var p := |t|;
    assert r == t + tail;
    assert forall k :: 0 <= k < |tail| ==> r[p + k] == tail[k];
    forall i | 0 <= i < 6
      ensures Lower(r[p + 1 + i]) == Lower("U.S.C."[i])
    {
      assert r[p + 1 + i] == tail[1 + i];
    }
  }

  lemma UscDottedHead(t: string, sec: string)
    requires Digits(t) && |sec| > 0 && IsDigit(sec[0])
    ensures var r, p := t + " U.S.C. § " + sec, |t|;
      && SpanEnd(r, 0, IsDigit) == p && r[..p] == t
      && SpanEnd(r, p, IsSpace) == p + 1
      && CodeForm(r, p + 1) == Some((UscKind, p + 7))
      && SectionStart(r, p + 7) == p + 10
  {
    var r := t + " U.S.C. § " + sec;
    var p := |t|;
    UscDottedChars(t, sec);
    assert r == t + (" U.S.C. § " + sec);
    DigitsRun(t, " U.S.C. § " + sec);
    SpanEndUnique(r, p, p + 1, IsSpace);
    SectionStartAfterSign(r, p + 7, p + 8, p + 10);
  }

  /** "t U.S.C. § s" becomes "t USC s": the dotted code name and
      the section sign are dropped (for a section holding no CFR citation). */
  lemma UscDottedForm(t: string, sec: string)
    requires Digits(t) && IsSection(sec) && NestFree(Usc(t, sec))
    ensures CleanCitation(t + " U.S.C. § " + sec) == Render(Usc(t, sec))
  {
    var pre := t + " U.S.C. § ";
    var r := pre + sec;
    var p := |t|;
    UscDottedHead(t, sec);
    SectionEndShift(pre, sec, 0, Clean);
    SuffixSlice(pre, sec);
    ParseCodeAt(r, Clean, p, p + 1, UscKind, p + 7, p + 10, |r|);
    CodeRecognized(r, Match(Usc(t, sec), |r|));
  }

  /** "E.O. 14147" becomes "Executive Order 14147". */
  lemma ExecutiveOrderDottedForm(n: string)
    requires Digits(n)
    ensures CleanCitation("E.O. " + n) == Render(ExecutiveOrder(n))
  {
    var r := "E.O. " + n;
    assert r[..4] == "E.O.";
    LiteralAtSlice(r, 0, "E.O.");
    assert r[4] == ' ' && r[5] == n[0];
    SpanEndUnique(r, 4, 5, IsSpace);
    assert forall i :: 5 <= i < |r| ==> r[i] == n[i - 5];
    SpanEndUnique(r, 5, |r|, IsDigit);
    assert r[5..|r|] == n;
    assert ParseExecutiveOrder(r, true, Clean) == Some(Match(ExecutiveOrder(n), |r|));
    CodeLead(r, true, Clean);
  }

  /** "EO 14147" becomes "Executive Order 14147" as well. */
  lemma ExecutiveOrderShortForm(n: string)
    requires Digits(n)
    ensures CleanCitation("EO " + n) == Render(ExecutiveOrder(n))
  {
    var r := "EO " + n;
    assert r[..2] == "EO";
    LiteralAtSlice(r, 0, "EO");
    assert r[2] == ' ' && r[3] == n[0];
    SpanEndUnique(r, 2, 3, IsSpace);
    assert forall i :: 3 <= i < |r| ==> r[i] == n[i - 3];
    SpanEndUnique(r, 3, |r|, IsDigit);
    assert r[3..|r|] == n;
    assert ParseShortOrder(r, true) == Some(Match(ExecutiveOrder(n), |r|));
    CodeLead(r, true, Clean);
    ExecutiveOrderLead(r, true, Clean);
  }

  /** "P.L. 117-328" becomes "Public Law 117-328". */
  lemma PublicLawDottedForm(g: string, d: char, l: string)
    requires WellFormed(PublicLaw(g, d, l))
    ensures CleanCitation("P.L. " + g + [d] + l) == Render(PublicLaw(g, d, l))
  {
    var head := "P.L. ";
    var r := head + g + [d] + l;
    assert r[..|head|] == head;
    assert r[1] == '.' && r[4] == ' ' && r[5] == g[0];
    LiteralMismatch(r, 0, "Public", 1);
    assert head[0..4] == "P.L.";
    LiteralInHead(r, head, 0, "P.L.");
    assert PublicLawHead(r) == Some((4, false));
    SpanEndUnique(r, 4, 5, IsSpace);
    LawNumberAt(head, g, d, l);
    assert ParsePublicLaw(r, true, Clean) == Some(Match(PublicLaw(g, d, l), |r|));
    CodeLead(r, true, Clean);
    ExecutiveOrderLead(r, true, Clean);
    ShortOrderLead(r, true);
  }
}

=== FILE: citation_patterns.dfy ===
/** The citation patterns of extract_citations.py, as one hand-written
    recogniser and one renderer per citation kind.

    Two regular-expression sets are modelled. `Extract` is the alternation
    the page scanner uses (extract_citations.py:168-177); `Clean` is the
    sequence of substitutions clean_citation applies (extract_citations.py:23-81).
    They differ in four places, each a `mode` test below: the USC/CFR
    section suffix admits parentheses only in `Clean`; "Public Law" must be
    followed by whitespace only in `Extract`; the long Executive Order form
    needs a leading word boundary only in `Clean`; and only `Extract` demands
    a word boundary after the Public Law, Act and Title numbers. The short
    Executive Order form, `\bEO\s+(\d+)\b`, is the same in both sets.

    Every recogniser reads a string from its first character (the scanner
    hands it the page text from the candidate position on); `boundary` says
    whether `\b` holds there, which depends on the character before. All
    matching is ASCII case-insensitive, as under re.IGNORECASE. */
module CitationPatterns {
  import opened Common

  datatype Mode = Extract | Clean

  datatype Citation =
    | Usc(title: string, section: string)
    | Cfr(title: string, section: string)
    | ExecutiveOrder(number: string)
    | PublicLaw(congress: string, dash: char, law: string)
    | ActOf(year: string)
    | TitleRef(number: string)

  /** A recognised citation and the index just past its last character. */
  datatype Match = Match(citation: Citation, end: nat)

  predicate Digits(s: string) { |s| > 0 && All(s, IsDigit) }

  predicate IsDash(c: char) { c == '-' || c == '–' }

  predicate IsAlnumOrParen(c: char) { IsAlnum(c) || c == '(' || c == ')' }

  /** The class of the trailing section suffix: `[a-zA-Z0-9]` in the scanner,
      `[a-zA-Z0-9()]` in clean_citation. */
  function SuffixClass(mode: Mode): char -> bool
  {
    if mode == Extract then IsAlnum else IsAlnumOrParen
  }

  /** `\b` after a word character: end of text or a non-word character. */
  predicate BoundaryAt(s: string, k: nat)
  {
    k >= |s| || !IsWordChar(s[k])
  }

  // ------------------------------------------------------------ rendering

  /** The canonical form clean_citation writes for each kind. */
  function Render(c: Citation): string
  {
    match c
    case Usc(t, sec) => t + " USC " + sec
    case Cfr(t, sec) => t + " CFR " + sec
    case ExecutiveOrder(n) => "Executive Order " + n
    case PublicLaw(g, d, l) => "Public Law " + g + [d] + l
    case ActOf(y) => "Act of " + y
    case TitleRef(n) => "Title " + n
  }

  // ------------------------------------------------------------ sections

  /** `(\.\d+)*`, greedy, from `k`. */
  function DottedEnd(s: string, k: nat): (r: nat)
    requires k <= |s|
    ensures k <= r <= |s|
    ensures r + 1 < |s| ==> !(s[r] == '.' && IsDigit(s[r + 1]))
    decreases |s| - k
  {
    if k + 1 < |s| && s[k] == '.' && IsDigit(s[k + 1]) then DottedEnd(s, SpanEnd(s, k + 1, IsDigit))
    else k
  }

  /** `\d+(\.\d+)*([suffix]*)?` from `j`; `j` itself when no digit starts there. */
  function SectionEnd(s: string, j: nat, mode: Mode): (r: nat)
    requires j <= |s|
    ensures j <= r <= |s|
    ensures r > j <==> j < |s| && IsDigit(s[j])
  {
    var d := SpanEnd(s, j, IsDigit);
    if d == j then j else SpanEnd(s, DottedEnd(s, d), SuffixClass(mode))
  }

  /** A section number as clean_citation leaves it. */
  predicate IsSection(sec: string)
  {
    |sec| > 0 && IsDigit(sec[0]) && SectionEnd(sec, 0, Clean) == |sec|
  }

  // ------------------------------------------------------------ recognisers

  datatype CodeKind = UscKind | CfrKind

  /** The code name after the title number and the index past it:
      `U\.S\.C\.|USC|U\.S\. Code` and then `C\.F\.R\.|CFR|Code of Federal Regulations`. */
  function CodeForm(s: string, f: nat): (r: Option<(CodeKind, nat)>)
    ensures r.Some? ==> f < r.value.1 <= |s|
  {
    if LiteralAt(s, f, "U.S.C.") then Some((UscKind, f + 6))
    else if LiteralAt(s, f, "USC") then Some((UscKind, f + 3))
    else if LiteralAt(s, f, "U.S. Code") then Some((UscKind, f + 9))
    else if LiteralAt(s, f, "C.F.R.") then Some((CfrKind, f + 6))
    else if LiteralAt(s, f, "CFR") then Some((CfrKind, f + 3))
    else if LiteralAt(s, f, "Code of Federal Regulations") then Some((CfrKind, f + 27))
    else None
  }

  /** `\s*§?\s*` after the code name: where the section number may start. */
  function SectionStart(s: string, g: nat): (c: nat)
    requires g <= |s|
    ensures g <= c <= |s|
  {
    var a := SpanEnd(s, g, IsSpace);
    var b := if a < |s| && s[a] == '§' then a + 1 else a;
    SpanEnd(s, b, IsSpace)
  }

  /** `\b(\d+)\s*(<code name>)\s*§?\s*(<section>)`: the USC and CFR alternatives. */
  function ParseCode(s: string, boundary: bool, mode: Mode): (r: Option<Match>)
    ensures r.Some? ==> 0 < r.value.end <= |s| && IsDigit(s[0])
  {
    var t := SpanEnd(s, 0, IsDigit);
    if !boundary || t == 0 then None
    else
      var f := SpanEnd(s, t, IsSpace);
      match CodeForm(s, f)
      case None => None
      case Some((kind, g)) =>
        var c := SectionStart(s, g);
        var e := SectionEnd(s, c, mode);
        if e == c then None
        else if kind == UscKind then Some(Match(Usc(s[..t], s[c..e]), e))
        else Some(Match(Cfr(s[..t], s[c..e]), e))
  }

  /** `E\.O\.|Executive\s*Order`: the index past the words, if they are there. */
  function ExecutiveOrderHead(s: string): (r: Option<nat>)
    ensures r.Some? ==> 0 < r.value <= |s|
  {
    if LiteralAt(s, 0, "E.O.") then Some(4)
    else if LiteralAt(s, 0, "Executive") then
      var w := SpanEnd(s, 9, IsSpace);
      if LiteralAt(s, w, "Order") then Some(w + 5) else None
    else None
  }

  /** `(E\.O\.|Executive\s*Order)\s*(\d+)`; clean_citation puts `\b` in front. */
  function ParseExecutiveOrder(s: string, boundary: bool, mode: Mode): (r: Option<Match>)
    ensures r.Some? ==> 0 < r.value.end <= |s|
  {
    if mode == Clean && !boundary then None
    else
      match ExecutiveOrderHead(s)
      case None => None
      case Some(h) =>
        var a := SpanEnd(s, h, IsSpace);
        var e := SpanEnd(s, a, IsDigit);
        if e == a then None else Some(Match(ExecutiveOrder(s[a..e]), e))
  }

  /** `\bEO\s+(\d+)\b`, identical in both sets. */
  function ParseShortOrder(s: string, boundary: bool): (r: Option<Match>)
    ensures r.Some? ==> 0 < r.value.end <= |s|
  {
    if !boundary || !LiteralAt(s, 0, "EO") then None
    else
      var a := SpanEnd(s, 2, IsSpace);
      var e := SpanEnd(s, a, IsDigit);
      if a == 2 || e == a || !BoundaryAt(s, e) then None
      else Some(Match(ExecutiveOrder(s[a..e]), e))
  }

  /** The Public Law number: `\d{1,3}[-–]\d{1,4}`, followed by `\b` in the scanner. */
  function ParseLawNumber(s: string, a: nat, mode: Mode): (r: Option<Match>)
    requires a <= |s|
    ensures r.Some? ==> a < r.value.end <= |s|
  {
    var d1 := SpanEnd(s, a, IsDigit);
    if d1 == a || d1 - a > 3 || d1 >= |s| || !IsDash(s[d1]) then None
    else
      var d2 := SpanEnd(s, d1 + 1, IsDigit);
      var run := d2 - (d1 + 1);
      if run == 0 then None
      else if mode == Extract then
        if run > 4 || !BoundaryAt(s, d2) then None
        else Some(Match(PublicLaw(s[a..d1], s[d1], s[d1 + 1..d2]), d2))
      else
        var e := if run > 4 then d1 + 5 else d2;
        Some(Match(PublicLaw(s[a..d1], s[d1], s[d1 + 1..e]), e))
  }

  /** `Public\s+Law` (then `true`) or `P\.L\.` (then `false`): the index past
      the words, if they are there. */
  function PublicLawHead(s: string): (r: Option<(nat, bool)>)
    ensures r.Some? ==> 0 < r.value.0 <= |s|
  {
    if LiteralAt(s, 0, "Public") then
      var w := SpanEnd(s, 6, IsSpace);
      if w > 6 && LiteralAt(s, w, "Law") then Some((w + 3, true)) else None
    else if LiteralAt(s, 0, "P.L.") then Some((4, false))
    else None
  }

  /** `\bPublic\s+Law\s+<number>\b` and `\bP\.L\.\s*<number>\b` in the scanner,
      `\b(Public\s+Law|P\.L\.)\s*<number>` in clean_citation. */
  function ParsePublicLaw(s: string, boundary: bool, mode: Mode): (r: Option<Match>)
    ensures r.Some? ==> 0 < r.value.end <= |s|
  {
    if !boundary then None
    else
      match PublicLawHead(s)
      case None => None
      case Some((h, spelledOut)) =>
        var a := SpanEnd(s, h, IsSpace);
        if mode == Extract && spelledOut && a == h then None
        else ParseLawNumber(s, a, mode)
  }

  /** `Act\s+of\s+`: the index past the words, if they are there. */
  function ActHead(s: string): (r: Option<nat>)
    ensures r.Some? ==> 0 < r.value <= |s|
  {
    if !LiteralAt(s, 0, "Act") then None
    else
      var w1 := SpanEnd(s, 3, IsSpace);
      if w1 == 3 || !LiteralAt(s, w1, "of") then None
      else
        var w2 := SpanEnd(s, w1 + 2, IsSpace);
        if w2 == w1 + 2 then None else Some(w2)
  }

  /** `\bAct\s+of\s+\d{4}`, followed by `\b` in the scanner. */
  function ParseAct(s: string, boundary: bool, mode: Mode): (r: Option<Match>)
    ensures r.Some? ==> 0 < r.value.end <= |s|
  {
    if !boundary then None
    else
      match ActHead(s)
      case None => None
      case Some(w) =>
        var d := SpanEnd(s, w, IsDigit);
        if d - w < 4 then None
        else if mode == Extract && (d - w > 4 || !BoundaryAt(s, d)) then None
        else Some(Match(ActOf(s[w..w + 4]), w + 4))
  }

  /** `\bTitle\s+\d+`, followed by `\b` in the scanner. */
  function ParseTitle(s: string, boundary: bool, mode: Mode): (r: Option<Match>)
    ensures r.Some? ==> 0 < r.value.end <= |s|
  {
    if !boundary || !LiteralAt(s, 0, "Title") then None
    else
      var w := SpanEnd(s, 5, IsSpace);
      var d := SpanEnd(s, w, IsDigit);
      if w == 5 || d == w then None
      else if mode == Extract && !BoundaryAt(s, d) then None
      else Some(Match(TitleRef(s[w..d]), d))
  }

  /** The alternatives in the order both pattern sets try them. */
  function ParseAt(s: string, boundary: bool, mode: Mode): (r: Option<Match>)
    ensures r.Some? ==> 0 < r.value.end <= |s|
  {
    var code := ParseCode(s, boundary, mode);
    if code.Some? then code
    else
      var eo := ParseExecutiveOrder(s, boundary, mode);
      if eo.Some? then eo
      else
        var short := ParseShortOrder(s, boundary);
        if short.Some? then short
        else
          var pl := ParsePublicLaw(s, boundary, mode);
          if pl.Some? then pl
          else
            var act := ParseAct(s, boundary, mode);
            if act.Some? then act else ParseTitle(s, boundary, mode)
  }

  // ------------------------------------------------------------ nesting

  /** A place in a section where `\b` can hold before a word character: the
      section's start, or just after '.', '(' or ')'. */
  predicate SectionBoundary(sec: string, i: nat)
    requires i < |sec|
  {
    i == 0 || sec[i - 1] == '.' || sec[i - 1] == '(' || sec[i - 1] == ')'
  }

  /** `\d+` at `i`, then the code name `name` (any case), then a digit: a
      citation of that code inside the section. A section holds no
      whitespace, so the blanks the pattern allows are empty here. */
  predicate NestedCodeAt(sec: string, i: nat, name: string)
    requires i <= |sec|
  {
    var d := SpanEnd(sec, i, IsDigit);
    d > i && LiteralAt(sec, d, name) && d + |name| < |sec| && IsDigit(sec[d + |name|])
  }

  /** `Executive\s*Order\s*\d+` inside a section, which holds no whitespace. */
  predicate NestedOrderAt(sec: string, i: nat)
  {
    LiteralAt(sec, i, "ExecutiveOrder") && i + 14 < |sec| && IsDigit(sec[i + 14])
  }

  /** clean_citation runs its substitutions one after another over the whole
      string: the U.S. Code one, then the CFR one over its output, then the
      Executive Order one. A section of one code that holds, at a word
      boundary, a citation of the other code or an Executive Order is
      rewritten inside ("1 CFR 2USC3" becomes "1 CFR 2 USC 3"). A citation
      is nest-free when its section holds none of these, so that cleaning it
      gives exactly its rendering. Other kinds hold only digits. */
  predicate NestFree(c: Citation)
  {
    match c
    case Usc(_, sec) =>
      forall i :: 0 <= i < |sec| && SectionBoundary(sec, i) ==> !NestedCodeAt(sec, i, "CFR") && !NestedOrderAt(sec, i)
    case Cfr(_, sec) =>
      forall i :: 0 <= i < |sec| && SectionBoundary(sec, i) ==> !NestedCodeAt(sec, i, "USC") && !NestedOrderAt(sec, i)
    case _ => true
  }

  /** The whole string is one citation, read with clean_citation's patterns. */
  function Recognize(s: string): Option<Citation>
  {
    match ParseAt(s, true, Clean)
    case Some(m) => if m.end == |s| then Some(m.citation) else None
    case None => None
  }

  /** clean_citation on one matched citation: its canonical rendering.
      A string that is not exactly one citation comes back unchanged. The
      rendering is what the code writes for a nest-free citation. */
  function CleanCitation(s: string): string
  {
    match Recognize(s)
    case Some(c) => Render(c)
    case None => s
  }
}

=== FILE: citation_records.dfy ===
/** The per-page loop of extract_us_code_citations and the row preparation
    of save_to_excel (extract_citations.py:159-217): re.finditer over each
    page's text, the record built for every match, and the cells written
    for it. Reading the PDF is outside the model: a document is the list of
    its pages' extracted texts, an empty text standing for a page that
    yielded none. */
module CitationRecords {
  import opened Common
  import opened PageText
  import opened CitationPatterns
  import opened CitationLaws
  import opened TableOfContents

  // ------------------------------------------------------------ the scan

  /** `\b` holds before position `i` for an alternative that starts with a
      word character exactly when the character before is not one. */
  predicate StartsWord(text: string, i: nat)
    requires i <= |text|
  {
    i == 0 || !IsWordChar(text[i - 1])
  }

  /** The scanner pattern tried at position `i`; the match's `end` counts
      from `i`. */
  function MatchAt(text: string, i: nat): Option<Match>
    requires i <= |text|
  {
    ParseAt(text[i..], StartsWord(text, i), Extract)
  }

  /** One finditer match: `text[start..end]` is match.group(0). */
  datatype Found = Found(start: nat, end: nat, citation: Citation)

  /** A matcher over a text of length `n`: what the pattern finds at each
      position, with `end` counted from that position. */
  type Matcher = nat -> Option<Match>

  /** Every match the matcher reports is non-empty and inside the text. */
  ghost predicate Fits(n: nat, at: Matcher)
  {
    forall j: nat :: j <= n && at(j).Some? ==> 0 < at(j).value.end <= n - j
  }

  predicate Hit(at: Matcher, f: Found)
  {
    f.start < f.end && at(f.start) == Some(Match(f.citation, f.end - f.start))
  }

  /** re.finditer from position `i`: try the pattern at each position in
      turn; after a match, resume at its end. No alternative matches the
      empty string, so there is no empty-match step. */
  function ScanFrom(n: nat, i: nat, at: Matcher): (r: seq<Found>)
    requires i <= n && Fits(n, at)
    ensures forall k :: 0 <= k < |r| ==> i <= r[k].start && r[k].end <= n && Hit(at, r[k])
    decreases n - i
  {
    if i == n then []
    else
      match at(i)
      case Some(m) => [Found(i, i + m.end, m.citation)] + ScanFrom(n, i + m.end, at)
      case None => ScanFrom(n, i + 1, at)
  }

  /** One step of finditer: report the match here and resume at its end,
      or move on by one position. */
  lemma ScanStep(n: nat, i: nat, at: Matcher)
    requires i < n && Fits(n, at)
    ensures at(i).Some? ==>
      ScanFrom(n, i, at) == [Found(i, i + at(i).value.end, at(i).value.citation)] + ScanFrom(n, i + at(i).value.end, at)
    ensures at(i).None? ==> ScanFrom(n, i, at) == ScanFrom(n, i + 1, at)
  {
  }

  /** Reports come left to right and do not overlap. */
  lemma {:induction false} ScanOrdered(n: nat, i: nat, at: Matcher, k: nat)
    requires i <= n && Fits(n, at) && k + 1 < |ScanFrom(n, i, at)|
    ensures ScanFrom(n, i, at)[k].end <= ScanFrom(n, i, at)[k + 1].start
    decreases n - i
  {
    ScanStep(n, i, at);
    if at(i).None? {
      ScanOrdered(n, i + 1, at, k);
    } else if k > 0 {
      ScanOrdered(n, i + at(i).value.end, at, k - 1);
    }
  }

  /** Position `p` lies inside one of the reported matches. */
  ghost predicate Covered(r: seq<Found>, p: nat)
  {
    exists k :: 0 <= k < |r| && r[k].start <= p < r[k].end
  }

  lemma CoveredCons(f: Found, rest: seq<Found>, p: nat)
    requires Covered(rest, p) || f.start <= p < f.end
    ensures Covered([f] + rest, p)
  {
    var r := [f] + rest;
    if !(f.start <= p < f.end) {
      var k :| 0 <= k < |rest| && rest[k].start <= p < rest[k].end;
      assert r[k + 1] == rest[k];
    } else {
      assert r[0] == f;
    }
  }

  /** Nothing is skipped: every position where the pattern matches is the
      start of a reported match or lies inside one. */
  lemma {:induction false} ScanComplete(n: nat, i: nat, at: Matcher, p: nat)
    requires Fits(n, at) && i <= p < n && at(p).Some?
    ensures Covered(ScanFrom(n, i, at), p)
    decreases n - i
  {
    ScanStep(n, i, at);
    if at(i).Some? {
      var m := at(i).value;
      var e := i + m.end;
      if p >= e {
        ScanComplete(n, e, at, p);
      }
      CoveredCons(Found(i, e, m.citation), ScanFrom(n, e, at), p);
    } else {
      ScanComplete(n, i + 1, at, p);
    }
  }

  /** Leftmost first: no match starts between the scan's origin and its
      first report, and with no report none starts anywhere after it. */
  lemma {:induction false} ScanLeftmost(n: nat, i: nat, at: Matcher)
    requires i <= n && Fits(n, at)
    ensures var r := ScanFrom(n, i, at);
      && (|r| > 0 ==> forall q :: i <= q < r[0].start ==> at(q).None?)
      && (|r| == 0 ==> forall q :: i <= q < n ==> at(q).None?)
    decreases n - i
  {
    if i < n && at(i).None? {
      ScanLeftmost(n, i + 1, at);
    }
  }

  /** Between two consecutive reports no match starts either. */
  lemma {:induction false} ScanGaps(n: nat, i: nat, at: Matcher, k: nat, q: nat)
    requires i <= n && Fits(n, at)
    requires k + 1 < |ScanFrom(n, i, at)|
    requires ScanFrom(n, i, at)[k].end <= q < ScanFrom(n, i, at)[k + 1].start
    ensures at(q).None?
    decreases n - i
  {
    ScanStep(n, i, at);
    if at(i).Some? {
      var e := i + at(i).value.end;
      ScanShift(Found(i, e, at(i).value.citation), ScanFrom(n, e, at), k);
      if k == 0 {
        ScanLeftmost(n, e, at);
      } else {
        ScanGaps(n, e, at, k - 1, q);
      }
    } else {
      ScanGaps(n, i + 1, at, k, q);
    }
  }

  /** Indexing past the head of a report list. */
  lemma ScanShift(f: Found, rest: seq<Found>, k: nat)
    requires k < |rest|
    ensures ([f] + rest)[k + 1] == rest[k]
    ensures k == 0 ==> ([f] + rest)[0] == f
  {
  }

  /** The scanner pattern at every position of `text`. */
  function PatternAt(text: string): Matcher
  {
    (j: nat) => if j <= |text| then MatchAt(text, j) else None
  }

  lemma PatternFits(text: string)
    ensures Fits(|text|, PatternAt(text))
  {
    forall j: nat | j <= |text| && PatternAt(text)(j).Some?
      ensures 0 < PatternAt(text)(j).value.end <= |text| - j
    {
      assert PatternAt(text)(j) == MatchAt(text, j);
    }
  }

  /** All matches on one page's text. */
  function Scan(text: string): (r: seq<Found>)
    ensures forall k :: 0 <= k < |r| ==> r[k].end <= |text| && Hit(PatternAt(text), r[k])
  {
    PatternFits(text);
    ScanFrom(|text|, 0, PatternAt(text))
  }

  /** A page's matches come left to right without overlapping. */
  lemma ScanInOrder(text: string, k: nat)
    requires k + 1 < |Scan(text)|
    ensures Scan(text)[k].end <= Scan(text)[k + 1].start
  {
    PatternFits(text);
    ScanOrdered(|text|, 0, PatternAt(text), k);
  }

  /** A reported match is what the scanner pattern reads at its start. */
  lemma HitParses(text: string, f: Found)
    requires f.end <= |text| && Hit(PatternAt(text), f)
    ensures ParseAt(text[f.start..], StartsWord(text, f.start), Extract) == Some(Match(f.citation, f.end - f.start))
  {
    assert PatternAt(text)(f.start) == MatchAt(text, f.start);
  }

  /** A match's text, read from the suffix the pattern was tried on. */
  lemma SliceOfSuffix(text: string, i: nat, e: nat)
    requires i <= e <= |text|
    ensures text[i..][..e - i] == text[i..e]
  {
  }

  /** Every match yields a well-formed citation that clean_citation's
      patterns read back from the match's text; when it is nest-free,
      clean_citation turns the text into that citation's canonical form. */
  lemma FoundRendered(text: string, f: Found)
    requires f.end <= |text| && Hit(PatternAt(text), f)
    ensures WellFormed(f.citation)
    ensures Recognize(text[f.start..f.end]) == Some(f.citation)
    ensures NestFree(f.citation) ==> CleanCitation(text[f.start..f.end]) == Render(f.citation)
  {
    var s := text[f.start..];
    HitParses(text, f);
    MatchRendered(s, StartsWord(text, f.start), Match(f.citation, f.end - f.start));
    SliceOfSuffix(text, f.start, f.end);
  }

  // ------------------------------------------------------------ records

  /** One row of the result: citation, page link, section, context, URL. */
  datatype Record = Record(citation: string, pageUrl: string, section: string, context: string, url: string)

  /** The context slice `text[max(0, s - 100):min(len(text), e + 100)]`. */
  function WindowStart(s: nat): nat { if s >= 100 then s - 100 else 0 }

  function WindowEnd(text: string, e: nat): nat { if e + 100 <= |text| then e + 100 else |text| }

  function Context(text: string, s: nat, e: nat): (r: string)
    requires s <= e <= |text|
    ensures |r| <= e - s + 200
    ensures Filter(r, NotSpace) == Filter(text[WindowStart(s)..WindowEnd(text, e)], NotSpace)
  {
    var w := text[WindowStart(s)..WindowEnd(text, e)];
    SanitizeKeepsNonSpace(w);
    SanitizeText(w)
  }

  /** The window holds the match and at most a hundred characters on either
      side of it, fewer only at the ends of the text. */
  lemma ContextWindow(text: string, s: nat, e: nat)
    requires s <= e <= |text|
    ensures WindowStart(s) <= s && e <= WindowEnd(text, e) <= |text|
    ensures s - WindowStart(s) == if s >= 100 then 100 else s
    ensures WindowEnd(text, e) - e == if e + 100 <= |text| then 100 else |text| - e
  {
  }

  /** `f"{url}#page={page_num + 1}"` for the zero-based page index `k`. */
  function PageUrl(url: string, k: nat): (r: string)
    ensures |r| > |url| + 6 && r[..|url|] == url
  {
    url + "#page=" + NatToString(k + 1)
  }

  /** Distinct pages of one document get distinct links. */
  lemma PageUrlInjective(url: string, j: nat, k: nat)
    requires PageUrl(url, j) == PageUrl(url, k)
    ensures j == k
  {
    var n := |url| + 6;
    assert PageUrl(url, j)[n..] == NatToString(j + 1);
    assert PageUrl(url, k)[n..] == NatToString(k + 1);
    NatToStringInjective(j + 1, k + 1);
  }

  /** The record built for one match on page `k` (zero-based). */
  function RecordOf(toc: seq<TocEntry>, url: string, k: nat, text: string, f: Found): (r: Record)
    requires f.start <= f.end <= |text|
    ensures r.url == url && r.pageUrl == PageUrl(url, k)
  {
    var ctx := Context(text, f.start, f.end);
    Record(CleanCitation(text[f.start..f.end]), PageUrl(url, k), InferSection(toc, k + 1, ctx, text), ctx, url)
  }

  /** The record with the corrected section inference, which looks for the
      section only above a context that is in the page. */
  function RecordOfFixed(toc: seq<TocEntry>, url: string, k: nat, text: string, f: Found): (r: Record)
    requires f.start <= f.end <= |text|
    ensures r.url == url && r.pageUrl == PageUrl(url, k)
  {
    var ctx := Context(text, f.start, f.end);
    RecordOf(toc, url, k, text, f).(section := InferSectionFixed(toc, k + 1, ctx, text))
  }

  /** All records of one page, in match order. */
  function PageRecords(toc: seq<TocEntry>, url: string, k: nat, text: string): (rs: seq<Record>)
    ensures |rs| == |Scan(text)|
  {
    var fs := Scan(text);
    seq(|fs|, j requires 0 <= j < |fs| => RecordOf(toc, url, k, text, fs[j]))
  }

  /** `if text:` skips pages that yielded no text. */
  function PageOutput(toc: seq<TocEntry>, url: string, k: nat, text: string): seq<Record>
  {
    if |text| == 0 then [] else PageRecords(toc, url, k, text)
  }

  /** extract_us_code_citations over the pages of one document. */
  function DocumentRecords(pages: seq<string>, url: string): seq<Record>
  {
    var toc := ExtractToc(pages);
    Flatten(seq(|pages|, k requires 0 <= k < |pages| => PageOutput(toc, url, k, pages[k])))
  }

  /** process_url: a failed download gives no records. */
  function ProcessUrl(url: string, download: Option<seq<string>>): seq<Record>
  {
    match download
    case Some(pages) => DocumentRecords(pages, url)
    case None => []
  }

  // ------------------------------------------------------------ record laws

  /** Each record of a page stands for the page's `j`-th match: its citation
      is the match's canonical form, its context is the sanitized window and
      its section is inferred for the one-based page number. */
  lemma PageRecordMeaning(toc: seq<TocEntry>, url: string, k: nat, text: string, j: nat)
    requires j < |Scan(text)|
    ensures var f, r := Scan(text)[j], PageRecords(toc, url, k, text)[j];
      && WellFormed(f.citation)
      && (NestFree(f.citation) ==> r.citation == Render(f.citation))
      && r.context == Context(text, f.start, f.end)
      && r.section == InferSection(toc, k + 1, r.context, text)
      && r.pageUrl == PageUrl(url, k) && r.url == url
  {
    FoundRendered(text, Scan(text)[j]);
  }

  /** The corrected record keeps the citation, context and links of the
      record the code builds, and is that record whenever the context is
      found in the page. */
  lemma RecordOfFixedAgrees(toc: seq<TocEntry>, url: string, k: nat, text: string, f: Found)
    requires f.start <= f.end <= |text|
    ensures var r, q := RecordOf(toc, url, k, text, f), RecordOfFixed(toc, url, k, text, f);
      && q.citation == r.citation && q.context == r.context
      && (Contains(text, r.context) ==> q == r)
  {
    var ctx := Context(text, f.start, f.end);
    if Contains(text, ctx) {
      FixedAgreesWhenFound(toc, k + 1, ctx, text);
    }
  }

  lemma PageRecordLink(toc: seq<TocEntry>, url: string, k: nat, text: string, r: Record)
    requires r in PageRecords(toc, url, k, text)
    ensures r.pageUrl == PageUrl(url, k) && r.url == url
  {
    var rs := PageRecords(toc, url, k, text);
    var j :| 0 <= j < |rs| && rs[j] == r;
  }

  /** A record of the document comes from one page with text, and carries
      that page's link. */
  lemma DocumentRecordOrigin(pages: seq<string>, url: string, r: Record)
    requires r in DocumentRecords(pages, url)
    ensures exists k :: 0 <= k < |pages| && |pages[k]| > 0
                        && r in PageRecords(ExtractToc(pages), url, k, pages[k])
                        && r.pageUrl == PageUrl(url, k)
  {
    var toc := ExtractToc(pages);
    var outs := seq(|pages|, k requires 0 <= k < |pages| => PageOutput(toc, url, k, pages[k]));
    FlattenMembers(outs, r);
    var k :| 0 <= k < |outs| && r in outs[k];
    assert r in PageRecords(toc, url, k, pages[k]);
    PageRecordLink(toc, url, k, pages[k], r);
  }

  /** The canonical form of a well-formed citation is one line with no
      surrounding whitespace. */
  lemma {:induction false} DottedChars(s: string, k: nat)
    requires k <= |s|
    ensures forall i :: k <= i < DottedEnd(s, k) ==> s[i] == '.' || IsDigit(s[i])
    decreases |s| - k
  {
    if k + 1 < |s| && s[k] == '.' && IsDigit(s[k + 1]) {
      DottedChars(s, SpanEnd(s, k + 1, IsDigit));
    }
  }

  predicate SectionChar(c: char) { IsAlnumOrParen(c) || c == '.' }

  lemma SectionChars(sec: string)
    requires IsSection(sec)
    ensures All(sec, SectionChar)
  {
    var d := SpanEnd(sec, 0, IsDigit);
    DottedChars(sec, d);
  }

  lemma RenderSanitized(c: Citation)
    requires WellFormed(c)
    ensures SanitizeText(Render(c)) == Render(c)
  {
    RenderInline(c);
    SanitizeFixes(Render(c));
  }

  predicate InlineChar(c: char) { NotNewline(c) && !IsSpace(c) }

  lemma DigitsInline(d: string)
    requires Digits(d)
    ensures All(d, InlineChar) && All(d, NotNewline)
  {
  }

  lemma SectionInline(sec: string)
    requires IsSection(sec)
    ensures All(sec, InlineChar) && All(sec, NotNewline)
  {
    SectionChars(sec);
  }

  lemma AllJoin(a: string, b: string)
    requires All(a, NotNewline) && All(b, NotNewline)
    ensures All(a + b, NotNewline)
  {
    assert forall i :: |a| <= i < |a + b| ==> (a + b)[i] == b[i - |a|];
  }

  /** The rendering of the two code kinds: digits, the code name, the
      section. */
  lemma CodeInline(t: string, name: string, sec: string)
    requires Digits(t) && IsSection(sec) && All(name, NotNewline)
    ensures All(t + name + sec, NotNewline) && Stripped(t + name + sec)
  {
    DigitsInline(t);
    SectionInline(sec);
    AllJoin(t, name);
    AllJoin(t + name, sec);
    assert (t + name + sec)[0] == t[0];
    assert (t + name + sec)[|t + name + sec| - 1] == sec[|sec| - 1];
  }

  /** A literal head followed by a number. */
  lemma NumberedInline(head: string, n: string)
    requires |head| > 0 && !IsSpace(head[0]) && All(head, NotNewline) && Digits(n)
    ensures All(head + n, NotNewline) && Stripped(head + n)
  {
    DigitsInline(n);
    AllJoin(head, n);
    assert (head + n)[0] == head[0];
    assert (head + n)[|head + n| - 1] == n[|n| - 1];
  }

  lemma RenderInline(c: Citation)
    requires WellFormed(c)
    ensures All(Render(c), NotNewline) && Stripped(Render(c))
  {
    match c
    case Usc(t, sec) => CodeInline(t, " USC ", sec);
    case Cfr(t, sec) => CodeInline(t, " CFR ", sec);
    case ExecutiveOrder(n) => NumberedInline("Executive Order ", n);
    case PublicLaw(g, d, l) =>
      DigitsInline(g);
      AllJoin("Public Law ", g);
      AllJoin("Public Law " + g, [d]);
      NumberedInline("Public Law " + g + [d], l);
    case ActOf(y) => NumberedInline("Act of ", y);
    case TitleRef(n) => NumberedInline("Title ", n);
  }
}

module SavedRows {
  import opened Common
  import opened PageText
  import opened CitationPatterns
  import opened CitationLaws
  import opened TableOfContents
  import opened CitationRecords

  /** The header row save_to_excel writes first. */
  const Header: seq<string> := ["Citation", "Citation Page", "Inferred Section Name", "Context", "URL"]

  /** The cells written for one record: every cell sanitized, then the
      citation cleaned once more. */
  function SaveRow(r: Record): (row: seq<string>)
    ensures |row| == |Header|
  {
    [CleanCitation(SanitizeText(r.citation)), SanitizeText(r.pageUrl), SanitizeText(r.section),
     SanitizeText(r.context), SanitizeText(r.url)]
  }

  predicate HeadingsSanitized(toc: seq<TocEntry>)
  {
    forall e :: e in toc ==> All(e.heading, NotNewline) && Stripped(e.heading)
  }

  lemma UnknownSectionSanitized()
    ensures SanitizeText(UnknownSection) == UnknownSection
  {
    SanitizeFixes(UnknownSection);
  }

  /** The line fallback answers the sentinel or a sanitized line, so its
      answer is already sanitized, whatever text the lines are looked for in. */
  lemma LineFallbackSanitized(pageText: string, prefix: string)
    ensures SanitizeText(LineFallback(pageText, prefix)) == LineFallback(pageText, prefix)
  {
    var r := LineFallback(pageText, prefix);
    var lines := SplitLines(pageText);
    FallbackSource(pageText, prefix);
    if r == UnknownSection {
      UnknownSectionSanitized();
    } else {
      var i :| 0 <= i < |lines| && r == SanitizeText(lines[i]);
      SanitizeIdempotent(lines[i]);
    }
  }

  /** Whatever the section inference answers is already sanitized, given a
      table whose headings are: as the code is written and as corrected. */
  lemma InferSectionSanitized(toc: seq<TocEntry>, p: nat, context: string, pageText: string)
    requires HeadingsSanitized(toc)
    ensures SanitizeText(InferSection(toc, p, context, pageText)) == InferSection(toc, p, context, pageText)
    ensures SanitizeText(InferSectionFixed(toc, p, context, pageText)) == InferSectionFixed(toc, p, context, pageText)
  {
    var hit := if |toc| > 0 then TocIndex(toc, p, 0) else None;
    if hit.Some? {
      assert toc[hit.value] in toc;
      SanitizeFixes(toc[hit.value].heading);
    } else {
      LineFallbackSanitized(pageText, ContextPrefix(pageText, context));
      LineFallbackSanitized(pageText, ContextPrefixFixed(pageText, context));
    }
  }

  /** A nest-free canonical citation survives sanitizing and a second
      clean_citation. */
  lemma SavedCitation(c: Citation)
    requires WellFormed(c) && NestFree(c)
    ensures CleanCitation(SanitizeText(Render(c))) == Render(c)
  {
    RenderSanitized(c);
    RenderRoundTrip(c);
  }

  /** A cell that reads as exactly one citation holding no nested citation
      of another kind. Only for such a cell does a second clean_citation
      leave the cell alone: the code rewrites a doubly nested section again
      ("1 USC 2CFR3USC4" is cleaned to "1 USC 2 CFR 3USC4" and then to
      "1 USC 2 CFR 3 USC 4"). */
  predicate NestFreeCell(cell: string)
  {
    Recognize(cell).Some? && NestFree(Recognize(cell).value)
  }

  /** A citation cell that clean_citation already produced from one whole,
      nest-free citation is written unchanged: sanitizing it and cleaning it
      again change nothing. */
  lemma CitationCellKept(r: Record, x: string)
    requires Recognize(x).Some? && NestFree(Recognize(x).value) && r.citation == CleanCitation(x)
    ensures SaveRow(r)[0] == r.citation
  {
    ParseWellFormed(x, true, Clean);
    SavedCitation(Recognize(x).value);
  }

  lemma SectionCellKept(r: Record)
    requires SanitizeText(r.section) == r.section
    ensures SaveRow(r)[2] == r.section
  {
  }

  lemma ContextCellKept(r: Record)
    requires SanitizeText(r.context) == r.context
    ensures SaveRow(r)[3] == r.context
  {
  }

  /** Saving a record of a page leaves its section and context cells
      exactly as extraction produced them, and its citation cell too when
      that is nest-free: the second clean_citation and the sanitizing are
      no-ops on them. */
  lemma SavedPageRecord(toc: seq<TocEntry>, url: string, k: nat, text: string, j: nat)
    requires HeadingsSanitized(toc)
    requires j < |Scan(text)|
    ensures var r := PageRecords(toc, url, k, text)[j];
      && (NestFreeCell(r.citation) ==> SaveRow(r)[0] == r.citation)
      && SaveRow(r)[2] == r.section
      && SaveRow(r)[3] == r.context
  {
    var f, r := Scan(text)[j], PageRecords(toc, url, k, text)[j];
    PageRecordMeaning(toc, url, k, text, j);
    InferSectionSanitized(toc, k + 1, r.context, text);
    SanitizeIdempotent(text[WindowStart(f.start)..WindowEnd(text, f.end)]);
    FoundRendered(text, f);
    RenderRoundTrip(f.citation);
    if NestFree(f.citation) {
      CitationCellKept(r, text[f.start..f.end]);
    }
    SectionCellKept(r);
    ContextCellKept(r);
  }

  lemma SavedPageMember(toc: seq<TocEntry>, url: string, k: nat, text: string, r: Record)
    requires HeadingsSanitized(toc)
    requires r in PageRecords(toc, url, k, text)
    ensures NestFreeCell(r.citation) ==> SaveRow(r)[0] == r.citation
    ensures SaveRow(r)[2] == r.section && SaveRow(r)[3] == r.context
  {
    var rs := PageRecords(toc, url, k, text);
    var j :| 0 <= j < |rs| && rs[j] == r;
    SavedPageRecord(toc, url, k, text, j);
  }

  /** The same for every record of a document, whose table of contents is
      sanitized by construction. */
  lemma SavedDocumentRecord(pages: seq<string>, url: string, r: Record)
    requires r in DocumentRecords(pages, url)
    ensures NestFreeCell(r.citation) ==> SaveRow(r)[0] == r.citation
    ensures SaveRow(r)[2] == r.section && SaveRow(r)[3] == r.context
  {
    DocumentRecordOrigin(pages, url, r);
    var k :| 0 <= k < |pages| && |pages[k]| > 0 && r in PageRecords(ExtractToc(pages), url, k, pages[k]);
    TocHeadingsSanitized(pages);
    SavedPageMember(ExtractToc(pages), url, k, pages[k], r);
  }
}

=== FILE: clean_passes.dfy ===
/** clean_citation as the code is written (extract_citations.py:23-81):
    seven re.sub calls, one after another, each over the whole output of
    the one before. `CitationPatterns.CleanCitation` reads its input as one
    citation and renders it once; the two agree on a nest-free citation
    but not on a section that holds a citation of the other code which in
    turn holds one of the first: the passes rewrite such a string a little
    further on every call, so the code's cleaning is not idempotent. */
module CleanPasses {
  import opened Common
  import opened CitationPatterns
  import opened CitationLaws
  import opened CitationRecords

  /** The seven substitutions, in the order clean_citation applies them. */
  datatype Pass = UscPass | CfrPass | OrderPass | ShortOrderPass | PublicLawPass | ActPass | TitlePass

  /** The pattern of pass `p` tried on `s` from its first character; the
      replacement each pass writes is the rendering of the citation. */
  function PassMatch(p: Pass, s: string, boundary: bool): (r: Option<Match>)
    ensures r.Some? ==> 0 < r.value.end <= |s|
  {
    match p
    case UscPass =>
      var m := ParseCode(s, boundary, Clean);
      if m.Some? && m.value.citation.Usc? then m else None
    case CfrPass =>
      var m := ParseCode(s, boundary, Clean);
      if m.Some? && m.value.citation.Cfr? then m else None
    case OrderPass => ParseExecutiveOrder(s, boundary, Clean)
    case ShortOrderPass => ParseShortOrder(s, boundary)
    case PublicLawPass => ParsePublicLaw(s, boundary, Clean)
    case ActPass => ParseAct(s, boundary, Clean)
    case TitlePass => ParseTitle(s, boundary, Clean)
  }

  /** Pass `p` as a matcher over `s`: the boundary at a position is read in
      `s` itself, the text being rewritten, not in the output. */
  function PassAt(p: Pass, s: string): Matcher
  {
    (j: nat) => if j <= |s| then PassMatch(p, s[j..], StartsWord(s, j)) else None
  }

  lemma PassAtFits(p: Pass, s: string)
    ensures Fits(|s|, PassAt(p, s))
  {
  }

  /** re.sub from position `i` on: a match is replaced by its rendering and
      the search goes on after it; elsewhere the character is copied. */
  function SubFrom(s: string, i: nat, at: Matcher): string
    requires i <= |s| && Fits(|s|, at)
    decreases |s| - i
  {
    if i == |s| then ""
    else
      match at(i)
      case Some(m) => Render(m.citation) + SubFrom(s, i + m.end, at)
      case None => [s[i]] + SubFrom(s, i + 1, at)
  }

  /** One re.sub call of clean_citation. */
  function Sub(p: Pass, s: string): string
  {
    PassAtFits(p, s);
    SubFrom(s, 0, PassAt(p, s))
  }

  /** clean_citation as written: the passes in source order. */
  function CleanAsWritten(s: string): string
  {
    var usc := Sub(UscPass, s);
    var cfr := Sub(CfrPass, usc);
    var eo := Sub(OrderPass, cfr);
    var short := Sub(ShortOrderPass, eo);
    var pl := Sub(PublicLawPass, short);
    var act := Sub(ActPass, pl);
    Sub(TitlePass, act)
  }

  // ------------------------------------------------------------ copying

  /** A stretch where the pattern matches nowhere is copied as it is. */
  lemma {:induction false} SubFromSkip(s: string, i: nat, j: nat, at: Matcher)
    requires i <= j <= |s| && Fits(|s|, at)
    requires forall k :: i <= k < j ==> at(k).None?
    ensures SubFrom(s, i, at) == s[i..j] + SubFrom(s, j, at)
    decreases j - i
  {
    if i < j {
      SubFromSkip(s, i + 1, j, at);
      ConsSlice(s, i, j, SubFrom(s, j, at));
    }
  }

  lemma ConsSlice(s: string, i: nat, j: nat, rest: string)
    requires i < j <= |s|
    ensures [s[i]] + (s[i + 1..j] + rest) == s[i..j] + rest
  {
    assert [s[i]] + s[i + 1..j] == s[i..j];
  }

  /** A pass whose pattern matches nowhere leaves the text alone. */
  lemma SubNoMatch(p: Pass, s: string)
    requires forall k :: 0 <= k < |s| ==> PassMatch(p, s[k..], StartsWord(s, k)).None?
    ensures Sub(p, s) == s
  {
    PassAtFits(p, s);
    SubFromSkip(s, 0, |s|, PassAt(p, s));
  }

  /** The letters with which the Executive Order, Public Law, Act and Title
      patterns begin, in either case. */
  predicate LeadLetter(c: char)
  {
    Lower(c) in {'e', 'p', 'a', 't'}
  }

  /** A literal found at `j` starts with the character at `j`, up to case. */
  lemma LiteralLead(s: string, j: nat, lit: string)
    requires |lit| > 0
    ensures LiteralAt(s, j, lit) ==> Lower(s[j]) == Lower(lit[0])
  {
    if LiteralAt(s, j, lit) {
      assert Lower(s[j + 0]) == Lower(lit[0]);
    }
  }

  /** Those four patterns cannot start at a character that is none of them. */
  lemma WordPassesNeedLead(p: Pass, s: string, b: bool)
    requires p != UscPass && p != CfrPass
    requires |s| > 0 && !LeadLetter(s[0])
    ensures PassMatch(p, s, b).None?
  {
    LiteralLead(s, 0, "E.O.");
    LiteralLead(s, 0, "Executive");
    LiteralLead(s, 0, "EO");
    LiteralLead(s, 0, "Public");
    LiteralLead(s, 0, "P.L.");
    LiteralLead(s, 0, "Act");
    LiteralLead(s, 0, "Title");
  }

  /** A text with none of those letters passes the last five substitutions
      unchanged. */
  lemma WordPassesKeep(s: string)
    requires forall k :: 0 <= k < |s| ==> !LeadLetter(s[k])
    ensures forall p :: p != UscPass && p != CfrPass ==> Sub(p, s) == s
  {
    forall p | p != UscPass && p != CfrPass
      ensures Sub(p, s) == s
    {
      forall k | 0 <= k < |s|
        ensures PassMatch(p, s[k..], StartsWord(s, k)).None?
      {
        WordPassesNeedLead(p, s[k..], StartsWord(s, k));
      }
      SubNoMatch(p, s);
    }
  }

  /** The code patterns start with a title number. */
  lemma CodePassesNeedDigit(p: Pass, s: string, b: bool)
    requires p == UscPass || p == CfrPass
    requires |s| > 0 && !IsDigit(s[0])
    ensures PassMatch(p, s, b).None?
  {
  }

  // ------------------------------------------------------------ the counterexample

  /** The two halves of a concatenation, as slices. */
  lemma Halves(a: string, b: string)
    ensures (a + b)[..|a|] == a && (a + b)[|a|..] == b
  {
  }

  /** The pattern tried at `i` is the pattern tried on what follows `i`. */
  lemma PassAtOf(p: Pass, s: string, i: nat, x: string, r: Option<Match>)
    requires i <= |s| && s[i..] == x && PassMatch(p, x, StartsWord(s, i)) == r
    ensures PassAt(p, s)(i) == r
  {
  }

  /** At the start of a text that reads as a code citation, each code
      pass matches exactly when the citation is of its kind. */
  lemma CodePassesAtStart(s: string, m: Match)
    requires ParseCode(s, true, Clean) == Some(m)
    ensures PassAt(UscPass, s)(0) == (if m.citation.Usc? then Some(m) else None)
    ensures PassAt(CfrPass, s)(0) == (if m.citation.Cfr? then Some(m) else None)
  {
    assert s[0..] == s;
  }

  /** Text before the first match is copied. */
  lemma SubFromCopy(s: string, at: Matcher, j: nat)
    requires j <= |s| && Fits(|s|, at)
    requires forall k :: 0 <= k < j ==> at(k).None?
    ensures SubFrom(s, 0, at) == s[..j] + SubFrom(s, j, at)
  {
    SubFromSkip(s, 0, j, at);
    assert s[0..j] == s[..j];
  }

  /** A match at `i` is replaced and the rest rewritten after it. */
  lemma SubFromHit(s: string, i: nat, at: Matcher, m: Match)
    requires i < |s| && Fits(|s|, at) && at(i) == Some(m)
    ensures i + m.end <= |s|
    ensures SubFrom(s, i, at) == Render(m.citation) + SubFrom(s, i + m.end, at)
  {
  }

  /** Text copied before a match that runs to the end, then the match. */
  lemma SubFromLast(s: string, i: nat, at: Matcher, pre: string, m: Match)
    requires i < |s| && Fits(|s|, at)
    requires SubFrom(s, 0, at) == pre + SubFrom(s, i, at)
    requires at(i) == Some(m) && i + m.end == |s|
    ensures SubFrom(s, 0, at) == pre + Render(m.citation)
  {
    assert SubFrom(s, i, at) == Render(m.citation) + SubFrom(s, |s|, at);
  }

  lemma SubFromDone(s: string, at: Matcher)
    requires Fits(|s|, at)
    ensures SubFrom(s, |s|, at) == ""
  {
  }

  /** A code pattern matches nowhere in a stretch without digits. */
  lemma CodePassMisses(p: Pass, s: string, i: nat, j: nat)
    requires p == UscPass || p == CfrPass
    requires i <= j <= |s|
    requires forall k :: i <= k < j ==> !IsDigit(s[k])
    ensures forall k :: i <= k < j ==> PassAt(p, s)(k).None?
  {
    forall k | i <= k < j
      ensures PassAt(p, s)(k).None?
    {
      CodePassesNeedDigit(p, s[k..], StartsWord(s, k));
    }
  }

  predicate NoDigits(t: string)
  {
    forall k :: 0 <= k < |t| ==> !IsDigit(t[k])
  }

  /** The same, for a stretch given as a slice. */
  lemma CodePassMissesSlice(p: Pass, s: string, i: nat, j: nat)
    requires p == UscPass || p == CfrPass
    requires i <= j <= |s| && NoDigits(s[i..j])
    ensures forall k :: i <= k < j ==> PassAt(p, s)(k).None?
  {
    forall k | i <= k < j
      ensures !IsDigit(s[k])
    {
      assert s[k] == s[i..j][k - i];
    }
    CodePassMisses(p, s, i, j);
  }

  /** A section of one digit and then letters and digits, ending at `e`. */
  lemma SectionEndOneDigit(s: string, j: nat, e: nat)
    requires j < e <= |s| && IsDigit(s[j])
    requires j + 1 < e ==> !IsDigit(s[j + 1])
    requires forall i :: j + 1 <= i < e ==> IsAlnum(s[i])
    requires e < |s| ==> !IsAlnumOrParen(s[e]) && s[e] != '.'
    ensures SectionEnd(s, j, Clean) == e
  {
    SpanEndUnique(s, j, j + 1, IsDigit);
    SpanEndUnique(s, j + 1, e, IsAlnumOrParen);
  }

  /** The code citation of kind `kind`. */
  function CodeOf(kind: CodeKind, t: string, sec: string): Citation
  {
    if kind == UscKind then Usc(t, sec) else Cfr(t, sec)
  }

  /** "d NAME d " at the start of a text: a one-digit title, the code name
      and a one-digit section, each followed by a blank. */
  lemma SpacedCode(x: string, kind: CodeKind)
    requires 8 <= |x| && IsDigit(x[0]) && x[1] == ' ' && x[2..5] == CodeName(kind)
    requires x[5] == ' ' && IsDigit(x[6]) && x[7] == ' '
    ensures ParseCode(x, true, Clean) == Some(Match(CodeOf(kind, x[..1], x[6..7]), 7))
  {
    assert x[2] == x[2..5][0];
    SpanEndUnique(x, 0, 1, IsDigit);
    SpanEndUnique(x, 1, 2, IsSpace);
    CodeFormRendered(x, 2, kind);
    SectionStartAtDigit(x, 5, 6);
    SectionEndOneDigit(x, 6, 7);
    ParseCodeAt(x, Clean, 1, 2, kind, 5, 6, 7);
  }

  /** "dNAMEsection" with no blanks: a one-digit title, the code name and
      a section of one digit and then letters and digits to the end. */
  lemma TightCode(x: string, kind: CodeKind)
    requires 5 <= |x| && IsDigit(x[0]) && x[1..4] == CodeName(kind) && IsDigit(x[4])
    requires 5 < |x| ==> !IsDigit(x[5])
    requires forall i :: 5 <= i < |x| ==> IsAlnum(x[i])
    ensures ParseCode(x, true, Clean) == Some(Match(CodeOf(kind, x[..1], x[4..]), |x|))
  {
    assert x[1] == x[1..4][0];
    SpanEndUnique(x, 0, 1, IsDigit);
    SpanEndUnique(x, 1, 1, IsSpace);
    CodeFormRendered(x, 1, kind);
    SectionStartAtDigit(x, 4, 4);
    SectionEndOneDigit(x, 4, |x|);
    ParseCodeAt(x, Clean, 1, 1, kind, 4, 4, |x|);
    assert x[4..|x|] == x[4..];
  }

  /** The counterexample: a U.S. Code citation whose section holds a CFR
      citation whose section holds a U.S. Code citation ("1 USC 2CFR3USC4"),
      then what one call of clean_citation makes of it ("1 USC 2 CFR 3USC4")
      and what a second call makes of that ("1 USC 2 CFR 3 USC 4"). */
  const Once := "1" + " USC " + Nested
  const Twice := "1" + " USC " + Render(Cfr("2", Inner))
  const Thrice := Render(Usc("1", "2")) + " CFR " + Render(Usc("3", "4"))

  /** The section of `Once`, "2CFR3USC4", and the section inside that. */
  const Inner := "3USC4"
  const Nested := "2" + "CFR" + Inner

  lemma Spelled()
    ensures Once == "1 USC 2CFR3USC4"
    ensures Twice == "1 USC 2 CFR 3USC4"
    ensures Thrice == "1 USC 2 CFR 3 USC 4"
  {
  }

  lemma NestedSection()
    ensures IsSection(Nested)
  {
    SectionEndOneDigit(Nested, 0, 9);
  }

  lemma NestedCfr(x: string)
    requires x == Nested
    ensures PassMatch(CfrPass, x, true) == Some(Match(Cfr("2", Inner), 9))
  {
    Halves("2" + "CFR", Inner);
    TightCode(x, CfrKind);
    assert x[..1] == "2";
  }

  lemma InnerUsc(x: string)
    requires x == Inner
    ensures PassMatch(UscPass, x, true) == Some(Match(Usc("3", "4"), 5))
  {
    TightCode(x, UscKind);
    assert x[..1] == "3" && x[4..] == "4";
  }

  // ------------------------------------------------------------ first call

  /** clean_citation, given what its two code passes make of a text that
      the other passes then leave alone. */
  lemma CleanThrough(s: string, usc: string, cfr: string)
    requires Sub(UscPass, s) == usc && Sub(CfrPass, usc) == cfr
    requires forall p :: p != UscPass && p != CfrPass ==> Sub(p, cfr) == cfr
    ensures CleanAsWritten(s) == cfr
  {
    assert Sub(OrderPass, cfr) == cfr && Sub(ShortOrderPass, cfr) == cfr && Sub(PublicLawPass, cfr) == cfr;
    assert Sub(ActPass, cfr) == cfr && Sub(TitlePass, cfr) == cfr;
  }

  /** The U.S. Code pass reads all of `Once` as one citation and writes it
      back as it was. */
  lemma UscPassOnce()
    ensures Sub(UscPass, Once) == Once
  {
    var s := Once;
    var c := Usc("1", Nested);
    var at := PassAt(UscPass, s);
    NestedSection();
    CodeParses(c);
    assert s == Render(c);
    PassAtFits(UscPass, s);
    assert at(0) == Some(Match(c, |s|));
    SubFromHit(s, 0, at, Match(c, |s|));
    SubFromDone(s, at);
  }

  /** "1 USC " starts `Once`. */
  lemma OnceHead(s: string)
    requires s == Once
    ensures s[..6] == "1 USC " && s[1..6] == " USC " && StartsWord(s, 6)
  {
    Halves("1" + " USC ", Nested);
    Halves("1", " USC ");
  }

  /** The CFR pattern does not match at the start of `Once`, where the
      U.S. Code citation is read. */
  lemma CfrPassOnceStart(s: string)
    requires s == Once
    ensures PassAt(CfrPass, s)(0).None?
  {
    OnceIsCode(s);
    CodePassesAtStart(s, Match(Usc("1", Nested), |s|));
  }

  lemma OnceIsCode(s: string)
    requires s == Once
    ensures ParseCode(s, true, Clean) == Some(Match(Usc("1", Nested), |s|))
  {
    NestedSection();
    CodeParses(Usc("1", Nested));
  }

  /** Nor does it match anywhere else before the section. */
  lemma CfrPassOnceHead(s: string)
    requires s == Once
    ensures var at := PassAt(CfrPass, s);
      SubFrom(s, 0, at) == "1 USC " + SubFrom(s, 6, at)
  {
    var at := PassAt(CfrPass, s);
    PassAtFits(CfrPass, s);
    OnceHead(s);
    CfrPassOnceStart(s);
    CodeNamesSpaced();
    CodePassMissesSlice(CfrPass, s, 1, 6);
    SubFromCopy(s, at, 6);
  }

  /** After "1 USC " the CFR pattern reads the CFR citation of `Nested`. */
  lemma CfrPassOnceHit(s: string)
    requires s == Once
    ensures PassAt(CfrPass, s)(6) == Some(Match(Cfr("2", Inner), 9))
  {
    OnceHead(s);
    Halves("1" + " USC ", Nested);
    NestedCfr(s[6..]);
    PassAtOf(CfrPass, s, 6, s[6..], Some(Match(Cfr("2", Inner), 9)));
  }

  /** The CFR pass rewrites the CFR citation inside the section of `Once`. */
  lemma CfrPassOnce(s: string)
    requires s == Once
    ensures Sub(CfrPass, s) == Twice
  {
    var at := PassAt(CfrPass, s);
    PassAtFits(CfrPass, s);
    CfrPassOnceHead(s);
    CfrPassOnceHit(s);
    SubFromLast(s, 6, at, "1 USC ", Match(Cfr("2", Inner), 9));
    TwiceJoined();
  }

  lemma TwiceJoined()
    ensures Twice == "1 USC " + Render(Cfr("2", Inner))
  {
  }

  /** The passes after the CFR one find nothing in `Twice` or `Thrice`:
      neither holds a letter that starts their patterns. */
  lemma WordPassesKeepTwice()
    ensures forall p :: p != UscPass && p != CfrPass ==> Sub(p, Twice) == Twice
  {
    WordPassesKeep(Twice);
  }

  lemma WordPassesKeepThrice()
    ensures forall p :: p != UscPass && p != CfrPass ==> Sub(p, Thrice) == Thrice
  {
    WordPassesKeep(Thrice);
  }

  /** One call of clean_citation on `Once` gives `Twice`. */
  lemma CleanOnce()
    ensures CleanAsWritten(Once) == Twice
  {
    UscPassOnce();
    CfrPassOnce(Once);
    WordPassesKeepTwice();
    CleanThrough(Once, Once, Twice);
  }

  // ------------------------------------------------------------ second call

  /** A pass that reads a match from the start to `i`, copies up to `j`
      and reads a match from `j` to the end. */
  lemma SubThree(s: string, at: Matcher, i: nat, j: nat, m1: Match, m2: Match)
    requires 0 < i <= j < |s| && Fits(|s|, at)
    requires at(0) == Some(m1) && m1.end == i
    requires forall k :: i <= k < j ==> at(k).None?
    requires at(j) == Some(m2) && j + m2.end == |s|
    ensures SubFrom(s, 0, at) == Render(m1.citation) + s[i..j] + Render(m2.citation)
  {
    var r1 := Render(m1.citation);
    SubFromHit(s, 0, at, m1);
    SubFromSkip(s, i, j, at);
    Assoc(r1, s[i..j], SubFrom(s, j, at));
    SubFromLast(s, j, at, r1 + s[i..j], m2);
  }

  /** A pass that copies up to `i`, reads a match from `i` to `j` and
      copies the rest. */
  lemma SubOneHit(s: string, at: Matcher, i: nat, j: nat, m: Match)
    requires i < j <= |s| && Fits(|s|, at)
    requires forall k :: 0 <= k < i ==> at(k).None?
    requires at(i) == Some(m) && i + m.end == j
    requires forall k :: j <= k < |s| ==> at(k).None?
    ensures SubFrom(s, 0, at) == s[..i] + Render(m.citation) + s[j..]
  {
    SubFromCopyThenHit(s, at, i, j, m);
    SubFromCopyRest(s, at, j);
    Substitute(SubFrom(s, 0, at), s[..i] + Render(m.citation), SubFrom(s, j, at), s[j..]);
  }

  lemma SubFromCopyThenHit(s: string, at: Matcher, i: nat, j: nat, m: Match)
    requires i < |s| && Fits(|s|, at)
    requires forall k :: 0 <= k < i ==> at(k).None?
    requires at(i) == Some(m) && i + m.end == j
    ensures j <= |s| && SubFrom(s, 0, at) == s[..i] + Render(m.citation) + SubFrom(s, j, at)
  {
    SubFromCopy(s, at, i);
    SubFromHit(s, i, at, m);
    Join(SubFrom(s, 0, at), s[..i], SubFrom(s, i, at), Render(m.citation), SubFrom(s, j, at));
  }

  /** Two rewrites of the tail of a concatenation, joined. */
  lemma Join(whole: string, pre: string, tail: string, mid: string, rest: string)
    requires whole == pre + tail && tail == mid + rest
    ensures whole == pre + mid + rest
  {
    Assoc(pre, mid, rest);
  }

  /** Replacing the tail of a concatenation by an equal string. */
  lemma Substitute(whole: string, pre: string, tail: string, tail': string)
    requires whole == pre + tail && tail == tail'
    ensures whole == pre + tail'
  {
  }

  lemma SubFromCopyRest(s: string, at: Matcher, j: nat)
    requires j <= |s| && Fits(|s|, at)
    requires forall k :: j <= k < |s| ==> at(k).None?
    ensures SubFrom(s, j, at) == s[j..]
  {
    SubFromSkip(s, j, |s|, at);
    SubFromDone(s, at);
    assert s[j..|s|] + "" == s[j..];
  }

  /** Concatenation is associative. */
  lemma Assoc(a: string, b: string, c: string)
    ensures a + (b + c) == a + b + c
  {
  }

  /** A lone digit is no code citation. */
  lemma LoneDigit(x: string, b: bool)
    requires |x| == 1
    ensures ParseCode(x, b, Clean).None?
  {
  }

  lemma TwiceParts()
    ensures Twice == Render(Usc("1", "2")) + " CFR " + Inner
  {
  }

  lemma ThriceParts()
    ensures Thrice == "1 USC " + Render(Cfr("2", "3")) + " USC 4"
  {
  }

  /** A code citation with a one-digit title and section, followed by a
      blank, reads back as itself. */
  lemma SpacedRendered(c: Citation, rest: string)
    requires (c.Usc? || c.Cfr?) && |c.title| == 1 && |c.section| == 1
    requires IsDigit(c.title[0]) && IsDigit(c.section[0])
    requires 0 < |rest| && rest[0] == ' '
    ensures ParseCode(Render(c) + rest, true, Clean) == Some(Match(c, 7))
  {
    var kind := if c.Usc? then UscKind else CfrKind;
    var name := CodeName(kind);
    CodeRenderShape(c);
    var x := Render(c) + rest;
    assert x == c.title + " " + name + " " + c.section + rest;
    assert x[2..5] == name;
    assert x[..1] == c.title && x[6..7] == c.section;
    SpacedCode(x, kind);
  }

  /** The U.S. Code pattern reads "1 USC 2" at the start of `Twice`. */
  lemma UscPassTwiceStart(s: string)
    requires s == Twice
    ensures PassAt(UscPass, s)(0) == Some(Match(Usc("1", "2"), 7))
  {
    TwiceSplit(s);
    SpacedRendered(Usc("1", "2"), " CFR " + Inner);
    CodePassesAtStart(s, Match(Usc("1", "2"), 7));
  }

  lemma TwiceSplit(s: string)
    requires s == Twice
    ensures s == Render(Usc("1", "2")) + (" CFR " + Inner)
  {
    TwiceParts();
  }

  /** It finds nothing in " CFR ", then reads `Inner` to the end. */
  lemma UscPassTwiceRest(s: string)
    requires s == Twice
    ensures forall k :: 7 <= k < 12 ==> PassAt(UscPass, s)(k).None?
    ensures PassAt(UscPass, s)(12) == Some(Match(Usc("3", "4"), 5))
  {
    TwiceMiddle(s);
    CodeNamesSpaced();
    CodePassMissesSlice(UscPass, s, 7, 12);
    TwiceLast(s);
    InnerUsc(Inner);
    PassAtOf(UscPass, s, 12, Inner, Some(Match(Usc("3", "4"), 5)));
  }

  lemma TwiceLast(s: string)
    requires s == Twice
    ensures |s| == 17 && s[12..] == Inner && StartsWord(s, 12)
  {
    TwiceParts();
    Halves(Render(Usc("1", "2")) + " CFR ", Inner);
    TwiceMiddle(s);
    assert s[11] == s[7..12][4];
  }

  /** Neither code name, between blanks, holds a digit. */
  lemma CodeNamesSpaced()
    ensures NoDigits(" USC ") && NoDigits(" CFR ")
  {
  }

  /** The U.S. Code pass splits `Twice` into two U.S. Code citations. */
  lemma UscPassTwice(s: string)
    requires s == Twice
    ensures Sub(UscPass, s) == Thrice
  {
    PassAtFits(UscPass, s);
    UscPassTwiceStart(s);
    UscPassTwiceRest(s);
    TwiceMiddle(s);
    SubThree(s, PassAt(UscPass, s), 7, 12, Match(Usc("1", "2"), 7), Match(Usc("3", "4"), 5));
  }

  lemma TwiceMiddle(s: string)
    requires s == Twice
    ensures |s| == 17 && s[7..12] == " CFR "
  {
    TwiceParts();
    Halves(Render(Usc("1", "2")) + " CFR ", Inner);
    Halves(Render(Usc("1", "2")), " CFR ");
  }

  /** The CFR pattern finds nothing at the start of `Thrice`, where the
      U.S. Code citation "1 USC 2" is read. */
  lemma CfrPassThriceStart(s: string)
    requires s == Thrice
    ensures PassAt(CfrPass, s)(0).None?
  {
    ThriceSplit(s);
    SpacedRendered(Usc("1", "2"), " CFR " + Render(Usc("3", "4")));
    CodePassesAtStart(s, Match(Usc("1", "2"), 7));
  }

  lemma ThriceSplit(s: string)
    requires s == Thrice
    ensures s == Render(Usc("1", "2")) + (" CFR " + Render(Usc("3", "4")))
  {
  }

  /** Nor in the rest of "1 USC ", nor in " USC ", nor at the final "4",
      which is no code citation on its own. */
  lemma CfrPassThriceMisses(s: string)
    requires s == Thrice
    ensures forall k :: 0 <= k < 6 ==> PassAt(CfrPass, s)(k).None?
    ensures forall k :: 13 <= k < |s| ==> PassAt(CfrPass, s)(k).None?
  {
    CfrPassThriceStart(s);
    ThriceSlices(s);
    CodeNamesSpaced();
    CodePassMissesSlice(CfrPass, s, 1, 6);
    CodePassMissesSlice(CfrPass, s, 13, 18);
    LoneDigit(s[18..], StartsWord(s, 18));
  }

  lemma ThriceSlices(s: string)
    requires s == Thrice
    ensures |s| == 19 && s[1..6] == " USC " && s[13..18] == " USC " && |s[18..]| == 1
  {
    assert s == "1" + " USC " + "2 CFR 3 USC 4";
    Middle("1", " USC ", "2 CFR 3 USC 4");
    assert s == "1 USC 2 CFR 3" + " USC " + "4";
    Middle("1 USC 2 CFR 3", " USC ", "4");
  }

  /** The middle of three concatenated strings, as a slice. */
  lemma Middle(a: string, b: string, c: string)
    ensures (a + b + c)[|a|..|a| + |b|] == b
  {
  }

  /** It reads "2 CFR 3" at 6 and writes it back as it was. */
  lemma CfrPassThriceHit(s: string)
    requires s == Thrice
    ensures PassAt(CfrPass, s)(6) == Some(Match(Cfr("2", "3"), 7))
  {
    var x := Render(Cfr("2", "3")) + " USC 4";
    ThriceAfterHead(s);
    SpacedRendered(Cfr("2", "3"), " USC 4");
    assert PassMatch(CfrPass, x, true) == Some(Match(Cfr("2", "3"), 7));
    PassAtOf(CfrPass, s, 6, x, Some(Match(Cfr("2", "3"), 7)));
  }

  lemma ThriceAfterHead(s: string)
    requires s == Thrice
    ensures s[6..] == Render(Cfr("2", "3")) + " USC 4" && StartsWord(s, 6)
  {
    ThriceParts();
    Halves("1 USC ", Render(Cfr("2", "3")) + " USC 4");
    assert s == "1 USC " + (Render(Cfr("2", "3")) + " USC 4");
    assert s[5] == ("1 USC ")[5];
  }

  lemma CfrPassThrice(s: string)
    requires s == Thrice
    ensures Sub(CfrPass, s) == Thrice
  {
    PassAtFits(CfrPass, s);
    CfrPassThriceMisses(s);
    CfrPassThriceHit(s);
    ThriceEnds(s);
    SubOneHit(s, PassAt(CfrPass, s), 6, 13, Match(Cfr("2", "3"), 7));
  }

  lemma ThriceEnds(s: string)
    requires s == Thrice
    ensures |s| == 19 && s[..6] + Render(Cfr("2", "3")) + s[13..] == s
  {
    ThriceParts();
    Halves("1 USC ", Render(Cfr("2", "3")) + " USC 4");
    Halves("1 USC " + Render(Cfr("2", "3")), " USC 4");
  }

  /** A second call of clean_citation, on `Twice`, gives `Thrice`. */
  lemma CleanTwice()
    ensures CleanAsWritten(Twice) == Thrice
  {
    UscPassTwice(Twice);
    CfrPassThrice(Thrice);
    WordPassesKeepThrice();
    CleanThrough(Twice, Thrice, Thrice);
  }

  // ------------------------------------------------------------ the finding

  /** The section of `Once` holds a CFR citation: `Once` is not nest-free. */
  lemma NestedNotFree(x: string)
    requires x == Nested
    ensures !NestFree(Usc("1", x))
  {
    Halves("2" + "CFR", Inner);
    assert x[..4] == "2CFR" && x[4] == '3';
    SpanEndUnique(x, 0, 1, IsDigit);
    assert LiteralAt(x, 1, "CFR");
    assert SectionBoundary(x, 0) && NestedCodeAt(x, 0, "CFR");
  }

  /** `Once` is one whole U.S. Code citation, which the pipeline's
      canonicalisation writes back as it was. */
  lemma OnceRecognized()
    ensures Recognize(Once) == Some(Usc("1", Nested)) && CleanCitation(Once) == Once
  {
    NestedSection();
    CodeParses(Usc("1", Nested));
  }

  /** clean_citation as written is not idempotent: on a U.S. Code citation
      whose section nests a CFR citation that nests a U.S. Code citation, a
      second call splits the innermost citation that the first call left
      glued. The canonicalisation the pipeline models instead,
      `CleanCitation`, keeps `Once` as it is and is idempotent on every
      text (`CitationLaws.CleanCitationIdempotent`). */
  lemma DoublyNestedNotIdempotent()
    ensures Once == "1 USC 2CFR3USC4" && !NestFree(Usc("1", Nested))
    ensures CleanAsWritten(Once) == "1 USC 2 CFR 3USC4"
    ensures CleanAsWritten(CleanAsWritten(Once)) == "1 USC 2 CFR 3 USC 4"
    ensures CleanAsWritten(CleanAsWritten(Once)) != CleanAsWritten(Once)
    ensures CleanCitation(Once) == Once
  {
    Spelled();
    NestedNotFree(Nested);
    OnceRecognized();
    CleanOnce();
    CleanTwice();
  }
}

=== FILE: common.dfy ===
/** Character classes and string operations shared by every script: the
    Python built-ins they lean on (str.strip, str.find, str.splitlines,
    int(), str(int), substring `in`), written over `seq<char>`.

    Character classes follow Python's definitions restricted to ASCII where
    Python consults the Unicode database (\w, \d, lower()); whitespace is the
    exact set Python's str.isspace accepts, which is also what `\s` matches
    in a str pattern. */
module Common {

  datatype Option<+T> = None | Some(value: T)

  /** Python str.isspace, which is also the class `\s` matches. */
  predicate IsSpace(c: char)
  {
    || c == ' ' || c == '\t' || c == '\n' || c == '\r' || c == '\U{B}' || c == '\U{C}'
    || ('\U{1C}' <= c <= '\U{1F}') || c == '\U{85}' || c == '\U{A0}' || c == '\U{1680}'
    || ('\U{2000}' <= c <= '\U{200A}') || c == '\U{2028}' || c == '\U{2029}'
    || c == '\U{202F}' || c == '\U{205F}' || c == '\U{3000}'
  }

  predicate IsDigit(c: char) { '0' <= c <= '9' }

  predicate IsUpper(c: char) { 'A' <= c <= 'Z' }

  predicate IsLower(c: char) { 'a' <= c <= 'z' }

  predicate IsLetter(c: char) { IsUpper(c) || IsLower(c) }

  predicate IsAlnum(c: char) { IsLetter(c) || IsDigit(c) }

  /** `\w`: letters, digits and the underscore. */
  predicate IsWordChar(c: char) { IsAlnum(c) || c == '_' }

  function Lower(c: char): (r: char)
    ensures IsUpper(c) ==> IsLower(r) && r as int == c as int + 32
    ensures !IsUpper(c) ==> r == c
  {
    if IsUpper(c) then (c as int + 32) as char else c
  }

  /** Every character of `s` satisfies `p`. */
  predicate All(s: string, p: char -> bool)
  {
    forall i :: 0 <= i < |s| ==> p(s[i])
  }

  /** The characters of `s` that satisfy `keep`, in order. */
  function Filter(s: string, keep: char -> bool): (r: string)
    ensures |r| <= |s|
    ensures All(r, keep)
  {
    if |s| == 0 then [] else (if keep(s[0]) then [s[0]] else []) + Filter(s[1..], keep)
  }

  lemma {:induction false} FilterAppend(a: string, b: string, keep: char -> bool)
    ensures Filter(a + b, keep) == Filter(a, keep) + Filter(b, keep)
  {
    if |a| == 0 {
      assert a + b == b;
    } else {
      var h := if keep(a[0]) then [a[0]] else [];
      assert (a + b)[0] == a[0] && (a + b)[1..] == a[1..] + b;
      assert Filter(a + b, keep) == h + Filter(a[1..] + b, keep);
      FilterAppend(a[1..], b, keep);
      assert Filter(a, keep) == h + Filter(a[1..], keep);
    }
  }

  lemma {:induction false} FilterKeepsAll(s: string, keep: char -> bool)
    requires All(s, keep)
    ensures Filter(s, keep) == s
  {
    if |s| > 0 {
      FilterKeepsAll(s[1..], keep);
    }
  }

  /** End of the maximal run of characters satisfying `p` that starts at `j`:
      the position a greedy `p*` stops at. */
  function SpanEnd(s: string, j: nat, p: char -> bool): (k: nat)
    requires j <= |s|
    ensures j <= k <= |s|
    ensures forall i :: j <= i < k ==> p(s[i])
    ensures k < |s| ==> !p(s[k])
    decreases |s| - j
  {
    if j < |s| && p(s[j]) then SpanEnd(s, j + 1, p) else j
  }

  /** A run is determined by its two defining facts. */
  lemma SpanEndUnique(s: string, j: nat, k: nat, p: char -> bool)
    requires j <= k <= |s|
    requires forall i :: j <= i < k ==> p(s[i])
    requires k < |s| ==> !p(s[k])
    ensures SpanEnd(s, j, p) == k
  {
  }

  /** Cutting the string at or after the end of a run leaves the run alone. */
  lemma SpanEndTruncate(s: string, j: nat, n: nat, p: char -> bool)
    requires j <= n <= |s|
    requires SpanEnd(s, j, p) <= n
    ensures SpanEnd(s[..n], j, p) == SpanEnd(s, j, p)
  {
    SpanEndUnique(s[..n], j, SpanEnd(s, j, p), p);
  }

  /** Prefixing the string shifts a run by the prefix's length. */
  lemma SpanEndShift(pre: string, s: string, j: nat, p: char -> bool)
    requires j <= |s|
    ensures SpanEnd(pre + s, |pre| + j, p) == |pre| + SpanEnd(s, j, p)
  {
    var e := SpanEnd(s, j, p);
    var t := pre + s;
    forall i | |pre| + j <= i < |pre| + e
      ensures p(t[i])
    {
      assert t[i] == s[i - |pre|];
    }
    if |pre| + e < |t| {
      assert t[|pre| + e] == s[e];
    }
    SpanEndUnique(t, |pre| + j, |pre| + e, p);
  }

  /** A slice of a prefix is the same slice of the whole string. */
  lemma SliceOfPrefix(s: string, n: nat, i: nat, j: nat)
    requires i <= j <= n <= |s|
    ensures s[..n][i..j] == s[i..j]
  {
  }

  /** Python's case-insensitive match of an ASCII literal at position `j`. */
  predicate LiteralAt(s: string, j: nat, lit: string)
  {
    j + |lit| <= |s| && forall i :: 0 <= i < |lit| ==> Lower(s[j + i]) == Lower(lit[i])
  }

  /** A literal found in a prefix is found in the whole string; one that
      ends inside the prefix is found in both or in neither. */
  lemma LiteralAtTruncate(s: string, j: nat, n: nat, lit: string)
    requires n <= |s|
    ensures LiteralAt(s[..n], j, lit) ==> LiteralAt(s, j, lit)
    ensures j + |lit| <= n ==> LiteralAt(s[..n], j, lit) == LiteralAt(s, j, lit)
  {
  }

  // ---------------------------------------------------------------- strip

  function LStrip(s: string): (r: string)
    ensures |r| <= |s| && r == s[|s| - |r|..]
    ensures |r| > 0 ==> !IsSpace(r[0])
    ensures forall i :: 0 <= i < |s| - |r| ==> IsSpace(s[i])
  {
    if |s| > 0 && IsSpace(s[0]) then LStrip(s[1..]) else s
  }

  function RStrip(s: string): (r: string)
    ensures |r| <= |s| && r == s[..|r|]
    ensures |r| > 0 ==> !IsSpace(r[|r| - 1])
    ensures forall i :: |r| <= i < |s| ==> IsSpace(s[i])
  {
    if |s| > 0 && IsSpace(s[|s| - 1]) then RStrip(s[..|s| - 1]) else s
  }

  /** Python str.strip() with no argument. */
  function Strip(s: string): (r: string)
    ensures |r| <= |s|
    ensures Stripped(r)
  {
    RStrip(LStrip(s))
  }

  /** No leading and no trailing whitespace. */
  predicate Stripped(s: string)
  {
    |s| == 0 || (!IsSpace(s[0]) && !IsSpace(s[|s| - 1]))
  }

  lemma StripStripped(s: string)
    requires Stripped(s)
    ensures Strip(s) == s
  {
  }

  /** Strip cuts whitespace off both ends and nothing more: its result is
      the slice of `s` that starts at the first non-space character and has
      only whitespace after it. */
  lemma StripSlice(s: string)
    ensures var i := SpanEnd(s, 0, IsSpace);
      && i + |Strip(s)| <= |s| && Strip(s) == s[i..i + |Strip(s)|]
      && forall k :: i + |Strip(s)| <= k < |s| ==> IsSpace(s[k])
  {
    var l := LStrip(s);
    var i := |s| - |l|;
    assert |l| > 0 ==> l[0] == s[i];
    SpanEndUnique(s, 0, i, IsSpace);
    var r := RStrip(l);
    assert r == s[i..i + |r|];
    assert forall k :: i + |r| <= k < |s| ==> s[k] == l[k - i];
  }

  /** And that slice is the only one: a stripped slice of `s` with only
      whitespace around it is Strip(s). */
  lemma StripUnique(s: string, i: nat, j: nat)
    requires i <= j <= |s| && Stripped(s[i..j])
    requires forall k :: 0 <= k < i ==> IsSpace(s[k])
    requires forall k :: j <= k < |s| ==> IsSpace(s[k])
    ensures Strip(s) == s[i..j]
  {
    var l := LStrip(s);
    var a := |s| - |l|;
    assert |l| > 0 ==> l[0] == s[a];
    if i < j {
      assert s[i..j][0] == s[i] && s[i..j][j - i - 1] == s[j - 1];
      assert a == i;
      var r := RStrip(l);
      var b := |r|;
      assert l[j - i - 1] == s[j - 1];
      assert b > 0 ==> r[b - 1] == s[i + b - 1];
      assert b == j - i;
    }
  }

  /** Strip removes whitespace and nothing else. */
  lemma StripKeepsNonSpace(s: string)
    ensures Filter(Strip(s), NotSpace) == Filter(s, NotSpace)
  {
    LStripKeepsNonSpace(s);
    RStripKeepsNonSpace(LStrip(s));
  }

  lemma LStripKeepsNonSpace(s: string)
    ensures Filter(LStrip(s), NotSpace) == Filter(s, NotSpace)
  {
    var l := LStrip(s);
    var n := |s| - |l|;
    var a := s[..n];
    assert s == a + l by {
      assert l == s[n..];
    }
    FilterAppend(a, l, NotSpace);
    assert forall i :: 0 <= i < |a| ==> a[i] == s[i];
    FilterNone(a, NotSpace);
  }

  lemma RStripKeepsNonSpace(s: string)
    ensures Filter(RStrip(s), NotSpace) == Filter(s, NotSpace)
  {
    var r := RStrip(s);
    var b := s[|r|..];
    assert s == r + b;
    FilterAppend(r, b, NotSpace);
    FilterNone(b, NotSpace);
  }

  predicate NotSpace(c: char) { !IsSpace(c) }

  lemma {:induction false} FilterNone(s: string, keep: char -> bool)
    requires forall i :: 0 <= i < |s| ==> !keep(s[i])
    ensures Filter(s, keep) == []
  {
    if |s| > 0 {
      FilterNone(s[1..], keep);
    }
  }

  /** `not s.strip()`: empty or nothing but whitespace. */
  predicate IsBlank(s: string)
  {
    |s| == 0 || (IsSpace(s[0]) && IsBlank(s[1..]))
  }

  lemma {:induction false} BlankIffAllSpace(s: string)
    ensures IsBlank(s) <==> All(s, IsSpace)
  {
    if |s| > 0 {
      BlankIffAllSpace(s[1..]);
      assert All(s, IsSpace) <==> IsSpace(s[0]) && All(s[1..], IsSpace) by {
        assert forall i :: 1 <= i < |s| ==> s[i] == s[1..][i - 1];
      }
    }
  }

  /** The two readings of a blank string agree. */
  lemma BlankIffStripsEmpty(s: string)
    ensures IsBlank(s) <==> |Strip(s)| == 0
  {
    BlankIffAllSpace(s);
    var l := LStrip(s);
    assert |l| > 0 ==> l[0] == s[|s| - |l|];
    if |Strip(s)| == 0 {
      assert |RStrip(l)| == 0;
      assert |l| == 0;
    }
  }

  // ---------------------------------------------------------------- search

  /** `needle` occurs in `hay` starting at `i`. */
  predicate OccursAt(hay: string, needle: string, i: nat)
  {
    i + |needle| <= |hay| && hay[i..i + |needle|] == needle
  }

  /** Python `needle in hay`. */
  predicate Contains(hay: string, needle: string)
  {
    exists i: nat | i <= |hay| :: OccursAt(hay, needle, i)
  }

  function FindFrom(hay: string, needle: string, j: nat): (r: int)
    ensures r == -1 || (j <= r && OccursAt(hay, needle, r))
    ensures r >= 0 ==> forall i: nat :: j <= i < r ==> !OccursAt(hay, needle, i)
    ensures r == -1 ==> forall i: nat :: j <= i ==> !OccursAt(hay, needle, i)
    decreases |hay| - j
  {
    if j + |needle| > |hay| then -1
    else if hay[j..j + |needle|] == needle then j
    else FindFrom(hay, needle, j + 1)
  }

  /** Python str.find: the lowest index of an occurrence, or -1. */
  function Find(hay: string, needle: string): (r: int)
    ensures r == -1 <==> !Contains(hay, needle)
    ensures r >= 0 ==> OccursAt(hay, needle, r) && forall i: nat :: i < r ==> !OccursAt(hay, needle, i)
  {
    FindFrom(hay, needle, 0)
  }

  /** Python `s[:k]`: a negative bound counts from the end. */
  function SliceTo(s: string, k: int): (r: string)
    ensures k >= 0 ==> r == s[..if k <= |s| then k else |s|]
    ensures k < 0 ==> r == s[..if |s| + k >= 0 then |s| + k else 0]
  {
    if k >= 0 then (if k <= |s| then s[..k] else s)
    else (if |s| + k >= 0 then s[..|s| + k] else [])
  }

  // ---------------------------------------------------------------- lines

  /** The characters Python str.splitlines() splits on. */
  predicate IsLineBreak(c: char)
  {
    || c == '\n' || c == '\r' || c == '\U{B}' || c == '\U{C}' || c == '\U{1C}' || c == '\U{1D}'
    || c == '\U{1E}' || c == '\U{85}' || c == '\U{2028}' || c == '\U{2029}'
  }

  predicate NotLineBreak(c: char) { !IsLineBreak(c) }

  /** Where the next line starts after the break at `k`: "\r\n" is one break. */
  function NextLine(s: string, k: nat): (next: nat)
    requires k < |s|
    ensures k < next <= |s|
  {
    if s[k] == '\r' && k + 1 < |s| && s[k + 1] == '\n' then k + 2 else k + 1
  }

  /** Python str.splitlines(): "\r\n" counts as one break, and a final break
      does not open an empty last line. */
  function SplitLines(s: string): (lines: seq<string>)
    ensures forall k :: 0 <= k < |lines| ==> All(lines[k], NotLineBreak)
    ensures |s| == 0 <==> |lines| == 0
    decreases |s|
  {
    if |s| == 0 then []
    else
      var k := SpanEnd(s, 0, NotLineBreak);
      if k == |s| then [s]
      else [s[..k]] + SplitLines(s[NextLine(s, k)..])
  }

  /** A line break as str.splitlines() reads one: a break character, or
      "\r\n" taken together. */
  predicate IsLineEnd(e: string)
  {
    (|e| == 1 && IsLineBreak(e[0])) || e == "\r\n"
  }

  /** The break after each line of `SplitLines(s)`, in the same recursion;
      the last line's is empty when `s` does not end in a break. */
  function LineEnds(s: string): seq<string>
    decreases |s|
  {
    if |s| == 0 then []
    else
      var k := SpanEnd(s, 0, NotLineBreak);
      if k == |s| then [""]
      else [s[k..NextLine(s, k)]] + LineEnds(s[NextLine(s, k)..])
  }

  /** Every line but the last ends in one break; the last in one or none. */
  predicate WellEnded(ends: seq<string>)
  {
    && (forall k :: 0 <= k < |ends| - 1 ==> IsLineEnd(ends[k]))
    && (|ends| > 0 ==> ends[|ends| - 1] == "" || IsLineEnd(ends[|ends| - 1]))
  }

  /** Each line followed by its break, all joined. */
  function Interleave(lines: seq<string>, ends: seq<string>): string
    requires |lines| == |ends|
  {
    if |lines| == 0 then [] else lines[0] + ends[0] + Interleave(lines[1..], ends[1..])
  }

  lemma InterleaveCons(x: string, e: string, lines: seq<string>, ends: seq<string>)
    requires |lines| == |ends|
    ensures Interleave([x] + lines, [e] + ends) == x + e + Interleave(lines, ends)
  {
    assert ([x] + lines)[1..] == lines && ([e] + ends)[1..] == ends;
  }

  lemma WellEndedCons(e: string, ends: seq<string>)
    requires IsLineEnd(e) && WellEnded(ends)
    ensures WellEnded([e] + ends)
  {
    var all := [e] + ends;
    forall k | 1 <= k < |all|
      ensures all[k] == ends[k - 1]
    {
    }
  }

  lemma SliceThree(s: string, k: nat, next: nat)
    requires k <= next <= |s|
    ensures s == s[..k] + s[k..next] + s[next..]
  {
    assert s[..k] + s[k..next] == s[..next];
  }

  lemma BreakIsLineEnd(s: string, k: nat)
    requires k < |s| && IsLineBreak(s[k])
    ensures IsLineEnd(s[k..NextLine(s, k)])
  {
    var next := NextLine(s, k);
    assert s[k..next][0] == s[k];
    if next == k + 2 {
      assert s[k..next] == "\r\n";
    }
  }

  /** One step of the split: the first line, its break, and the rest. */
  lemma SplitLinesStep(s: string, k: nat)
    requires k == SpanEnd(s, 0, NotLineBreak) && k < |s|
    ensures var next := NextLine(s, k);
      && SplitLines(s) == [s[..k]] + SplitLines(s[next..])
      && LineEnds(s) == [s[k..next]] + LineEnds(s[next..])
  {
  }

  /** The lines and their breaks put back together give the text: the split
      loses only the breaks, and every line but the last ends in exactly
      one break, "\r\n" counting as one. */
  lemma {:induction false} SplitLinesRebuild(s: string)
    ensures |LineEnds(s)| == |SplitLines(s)|
    ensures Interleave(SplitLines(s), LineEnds(s)) == s
    ensures WellEnded(LineEnds(s))
    decreases |s|
  {
    if |s| > 0 {
      var k := SpanEnd(s, 0, NotLineBreak);
      if k == |s| {
        InterleaveCons(s, "", [], []);
      } else {
        var next := NextLine(s, k);
        var rest := s[next..];
        SplitLinesRebuild(rest);
        SplitLinesStep(s, k);
        SliceThree(s, k, next);
        BreakIsLineEnd(s, k);
        InterleaveCons(s[..k], s[k..next], SplitLines(rest), LineEnds(rest));
        WellEndedCons(s[k..next], LineEnds(rest));
      }
    }
  }

  // ---------------------------------------------------------------- numbers

  function DigitValue(c: char): (d: nat)
    requires IsDigit(c)
    ensures d < 10
  {
    c as int - '0' as int
  }

  function DigitChar(d: nat): (c: char)
    requires d < 10
    ensures IsDigit(c) && DigitValue(c) == d
  {
    ('0' as int + d) as char
  }

  /** Python int() of a string of ASCII digits. */
  function DigitsValue(s: string): (n: nat)
    requires All(s, IsDigit)
  {
    if |s| == 0 then 0 else DigitsValue(s[..|s| - 1]) * 10 + DigitValue(s[|s| - 1])
  }

  /** Python str() of a non-negative int: decimal, no leading zeros. */
  function NatToString(n: nat): (r: string)
    ensures |r| > 0 && All(r, IsDigit)
    ensures |r| > 1 ==> r[0] != '0'
  {
    if n < 10 then [DigitChar(n)] else NatToString(n / 10) + [DigitChar(n % 10)]
  }

  /** int() undoes str(). */
  lemma {:induction false} NatToStringRoundTrip(n: nat)
    ensures DigitsValue(NatToString(n)) == n
  {
    if n >= 10 {
      var s := NatToString(n);
      assert s[..|s| - 1] == NatToString(n / 10);
      NatToStringRoundTrip(n / 10);
    }
  }

  lemma NatToStringInjective(m: nat, n: nat)
    requires NatToString(m) == NatToString(n)
    ensures m == n
  {
    NatToStringRoundTrip(m);
    NatToStringRoundTrip(n);
  }

  /** Python str() of an int. */
  function IntToString(n: int): (r: string)
    ensures |r| > 0
    ensures n >= 0 ==> r == NatToString(n)
    ensures n < 0 ==> r == "-" + NatToString(-n)
    ensures r[0] == '-' <==> n < 0
  {
    if n >= 0 then NatToString(n) else "-" + NatToString(-n)
  }

  lemma IntToStringInjective(m: int, n: int)
    requires IntToString(m) == IntToString(n)
    ensures m == n
  {
    if m >= 0 && n >= 0 {
      NatToStringInjective(m, n);
    } else if m < 0 && n < 0 {
      assert IntToString(m)[1..] == NatToString(-m);
      assert IntToString(n)[1..] == NatToString(-n);
      NatToStringInjective(-m, -n);
    }
  }

  /** Python ' '.join(words) with a one-character separator. */
  function Join(words: seq<string>, sep: char): (r: string)
  {
    if |words| == 0 then []
    else if |words| == 1 then words[0]
    else words[0] + [sep] + Join(words[1..], sep)
  }

  // ---------------------------------------------------------------- lists

  /** The concatenation of a list of lists, in order. */
  function Flatten<T>(xss: seq<seq<T>>): (r: seq<T>)
  {
    if |xss| == 0 then [] else Flatten(xss[..|xss| - 1]) + xss[|xss| - 1]
  }

  lemma {:induction false} FlattenAppend<T>(a: seq<seq<T>>, b: seq<seq<T>>)
    ensures Flatten(a + b) == Flatten(a) + Flatten(b)
    decreases |b|
  {
    if |b| == 0 {
      assert a + b == a;
    } else {
      assert (a + b)[..|a + b| - 1] == a + b[..|b| - 1];
      assert (a + b)[|a + b| - 1] == b[|b| - 1];
      FlattenAppend(a, b[..|b| - 1]);
    }
  }

  /** An element of the concatenation is an element of one of the lists. */
  lemma {:induction false} FlattenMembers<T>(xss: seq<seq<T>>, x: T)
    ensures x in Flatten(xss) <==> exists j :: 0 <= j < |xss| && x in xss[j]
    decreases |xss|
  {
    if |xss| > 0 {
      var init := xss[..|xss| - 1];
      FlattenMembers(init, x);
      if exists j :: 0 <= j < |init| && x in init[j] {
        var j :| 0 <= j < |init| && x in init[j];
        assert xss[j] == init[j];
      }
      if exists j :: 0 <= j < |xss| && x in xss[j] {
        var j :| 0 <= j < |xss| && x in xss[j];
        if j < |init| {
          assert init[j] == xss[j];
        }
      }
    }
  }

  lemma {:induction false} FlattenEmpty<T>(xss: seq<seq<T>>)
    requires forall j :: 0 <= j < |xss| ==> xss[j] == []
    ensures Flatten(xss) == []
    decreases |xss|
  {
    if |xss| > 0 {
      FlattenEmpty(xss[..|xss| - 1]);
    }
  }
}

=== FILE: component_ids.dfy ===
/** ivn_generate_unique_IDs_for_components.py: a component without an ID
    gets the digest of its normalised source and description. The digest
    (SHA-256 in hex) is a parameter; a spreadsheet cell is `None` when the
    value is missing and otherwise the text `str()` gives for it. */
module ComponentIds {
  import opened Common

  // ------------------------------------------------------------ normalisation

  /** `str.lower()` over ASCII, character by character. */
  function LowerAll(s: string): (r: string)
    ensures |r| == |s|
    ensures forall i :: 0 <= i < |s| ==> r[i] == Lower(s[i])
  {
    seq(|s|, i requires 0 <= i < |s| => Lower(s[i]))
  }

  function Upper(c: char): (r: char)
    ensures IsLower(c) ==> IsUpper(r) && Lower(r) == c
    ensures !IsLower(c) ==> r == c
  {
    if IsLower(c) then (c as int - 32) as char else c
  }

  function UpperAll(s: string): (r: string)
    ensures |r| == |s|
    ensures forall i :: 0 <= i < |s| ==> r[i] == Upper(s[i])
  {
    seq(|s|, i requires 0 <= i < |s| => Upper(s[i]))
  }

  /** A character a normalised key may hold. */
  predicate IsKeyChar(c: char) { IsLower(c) || IsDigit(c) }

  /** normalize (lines 10-13): a missing value gives the empty key; text is
      lower-cased and every character outside [a-zA-Z0-9] is removed. */
  function Normalize(cell: Option<string>): (r: string)
    ensures cell.None? ==> r == ""
  {
    if cell.None? then "" else Filter(LowerAll(cell.value), IsAlnum)
  }

  lemma {:induction false} KeyCharsOnly(s: string)
    ensures All(Filter(LowerAll(s), IsAlnum), IsKeyChar)
  {
    if |s| > 0 {
      assert LowerAll(s)[1..] == LowerAll(s[1..]);
      KeyCharsOnly(s[1..]);
    }
  }

  /** A key holds only lower-case ASCII letters and digits. */
  lemma NormalizeKeyChars(cell: Option<string>)
    ensures All(Normalize(cell), IsKeyChar)
  {
    if cell.Some? {
      KeyCharsOnly(cell.value);
    }
  }

  /** Normalising a key again gives the same key. */
  lemma NormalizeIdempotent(cell: Option<string>)
    ensures Normalize(Some(Normalize(cell))) == Normalize(cell)
  {
    var k := Normalize(cell);
    NormalizeKeyChars(cell);
    assert LowerAll(k) == k;
    FilterKeepsAll(k, IsAlnum);
  }

  /** Case does not matter: the upper-cased and lower-cased text give the
      key of the original. */
  lemma NormalizeIgnoresCase(s: string)
    ensures Normalize(Some(UpperAll(s))) == Normalize(Some(s))
    ensures Normalize(Some(LowerAll(s))) == Normalize(Some(s))
  {
    assert LowerAll(UpperAll(s)) == LowerAll(s);
    assert LowerAll(LowerAll(s)) == LowerAll(s);
  }

  /** A character outside [a-zA-Z0-9] anywhere in the text does not matter. */
  lemma NormalizeIgnoresOthers(a: string, c: char, b: string)
    requires !IsAlnum(c)
    ensures Normalize(Some(a + [c] + b)) == Normalize(Some(a + b))
  {
    assert LowerAll(a + [c] + b) == LowerAll(a) + [c] + LowerAll(b);
    assert LowerAll(a + b) == LowerAll(a) + LowerAll(b);
    FilterAppend(LowerAll(a) + [c], LowerAll(b), IsAlnum);
    FilterAppend(LowerAll(a), [c], IsAlnum);
    FilterAppend(LowerAll(a), LowerAll(b), IsAlnum);
  }

  // ------------------------------------------------------------ identifiers

  /** generate_id (lines 15-17): the digest of the two keys, concatenated. */
  function GenerateId(digest: string -> string, source: Option<string>, component: Option<string>): string
  {
    digest(Normalize(source) + Normalize(component))
  }

  /** Texts differing only in case get the same ID. */
  lemma IdIgnoresCase(digest: string -> string, source: string, component: string)
    ensures GenerateId(digest, Some(UpperAll(source)), Some(UpperAll(component)))
         == GenerateId(digest, Some(source), Some(component))
  {
    NormalizeIgnoresCase(source);
    NormalizeIgnoresCase(component);
  }

  /** The concatenation loses the boundary between source and description:
      ("ab", "c") and ("a", "bc") get the same ID whatever the digest. */
  lemma IdBoundaryCollision(digest: string -> string)
    ensures GenerateId(digest, Some("ab"), Some("c")) == GenerateId(digest, Some("a"), Some("bc"))
  {
    assert LowerAll("ab") == "ab" && LowerAll("c") == "c";
    assert LowerAll("a") == "a" && LowerAll("bc") == "bc";
    FilterKeepsAll("ab", IsAlnum);
    FilterKeepsAll("c", IsAlnum);
    FilterKeepsAll("a", IsAlnum);
    FilterKeepsAll("bc", IsAlnum);
    assert "ab" + "c" == "a" + "bc";
  }

  // ------------------------------------------------------------ filling

  /** A row: column name to cell. A column the sheet lacks is absent. */
  type Row = map<string, Option<string>>

  /** `row.get(column, None)`: an absent column reads as missing. */
  function Get(row: Row, column: string): Option<string>
  {
    if column in row then row[column] else None
  }

  /** The test of lines 27 and 38: missing, or blank once stripped. */
  predicate NeedsId(cell: Option<string>)
  {
    cell.None? || IsBlank(cell.value)
  }

  /** Which columns one fill loop reads and writes. */
  datatype Side = Side(id: string, source: string, description: string)

  const Enabling := Side("Enabling Component ID", "Enabling Source", "Enabling Component Description")
  const Dependent := Side("Dependent Component ID", "Dependent Source", "Dependent Component Description")

  /** The ID this side of the row would get. */
  function SideId(digest: string -> string, row: Row, side: Side): string
  {
    GenerateId(digest, Get(row, side.source), Get(row, side.description))
  }

  /** One iteration of a fill loop. */
  function FillRow(digest: string -> string, row: Row, side: Side): (r: Row)
    ensures r.Keys == row.Keys + {side.id} || r == row
    ensures forall c :: c != side.id ==> Get(r, c) == Get(row, c)
    ensures !NeedsId(Get(row, side.id)) ==> r == row
    ensures NeedsId(Get(row, side.id)) ==> Get(r, side.id) == Some(SideId(digest, row, side))
  {
    if NeedsId(Get(row, side.id)) then row[side.id := Some(SideId(digest, row, side))] else row
  }

  /** One whole fill loop (lines 26-30 or 37-41). */
  function FillColumn(digest: string -> string, rows: seq<Row>, side: Side): seq<Row>
  {
    seq(|rows|, i requires 0 <= i < |rows| => FillRow(digest, rows[i], side))
  }

  /** The script: the enabling loop, then the dependent loop. */
  function FillIds(digest: string -> string, rows: seq<Row>): (r: seq<Row>)
    ensures |r| == |rows|
  {
    FillColumn(digest, FillColumn(digest, rows, Enabling), Dependent)
  }

  /** Two sides whose columns do not overlap. */
  predicate Apart(a: Side, b: Side)
  {
    a.id != b.id && a.id != b.source && a.id != b.description
    && b.id != a.source && b.id != a.description
  }

  /** Filling one side never changes what the other side reads or writes,
      so the two loops could run in either order. */
  lemma FillRowsCommute(digest: string -> string, row: Row, a: Side, b: Side)
    requires Apart(a, b)
    ensures FillRow(digest, FillRow(digest, row, a), b) == FillRow(digest, FillRow(digest, row, b), a)
  {
    var ra := FillRow(digest, row, a);
    var rb := FillRow(digest, row, b);
    assert SideId(digest, ra, b) == SideId(digest, row, b);
    assert SideId(digest, rb, a) == SideId(digest, row, a);
  }

  lemma SidesApart()
    ensures Apart(Enabling, Dependent)
  {
  }

  /** What each cell of a filled row holds: an ID that needed filling is the
      digest of this side's own source and description; every other cell is
      as before. */
  lemma FillIdsCells(digest: string -> string, rows: seq<Row>, i: nat)
    requires i < |rows|
    ensures var r := FillIds(digest, rows)[i];
      && (forall c :: c != Enabling.id && c != Dependent.id ==> Get(r, c) == Get(rows[i], c))
      && (NeedsId(Get(rows[i], Enabling.id)) ==> Get(r, Enabling.id) == Some(SideId(digest, rows[i], Enabling)))
      && (!NeedsId(Get(rows[i], Enabling.id)) ==> Get(r, Enabling.id) == Get(rows[i], Enabling.id))
      && (NeedsId(Get(rows[i], Dependent.id)) ==> Get(r, Dependent.id) == Some(SideId(digest, rows[i], Dependent)))
      && (!NeedsId(Get(rows[i], Dependent.id)) ==> Get(r, Dependent.id) == Get(rows[i], Dependent.id))
  {
    var e := FillRow(digest, rows[i], Enabling);
    assert FillIds(digest, rows)[i] == FillRow(digest, e, Dependent);
    assert SideId(digest, e, Dependent) == SideId(digest, rows[i], Dependent);
  }

  predicate IsHexDigit(c: char) { IsDigit(c) || 'a' <= c <= 'f' }

  /** What hexdigest() returns: 64 lower-case hex digits. */
  ghost predicate HexDigests(digest: string -> string)
  {
    forall s :: |digest(s)| == 64 && All(digest(s), IsHexDigit)
  }

  lemma DigestNotBlank(digest: string -> string, s: string)
    requires HexDigests(digest)
    ensures !IsBlank(digest(s))
  {
    assert IsHexDigit(digest(s)[0]);
  }

  /** Once filled, a row needs nothing more on that side. */
  lemma FillRowIdempotent(digest: string -> string, row: Row, side: Side)
    requires HexDigests(digest)
    ensures !NeedsId(Get(FillRow(digest, row, side), side.id))
    ensures FillRow(digest, FillRow(digest, row, side), side) == FillRow(digest, row, side)
  {
    DigestNotBlank(digest, Normalize(Get(row, side.source)) + Normalize(Get(row, side.description)));
  }

  /** Running the script on its own output changes nothing. */
  lemma FillIdsIdempotent(digest: string -> string, rows: seq<Row>)
    requires HexDigests(digest)
    ensures FillIds(digest, FillIds(digest, rows)) == FillIds(digest, rows)
  {
    var once := FillIds(digest, rows);
    forall i | 0 <= i < |rows|
      ensures FillIds(digest, once)[i] == once[i]
    {
      var e := FillRow(digest, rows[i], Enabling);
      var ed := FillRow(digest, e, Dependent);
      FillRowIdempotent(digest, rows[i], Enabling);
      FillRowIdempotent(digest, e, Dependent);
      assert Get(ed, Enabling.id) == Get(e, Enabling.id);
      assert FillRow(digest, ed, Enabling) == ed;
    }
  }
}

=== FILE: deduplicate.dfy ===
/** deduplicate_column from scrub_IVN_Excel.py:76-125: a left-to-right
    pass that maps each entry to a representative. The first time a text
    is met and the fuzzy matcher finds no close registered text, it becomes
    its own representative; later entries equal to it, or close to a
    registered text, take that text's representative. */
module Deduplicate {
  import opened Common

  /** process.extractOne(text, choices, score_cutoff=90): nothing, or the
      best-scoring choice. The scorer itself is not modelled. */
  type Fuzzy = (string, seq<string>) -> Option<string>

  /** The one thing relied on about the matcher: it answers one of the
      choices it was given. */
  ghost predicate Chooses(fuzzy: Fuzzy)
  {
    forall t, cs :: fuzzy(t, cs).Some? ==> fuzzy(t, cs).value in cs
  }

  /** unique_texts, with its keys in insertion order (the order a Python
      dict iterates them in, so the order the matcher sees). */
  datatype Registry = Registry(reps: map<string, string>, order: seq<string>)

  /** Every key is a non-blank text that represents itself, listed once. */
  ghost predicate Valid(reg: Registry)
  {
    && (forall k :: k in reg.reps <==> k in reg.order)
    && (forall k :: k in reg.reps ==> reg.reps[k] == k && !IsBlank(k))
    && (forall i, j :: 0 <= i < j < |reg.order| ==> reg.order[i] != reg.order[j])
  }

  /** `[key for key in unique_texts.keys() if key.strip()]` */
  function NonBlankKeys(keys: seq<string>): (r: seq<string>)
    ensures forall k :: k in r <==> k in keys && !IsBlank(k)
  {
    if |keys| == 0 then []
    else NonBlankKeys(keys[..|keys| - 1]) + (if IsBlank(keys[|keys| - 1]) then [] else [keys[|keys| - 1]])
  }

  /** The matcher's answer for a new text, as the loop asks for it: with no
      keys to offer, the matcher is not asked and the answer is nothing. */
  function Answer(text: string, keys: seq<string>, fuzzy: Fuzzy): Option<string>
  {
    if |keys| > 0 then fuzzy(text, keys) else None
  }

  /** What a new text becomes: the key the matcher names, or the text itself
      when it names none. */
  function Resolve(text: string, keys: seq<string>, fuzzy: Fuzzy): string
  {
    match Answer(text, keys, fuzzy)
    case Some(m) => m
    case None => text
  }

  datatype Outcome = Outcome(reg: Registry, out: string)

  /** One iteration of the loop body. */
  function Step(reg: Registry, text: string, fuzzy: Fuzzy): (r: Outcome)
    requires Valid(reg) && Chooses(fuzzy)
    ensures Valid(r.reg)
    ensures IsBlank(text) ==> r == Outcome(reg, text)
    ensures text in reg.reps ==> r == Outcome(reg, text)
    ensures !IsBlank(text) ==> r.out in r.reg.reps
    ensures r.out == text || r.out in reg.reps
    ensures forall k :: k in r.reg.reps <==> k in reg.reps || (k == text && r.out == text && !IsBlank(text))
    ensures !IsBlank(text) && text !in reg.reps ==>
      var ans := Answer(text, NonBlankKeys(reg.order), fuzzy);
      && r.out == Resolve(text, NonBlankKeys(reg.order), fuzzy)
      && (ans.Some? ==> r.reg == reg)
      && (ans.None? ==> r.reg.order == reg.order + [text])
  {
    if IsBlank(text) then Outcome(reg, text)
    else if text in reg.reps then Outcome(reg, reg.reps[text])
    else
      var result := Answer(text, NonBlankKeys(reg.order), fuzzy);
      if result.Some? then Outcome(reg, reg.reps[result.value])
      else Outcome(Registry(reg.reps[text := text], reg.order + [text]), text)
  }

  /** Entry `j` is non-blank and was kept as its own representative. */
  predicate SelfKept(column: seq<string>, cleaned: seq<string>, j: nat)
  {
    j < |column| && j < |cleaned| && !IsBlank(column[j]) && cleaned[j] == column[j]
  }

  /** What the first `i` iterations establish; `src[j]` is the entry whose
      text entry `j` was mapped to, and `at[k]` the entry that registered
      key `k`. */
  ghost predicate Progress(column: seq<string>, cleaned: seq<string>, reg: Registry, i: nat,
                           src: seq<nat>, at: map<string, nat>)
  {
    && i <= |column| && |cleaned| == i && |src| == i
    && Valid(reg)
    && (forall k :: k in reg.reps ==> k in at && at[k] < i && SelfKept(column, cleaned, at[k]) && column[at[k]] == k)
    && (forall j :: 0 <= j < i && SelfKept(column, cleaned, j) ==> column[j] in reg.reps)
    && (forall j :: 0 <= j < i && IsBlank(column[j]) ==> cleaned[j] == column[j])
    && (forall j :: 0 <= j < i && !IsBlank(column[j]) ==>
          src[j] <= j && SelfKept(column, cleaned, src[j]) && cleaned[j] == column[src[j]])
    && (forall l, j :: (0 <= j < l < i && column[l] == column[j] && SelfKept(column, cleaned, j))
                       ==> cleaned[l] == column[l])
  }

  /** Appending an entry leaves the earlier entries' status alone. */
  lemma SelfKeptAppend(column: seq<string>, cleaned: seq<string>, out: string)
    ensures forall j :: 0 <= j < |cleaned| ==> SelfKept(column, cleaned + [out], j) == SelfKept(column, cleaned, j)
  {
    forall j | 0 <= j < |cleaned|
      ensures SelfKept(column, cleaned + [out], j) == SelfKept(column, cleaned, j)
    {
      assert (cleaned + [out])[j] == cleaned[j];
    }
  }

  /** What Step promises, as plain facts about its two results. */
  ghost predicate StepFacts(reg: Registry, text: string, r: Outcome)
  {
    && Valid(r.reg)
    && (IsBlank(text) ==> r == Outcome(reg, text))
    && (text in reg.reps ==> r == Outcome(reg, text))
    && (!IsBlank(text) ==> r.out in r.reg.reps)
    && (r.out == text || r.out in reg.reps)
    && (forall k :: k in r.reg.reps <==> k in reg.reps || (k == text && r.out == text && !IsBlank(text)))
  }

  /** The entry a new output comes from. */
  ghost function NextSource(reg: Registry, at: map<string, nat>, text: string, out: string, i: nat): nat
    requires forall k :: k in reg.reps ==> k in at
  {
    if !IsBlank(text) && out in reg.reps then at[out] else i
  }

  /** The registering entries after a step. */
  ghost function NextAt(reg: Registry, at: map<string, nat>, text: string, out: string, i: nat): map<string, nat>
  {
    if !IsBlank(text) && out !in reg.reps then at[text := i] else at
  }

  lemma KeysKept(column: seq<string>, cleaned: seq<string>, reg: Registry, i: nat,
                 at: map<string, nat>, r: Outcome)
    requires i < |column| && |cleaned| == i && StepFacts(reg, column[i], r)
    requires forall k :: k in reg.reps ==> k in at && at[k] < i && SelfKept(column, cleaned, at[k]) && column[at[k]] == k
    ensures var next, at' := cleaned + [r.out], NextAt(reg, at, column[i], r.out, i);
      forall k :: k in r.reg.reps ==> k in at' && at'[k] < i + 1 && SelfKept(column, next, at'[k]) && column[at'[k]] == k
  {
    var next, at' := cleaned + [r.out], NextAt(reg, at, column[i], r.out, i);
    SelfKeptAppend(column, cleaned, r.out);
    forall k | k in r.reg.reps
      ensures k in at' && at'[k] < i + 1 && SelfKept(column, next, at'[k]) && column[at'[k]] == k
    {
      if k in reg.reps {
        if !IsBlank(column[i]) && r.out !in reg.reps {
          assert column[i] !in reg.reps;
        }
        assert at'[k] == at[k];
      } else {
        assert next[i] == column[i];
      }
    }
  }

  lemma KeptAreKeys(column: seq<string>, cleaned: seq<string>, reg: Registry, i: nat, r: Outcome)
    requires i < |column| && |cleaned| == i && StepFacts(reg, column[i], r)
    requires forall j :: 0 <= j < i && SelfKept(column, cleaned, j) ==> column[j] in reg.reps
    ensures var next := cleaned + [r.out];
      forall j :: 0 <= j < i + 1 && SelfKept(column, next, j) ==> column[j] in r.reg.reps
  {
    SelfKeptAppend(column, cleaned, r.out);
    assert (cleaned + [r.out])[i] == r.out;
  }

  lemma SourcesKept(column: seq<string>, cleaned: seq<string>, reg: Registry, i: nat,
                    src: seq<nat>, at: map<string, nat>, r: Outcome)
    requires i < |column| && |cleaned| == i && |src| == i && StepFacts(reg, column[i], r)
    requires forall k :: k in reg.reps ==> k in at && at[k] < i && SelfKept(column, cleaned, at[k]) && column[at[k]] == k
    requires forall j :: 0 <= j < i && !IsBlank(column[j]) ==>
               src[j] <= j && SelfKept(column, cleaned, src[j]) && cleaned[j] == column[src[j]]
    ensures var next, src' := cleaned + [r.out], src + [NextSource(reg, at, column[i], r.out, i)];
      forall j :: 0 <= j < i + 1 && !IsBlank(column[j]) ==>
        src'[j] <= j && SelfKept(column, next, src'[j]) && next[j] == column[src'[j]]
  {
    var next, src' := cleaned + [r.out], src + [NextSource(reg, at, column[i], r.out, i)];
    SelfKeptAppend(column, cleaned, r.out);
    forall j | 0 <= j < i + 1 && !IsBlank(column[j])
      ensures src'[j] <= j && SelfKept(column, next, src'[j]) && next[j] == column[src'[j]]
    {
      if j < i {
        assert src'[j] == src[j] && next[j] == cleaned[j];
      } else {
        assert next[i] == r.out;
      }
    }
  }

  lemma BlanksKept(column: seq<string>, cleaned: seq<string>, reg: Registry, i: nat, r: Outcome)
    requires i < |column| && |cleaned| == i && StepFacts(reg, column[i], r)
    requires forall j :: 0 <= j < i && IsBlank(column[j]) ==> cleaned[j] == column[j]
    ensures var next := cleaned + [r.out];
      forall j :: 0 <= j < i + 1 && IsBlank(column[j]) ==> next[j] == column[j]
  {
  }

  lemma RepeatsKept(column: seq<string>, cleaned: seq<string>, reg: Registry, i: nat, r: Outcome)
    requires i < |column| && |cleaned| == i && StepFacts(reg, column[i], r)
    requires forall j :: 0 <= j < i && SelfKept(column, cleaned, j) ==> column[j] in reg.reps
    requires forall l, j :: (0 <= j < l < i && column[l] == column[j] && SelfKept(column, cleaned, j))
                            ==> cleaned[l] == column[l]
    ensures var next := cleaned + [r.out];
      forall l, j :: (0 <= j < l < i + 1 && column[l] == column[j] && SelfKept(column, next, j))
                     ==> next[l] == column[l]
  {
    var next := cleaned + [r.out];
    SelfKeptAppend(column, cleaned, r.out);
    forall l, j | 0 <= j < l < i + 1 && column[l] == column[j] && SelfKept(column, next, j)
      ensures next[l] == column[l]
    {
      if l < i {
        assert next[l] == cleaned[l];
      } else {
        assert column[j] in reg.reps;
      }
    }
  }

  /** One more iteration keeps the loop's facts. */
  lemma ProgressStep(column: seq<string>, cleaned: seq<string>, reg: Registry, i: nat,
                     src: seq<nat>, at: map<string, nat>, fuzzy: Fuzzy)
    requires Chooses(fuzzy) && i < |column| && Progress(column, cleaned, reg, i, src, at)
    ensures var r := Step(reg, column[i], fuzzy);
      Progress(column, cleaned + [r.out], r.reg, i + 1,
               src + [NextSource(reg, at, column[i], r.out, i)], NextAt(reg, at, column[i], r.out, i))
  {
    var r := Step(reg, column[i], fuzzy);
    assert StepFacts(reg, column[i], r);
    KeysKept(column, cleaned, reg, i, at, r);
    KeptAreKeys(column, cleaned, reg, i, r);
    SourcesKept(column, cleaned, reg, i, src, at, r);
    BlanksKept(column, cleaned, reg, i, r);
    RepeatsKept(column, cleaned, reg, i, r);
  }

  /** The texts registered by the first `i` entries, in the order they
      were registered: each self-kept text, the first time it is kept. */
  function KeptBefore(column: seq<string>, cleaned: seq<string>, i: nat): seq<string>
    requires i <= |column|
  {
    if i == 0 then []
    else
      var ks := KeptBefore(column, cleaned, i - 1);
      if SelfKept(column, cleaned, i - 1) && column[i - 1] !in ks then ks + [column[i - 1]] else ks
  }

  /** The registered texts depend only on the outputs so far. */
  lemma {:induction false} KeptBeforePrefix(column: seq<string>, cleaned: seq<string>, x: string, i: nat)
    requires i <= |cleaned| && i <= |column|
    ensures KeptBefore(column, cleaned + [x], i) == KeptBefore(column, cleaned, i)
  {
    if i > 0 {
      KeptBeforePrefix(column, cleaned, x, i - 1);
      assert (cleaned + [x])[i - 1] == cleaned[i - 1];
    }
  }

  /** A non-blank entry whose text was already kept stays itself. */
  ghost predicate KeptStay(column: seq<string>, cleaned: seq<string>, i: nat)
    requires i <= |column| && i <= |cleaned|
  {
    forall l :: 0 <= l < i && !IsBlank(column[l]) && column[l] in KeptBefore(column, cleaned, l)
                ==> cleaned[l] == column[l]
  }

  /** A non-blank entry with a new text becomes what the matcher answers
      against the texts kept before it. */
  ghost predicate NewResolved(column: seq<string>, cleaned: seq<string>, i: nat, fuzzy: Fuzzy)
    requires i <= |column| && i <= |cleaned|
  {
    forall l :: 0 <= l < i && !IsBlank(column[l]) && column[l] !in KeptBefore(column, cleaned, l)
                ==> cleaned[l] == Resolve(column[l], NonBlankKeys(KeptBefore(column, cleaned, l)), fuzzy)
  }

  /** The loop's record of how each entry was decided: the registry's keys
      are the texts kept so far, and each entry was decided as above. */
  ghost predicate Decided(column: seq<string>, cleaned: seq<string>, reg: Registry, i: nat, fuzzy: Fuzzy)
  {
    && i <= |column| && |cleaned| == i
    && reg.order == KeptBefore(column, cleaned, i)
    && KeptStay(column, cleaned, i)
    && NewResolved(column, cleaned, i, fuzzy)
  }

  /** The new entry's own case of `Decided`, and the registry after it. */
  lemma DecidedLast(column: seq<string>, cleaned: seq<string>, reg: Registry, i: nat, fuzzy: Fuzzy)
    requires Valid(reg) && Chooses(fuzzy) && i < |column| && |cleaned| == i
    requires reg.order == KeptBefore(column, cleaned, i)
    ensures var r, next := Step(reg, column[i], fuzzy), cleaned + [Step(reg, column[i], fuzzy).out];
      && KeptBefore(column, next, i) == reg.order
      && r.reg.order == KeptBefore(column, next, i + 1)
      && (!IsBlank(column[i]) && column[i] in reg.order ==> r.out == column[i])
      && (!IsBlank(column[i]) && column[i] !in reg.order ==>
            r.out == Resolve(column[i], NonBlankKeys(reg.order), fuzzy))
  {
    var text := column[i];
    var r := Step(reg, text, fuzzy);
    var next := cleaned + [r.out];
    KeptBeforePrefix(column, cleaned, r.out, i);
    assert next[i] == r.out;
    if !IsBlank(text) && text !in reg.reps {
      var ans := Answer(text, NonBlankKeys(reg.order), fuzzy);
      if ans.Some? {
        assert ans.value in reg.order;
      }
    }
  }

  /** Appending an entry decided like a kept text keeps `KeptStay`. */
  lemma KeptStayStep(column: seq<string>, cleaned: seq<string>, x: string, i: nat)
    requires i < |column| && |cleaned| == i && KeptStay(column, cleaned, i)
    requires !IsBlank(column[i]) && column[i] in KeptBefore(column, cleaned, i) ==> x == column[i]
    ensures KeptStay(column, cleaned + [x], i + 1)
  {
    var next := cleaned + [x];
    KeptBeforePrefix(column, cleaned, x, i);
    forall l | 0 <= l < i + 1 && !IsBlank(column[l]) && column[l] in KeptBefore(column, next, l)
      ensures next[l] == column[l]
    {
      if l < i {
        KeptBeforePrefix(column, cleaned, x, l);
        assert next[l] == cleaned[l];
      }
    }
  }

  /** Appending an entry decided like a new text keeps `NewResolved`. */
  lemma NewResolvedStep(column: seq<string>, cleaned: seq<string>, x: string, i: nat, fuzzy: Fuzzy)
    requires i < |column| && |cleaned| == i && NewResolved(column, cleaned, i, fuzzy)
    requires !IsBlank(column[i]) && column[i] !in KeptBefore(column, cleaned, i) ==>
      x == Resolve(column[i], NonBlankKeys(KeptBefore(column, cleaned, i)), fuzzy)
    ensures NewResolved(column, cleaned + [x], i + 1, fuzzy)
  {
    var next := cleaned + [x];
    KeptBeforePrefix(column, cleaned, x, i);
    forall l | 0 <= l < i + 1 && !IsBlank(column[l]) && column[l] !in KeptBefore(column, next, l)
      ensures next[l] == Resolve(column[l], NonBlankKeys(KeptBefore(column, next, l)), fuzzy)
    {
      if l < i {
        KeptBeforePrefix(column, cleaned, x, l);
        assert next[l] == cleaned[l];
      }
    }
  }

  /** One more iteration keeps `Decided`. */
  lemma DecidedStep(column: seq<string>, cleaned: seq<string>, reg: Registry, i: nat, fuzzy: Fuzzy)
    requires Valid(reg) && Chooses(fuzzy) && i < |column| && Decided(column, cleaned, reg, i, fuzzy)
    ensures var r := Step(reg, column[i], fuzzy);
      Decided(column, cleaned + [r.out], r.reg, i + 1, fuzzy)
  {
    var r := Step(reg, column[i], fuzzy);
    DecidedLast(column, cleaned, reg, i, fuzzy);
    KeptStayStep(column, cleaned, r.out, i);
    NewResolvedStep(column, cleaned, r.out, i, fuzzy);
  }

  /** The loop of deduplicate_column. Blank entries pass through; every
      other entry becomes the text of an entry at or before it that was
      kept as its own representative; and an entry equal to an earlier
      self-kept one is kept as it is. */
  method DeduplicateColumn(column: seq<string>, fuzzy: Fuzzy) returns (cleaned: seq<string>)
    requires Chooses(fuzzy)
    ensures |cleaned| == |column|
    ensures forall i :: 0 <= i < |column| && IsBlank(column[i]) ==> cleaned[i] == column[i]
    ensures forall i :: 0 <= i < |column| && !IsBlank(column[i]) ==>
              exists j :: 0 <= j <= i && SelfKept(column, cleaned, j) && cleaned[i] == column[j]
    ensures forall i, j :: (0 <= j < i < |column| && column[i] == column[j] && SelfKept(column, cleaned, j))
                           ==> cleaned[i] == column[i]
    ensures forall i :: 0 <= i < |column| && !IsBlank(column[i]) && column[i] !in KeptBefore(column, cleaned, i)
                        ==> cleaned[i] == Resolve(column[i], NonBlankKeys(KeptBefore(column, cleaned, i)), fuzzy)
  {
    var reg := Registry(map[], []);
    cleaned := [];
    ghost var src: seq<nat> := [];
    ghost var at: map<string, nat> := map[];
    var i := 0;
    while i < |column|
      invariant Progress(column, cleaned, reg, i, src, at)
      invariant Decided(column, cleaned, reg, i, fuzzy)
      decreases |column| - i
    {
      var r := Step(reg, column[i], fuzzy);
      ProgressStep(column, cleaned, reg, i, src, at, fuzzy);
      DecidedStep(column, cleaned, reg, i, fuzzy);
      src := src + [NextSource(reg, at, column[i], r.out, i)];
      at := NextAt(reg, at, column[i], r.out, i);
      cleaned := cleaned + [r.out];
      reg := r.reg;
      i := i + 1;
    }
    forall i | 0 <= i < |column| && !IsBlank(column[i])
      ensures exists j :: 0 <= j <= i && SelfKept(column, cleaned, j) && cleaned[i] == column[j]
    {
      assert SelfKept(column, cleaned, src[i]);
    }
  }
}

/** Steps 3 and 4 of scrub_IVN_Excel.py for one column: clean every cell,
    then deduplicate the cleaned texts. `ScrubColumn` cleans with
    `CleanText`, as the script does; `ScrubColumnFixed` cleans with the
    corrected `CleanTextFixed`. */
module ScrubColumns {
  import opened Common
  import opened TextScrub
  import opened Deduplicate

  /** `x` is the cleaned text of a cell at or before position `i`. */
  ghost predicate CleanedAtOrBefore(clean: Cell -> string, cells: seq<Cell>, i: nat, x: string)
  {
    exists j :: 0 <= j <= i && j < |cells| && x == clean(cells[j])
  }

  /** The cleaned cells of a column. */
  function CleanAll(clean: Cell -> string, cells: seq<Cell>): seq<string>
  {
    seq(|cells|, i requires 0 <= i < |cells| => clean(cells[i]))
  }

  /** Clean, then deduplicate: every output cell is the cleaned text of its
      own cell or of an earlier one; a cell that cleans to blank is left as
      cleaned; a cleaned text met before and kept stays itself; and a new
      one becomes what the matcher answers against the texts kept so far. */
  method ScrubWith(cells: seq<Cell>, fuzzy: Fuzzy, clean: Cell -> string) returns (out: seq<string>)
    requires Chooses(fuzzy)
    ensures |out| == |cells|
    ensures forall i: nat :: i < |cells| ==> CleanedAtOrBefore(clean, cells, i, out[i])
    ensures forall i :: 0 <= i < |cells| && IsBlank(clean(cells[i])) ==> out[i] == clean(cells[i])
    ensures var texts := CleanAll(clean, cells);
      forall i :: 0 <= i < |cells| && !IsBlank(texts[i]) && texts[i] !in KeptBefore(texts, out, i)
                  ==> out[i] == Resolve(texts[i], NonBlankKeys(KeptBefore(texts, out, i)), fuzzy)
    ensures var texts := CleanAll(clean, cells);
      forall i, j :: 0 <= j < i < |cells| && texts[i] == texts[j] && SelfKept(texts, out, j) ==> out[i] == texts[i]
  {
    var texts := CleanAll(clean, cells);
    out := DeduplicateColumn(texts, fuzzy);
    forall i: nat | i < |cells|
      ensures CleanedAtOrBefore(clean, cells, i, out[i])
    {
      if !IsBlank(texts[i]) {
        var j :| 0 <= j <= i && SelfKept(texts, out, j) && out[i] == texts[j];
        CleanedAt(clean, cells, i, j, out[i]);
      }
    }
  }

  lemma CleanedAt(clean: Cell -> string, cells: seq<Cell>, i: nat, j: nat, x: string)
    requires j <= i && j < |cells| && x == CleanAll(clean, cells)[j]
    ensures CleanedAtOrBefore(clean, cells, i, x)
  {
  }

  /** One column as the script scrubs it: every output cell is printable and
      stripped. Double spaces can remain where a deleted character stood. */
  method ScrubColumn(cells: seq<Cell>, fuzzy: Fuzzy) returns (out: seq<string>)
    requires Chooses(fuzzy)
    ensures |out| == |cells|
    ensures forall i: nat :: i < |cells| ==> CleanedAtOrBefore(CleanText, cells, i, out[i])
    ensures forall i :: 0 <= i < |cells| && IsBlank(CleanText(cells[i])) ==> out[i] == CleanText(cells[i])
    ensures var texts := CleanAll(CleanText, cells);
      forall i, j :: 0 <= j < i < |cells| && texts[i] == texts[j] && SelfKept(texts, out, j) ==> out[i] == texts[i]
    ensures var texts := CleanAll(CleanText, cells);
      forall i :: 0 <= i < |cells| && !IsBlank(texts[i]) && texts[i] !in KeptBefore(texts, out, i)
                  ==> out[i] == Resolve(texts[i], NonBlankKeys(KeptBefore(texts, out, i)), fuzzy)
    ensures forall i :: 0 <= i < |cells| ==> All(out[i], Printable) && Stripped(out[i])
  {
    out := ScrubWith(cells, fuzzy, CleanText);
    forall i: nat | i < |cells|
      ensures All(out[i], Printable) && Stripped(out[i])
    {
      var j :| 0 <= j <= i && j < |cells| && out[i] == CleanText(cells[j]);
    }
  }

  /** One column scrubbed with the corrected cleaning: every output cell is
      also single-spaced. */
  method ScrubColumnFixed(cells: seq<Cell>, fuzzy: Fuzzy) returns (out: seq<string>)
    requires Chooses(fuzzy)
    ensures |out| == |cells|
    ensures forall i: nat :: i < |cells| ==> CleanedAtOrBefore(CleanTextFixed, cells, i, out[i])
    ensures forall i :: 0 <= i < |cells| && IsBlank(CleanTextFixed(cells[i])) ==> out[i] == CleanTextFixed(cells[i])
    ensures var texts := CleanAll(CleanTextFixed, cells);
      forall i, j :: 0 <= j < i < |cells| && texts[i] == texts[j] && SelfKept(texts, out, j) ==> out[i] == texts[i]
    ensures var texts := CleanAll(CleanTextFixed, cells);
      forall i :: 0 <= i < |cells| && !IsBlank(texts[i]) && texts[i] !in KeptBefore(texts, out, i)
                  ==> out[i] == Resolve(texts[i], NonBlankKeys(KeptBefore(texts, out, i)), fuzzy)
    ensures forall i :: 0 <= i < |cells| ==> All(out[i], Printable) && Stripped(out[i]) && SingleSpaced(out[i])
  {
    out := ScrubWith(cells, fuzzy, CleanTextFixed);
    forall i: nat | i < |cells|
      ensures All(out[i], Printable) && Stripped(out[i]) && SingleSpaced(out[i])
    {
      var j :| 0 <= j <= i && j < |cells| && out[i] == CleanTextFixed(cells[j]);
    }
  }
}

=== FILE: executive_orders.dfy ===
/** import_new_EOs.py: for each executive order number in a range, keep the
    first 300 words of its page. Loading a page is a parameter: it yields the
    article text, or nothing when the browser raised. */
module ExecutiveOrders {
  import opened Common

  // ------------------------------------------------------------ words

  /** A word of `\w+`: non-empty, word characters only. */
  predicate IsWord(w: string) { |w| > 0 && All(w, IsWordChar) }

  /** `re.findall(r'\b\w+\b', text)`: the maximal runs of word characters,
      left to right. */
  function Words(s: string): (ws: seq<string>)
    ensures forall i :: 0 <= i < |ws| ==> IsWord(ws[i])
    decreases |s|
  {
    if |s| == 0 then []
    else if !IsWordChar(s[0]) then Words(s[1..])
    else
      var e := SpanEnd(s, 0, IsWordChar);
      [s[..e]] + Words(s[e..])
  }

  /** `' '.join(words)` */
  function Unwords(ws: seq<string>): string
  {
    Join(ws, ' ')
  }

  /** The words hold every word character of the text, in order, and the
      joined words hold nothing else. */
  lemma {:induction false} WordsKeepWordChars(s: string)
    ensures Filter(Unwords(Words(s)), IsWordChar) == Filter(s, IsWordChar)
    decreases |s|
  {
    if |s| > 0 {
      if !IsWordChar(s[0]) {
        WordsKeepWordChars(s[1..]);
      } else {
        var e := SpanEnd(s, 0, IsWordChar);
        var w := s[..e];
        assert Words(s) == [w] + Words(s[e..]);
        WordsKeepWordChars(s[e..]);
        UnwordsConsFilter(w, Words(s[e..]));
        assert s == w + s[e..];
        FilterAppend(w, s[e..], IsWordChar);
        FilterKeepsAll(w, IsWordChar);
      }
    }
  }

  /** Filtering a joined list drops the separating space after its head word. */
  lemma UnwordsConsFilter(w: string, rest: seq<string>)
    requires IsWord(w)
    ensures Filter(Unwords([w] + rest), IsWordChar) == w + Filter(Unwords(rest), IsWordChar)
  {
    FilterKeepsAll(w, IsWordChar);
    if |rest| == 0 {
      assert Unwords([w] + rest) == w;
    } else {
      assert Unwords([w] + rest) == w + [' '] + Unwords(rest);
      FilterAppend(w + [' '], Unwords(rest), IsWordChar);
      FilterAppend(w, [' '], IsWordChar);
    }
  }

  /** A text whose words are gone had no word characters. */
  lemma FilterEmptyNone(s: string)
    requires Words(s) == []
    ensures forall i :: 0 <= i < |s| ==> !IsWordChar(s[i])
    decreases |s|
  {
    if |s| > 0 {
      if !IsWordChar(s[0]) {
        FilterEmptyNone(s[1..]);
        assert forall i :: 1 <= i < |s| ==> s[i] == s[1..][i - 1];
      }
    }
  }

  /** Where a word lies in the text: `s[lo..hi]`. */
  datatype Run = Run(lo: nat, hi: nat)

  function ShiftRuns(rs: seq<Run>, d: nat): (r: seq<Run>)
    ensures |r| == |rs|
    ensures forall k :: 0 <= k < |rs| ==> r[k] == Run(rs[k].lo + d, rs[k].hi + d)
  {
    seq(|rs|, k requires 0 <= k < |rs| => Run(rs[k].lo + d, rs[k].hi + d))
  }

  /** The positions of the runs `Words` reads, left to right. */
  ghost function WordRuns(s: string): seq<Run>
    decreases |s|
  {
    if |s| == 0 then []
    else if !IsWordChar(s[0]) then ShiftRuns(WordRuns(s[1..]), 1)
    else
      var e := SpanEnd(s, 0, IsWordChar);
      [Run(0, e)] + ShiftRuns(WordRuns(s[e..]), e)
  }

  /** Run `r` of `s` is a maximal run of word characters: nothing in it is
      a separator, and the text ends or holds a separator on either side. */
  ghost predicate MaximalRun(s: string, r: Run)
  {
    && r.lo < r.hi <= |s|
    && (forall i :: r.lo <= i < r.hi ==> IsWordChar(s[i]))
    && (r.lo == 0 || !IsWordChar(s[r.lo - 1]))
    && (r.hi == |s| || !IsWordChar(s[r.hi]))
  }

  /** Each of `ws` is the text of the maximal run at the same place in `rs`. */
  ghost predicate RunsMatch(s: string, ws: seq<string>, rs: seq<Run>)
  {
    && |rs| == |ws|
    && (forall k :: 0 <= k < |ws| ==> MaximalRun(s, rs[k]) && ws[k] == s[rs[k].lo..rs[k].hi])
  }

  /** The runs come left to right, a separator between neighbours. */
  ghost predicate RunsOrdered(rs: seq<Run>)
  {
    forall k :: 0 < k < |rs| ==> rs[k - 1].hi < rs[k].lo
  }

  /** Every word character of `s` lies in one of the runs. */
  ghost predicate RunsCover(s: string, rs: seq<Run>)
  {
    forall i :: 0 <= i < |s| && IsWordChar(s[i]) ==> exists k :: 0 <= k < |rs| && rs[k].lo <= i < rs[k].hi
  }

  /** What `\b\w+\b` finds, stated over positions: the words of a text are
      exactly its maximal runs of word characters, left to right. */
  lemma {:induction false} WordsAreMaximalRuns(s: string)
    ensures RunsMatch(s, Words(s), WordRuns(s))
    ensures RunsOrdered(WordRuns(s))
    ensures RunsCover(s, WordRuns(s))
    decreases |s|
  {
    if |s| > 0 {
      if !IsWordChar(s[0]) {
        WordsAreMaximalRuns(s[1..]);
        NonWordRuns(s);
      } else {
        var e := SpanEnd(s, 0, IsWordChar);
        WordsAreMaximalRuns(s[e..]);
        HeadWordRuns(s, e);
      }
    }
  }

  /** A separator at the head: the runs of the rest, one place on. */
  lemma NonWordRuns(s: string)
    requires |s| > 0 && !IsWordChar(s[0])
    requires RunsMatch(s[1..], Words(s[1..]), WordRuns(s[1..]))
    requires RunsOrdered(WordRuns(s[1..])) && RunsCover(s[1..], WordRuns(s[1..]))
    ensures RunsMatch(s, Words(s), WordRuns(s))
    ensures RunsOrdered(WordRuns(s)) && RunsCover(s, WordRuns(s))
  {
    var ws, rs := Words(s[1..]), WordRuns(s[1..]);
    NonWordShape(s);
    ShiftMatch(s, 1, ws, rs);
    ShiftCover(s, 1, rs);
    NonWordCover(s, ShiftRuns(rs, 1));
  }

  /** A word at the head: its run, then the runs of the rest moved past it. */
  lemma HeadWordRuns(s: string, e: nat)
    requires |s| > 0 && IsWordChar(s[0]) && e == SpanEnd(s, 0, IsWordChar)
    requires RunsMatch(s[e..], Words(s[e..]), WordRuns(s[e..]))
    requires RunsOrdered(WordRuns(s[e..])) && RunsCover(s[e..], WordRuns(s[e..]))
    ensures RunsMatch(s, Words(s), WordRuns(s))
    ensures RunsOrdered(WordRuns(s)) && RunsCover(s, WordRuns(s))
  {
    var ws, rs := Words(s[e..]), WordRuns(s[e..]);
    WordShape(s, e);
    ShiftMatch(s, e, ws, rs);
    HeadMatch(s, e, ws, ShiftRuns(rs, e));
    HeadOrdered(s, e, ws, rs);
    ShiftCover(s, e, rs);
    HeadCover(s, e, ShiftRuns(rs, e));
  }

  /** With a separator at the head, the runs are those of the rest, one on. */
  lemma NonWordShape(s: string)
    requires |s| > 0 && !IsWordChar(s[0])
    ensures Words(s) == Words(s[1..])
    ensures WordRuns(s) == ShiftRuns(WordRuns(s[1..]), 1)
  {
  }

  /** With a word at the head, its run comes first, then those of the rest
      moved past it. */
  lemma WordShape(s: string, e: nat)
    requires |s| > 0 && IsWordChar(s[0]) && e == SpanEnd(s, 0, IsWordChar)
    ensures 0 < e
    ensures Words(s) == [s[..e]] + Words(s[e..])
    ensures WordRuns(s) == [Run(0, e)] + ShiftRuns(WordRuns(s[e..]), e)
  {
  }

  /** A maximal run of the tail `s[d..]`, moved to its place in `s`, is
      maximal there when a separator stands at the seam. */
  lemma RunShift(s: string, d: nat, r: Run)
    requires 0 < d <= |s| && MaximalRun(s[d..], r)
    requires !IsWordChar(s[d - 1]) || d == |s| || !IsWordChar(s[d])
    ensures MaximalRun(s, Run(r.lo + d, r.hi + d))
    ensures s[d..][r.lo..r.hi] == s[r.lo + d..r.hi + d]
    ensures d < |s| && !IsWordChar(s[d]) ==> r.lo > 0
  {
    var t := s[d..];
    assert forall i :: 0 <= i < |t| ==> t[i] == s[i + d];
  }

  /** The runs of a tail, moved to their place. */
  lemma ShiftMatch(s: string, d: nat, ws: seq<string>, rs: seq<Run>)
    requires 0 < d <= |s| && RunsMatch(s[d..], ws, rs)
    requires !IsWordChar(s[d - 1]) || d == |s| || !IsWordChar(s[d])
    ensures RunsMatch(s, ws, ShiftRuns(rs, d))
    ensures d < |s| && !IsWordChar(s[d]) ==> forall k :: 0 <= k < |rs| ==> rs[k].lo > 0
  {
    forall k | 0 <= k < |ws|
      ensures MaximalRun(s, ShiftRuns(rs, d)[k]) && ws[k] == s[ShiftRuns(rs, d)[k].lo..ShiftRuns(rs, d)[k].hi]
      ensures d < |s| && !IsWordChar(s[d]) ==> rs[k].lo > 0
    {
      RunShift(s, d, rs[k]);
    }
  }

  /** The head word's run is maximal. */
  lemma HeadRun(s: string, e: nat)
    requires |s| > 0 && IsWordChar(s[0]) && e == SpanEnd(s, 0, IsWordChar)
    ensures MaximalRun(s, Run(0, e)) && s[..e] == s[0..e]
  {
  }

  /** The head word's run in front of the others. */
  lemma HeadMatch(s: string, e: nat, ws: seq<string>, rs: seq<Run>)
    requires |s| > 0 && IsWordChar(s[0]) && e == SpanEnd(s, 0, IsWordChar) && RunsMatch(s, ws, rs)
    ensures RunsMatch(s, [s[..e]] + ws, [Run(0, e)] + rs)
  {
    var ws', rs' := [s[..e]] + ws, [Run(0, e)] + rs;
    HeadRun(s, e);
    forall k | 0 <= k < |ws'|
      ensures MaximalRun(s, rs'[k]) && ws'[k] == s[rs'[k].lo..rs'[k].hi]
    {
      if k > 0 {
        assert rs'[k] == rs[k - 1] && ws'[k] == ws[k - 1];
      } else {
        assert rs'[0] == Run(0, e) && ws'[0] == s[..e] == s[0..e];
      }
    }
  }

  /** The head word's run ends before the next one starts. */
  lemma HeadOrdered(s: string, e: nat, ws: seq<string>, rs: seq<Run>)
    requires |s| > 0 && IsWordChar(s[0]) && e == SpanEnd(s, 0, IsWordChar)
    requires RunsMatch(s[e..], ws, rs) && RunsOrdered(rs)
    ensures RunsOrdered([Run(0, e)] + ShiftRuns(rs, e))
  {
    if |rs| > 0 {
      RunShift(s, e, rs[0]);
    }
  }

  /** A tail's runs, moved, cover its word characters in place; the
      characters before the seam are covered elsewhere or are separators. */
  lemma ShiftCover(s: string, d: nat, rs: seq<Run>)
    requires d <= |s| && RunsCover(s[d..], rs)
    ensures forall i :: d <= i < |s| && IsWordChar(s[i]) ==>
              exists k :: 0 <= k < |rs| && ShiftRuns(rs, d)[k].lo <= i < ShiftRuns(rs, d)[k].hi
  {
    var t := s[d..];
    forall i | d <= i < |s| && IsWordChar(s[i])
      ensures exists k :: 0 <= k < |rs| && ShiftRuns(rs, d)[k].lo <= i < ShiftRuns(rs, d)[k].hi
    {
      assert t[i - d] == s[i];
      var k :| 0 <= k < |rs| && rs[k].lo <= i - d < rs[k].hi;
      assert ShiftRuns(rs, d)[k].lo <= i < ShiftRuns(rs, d)[k].hi;
    }
  }

  /** A separator at the head needs no run. */
  lemma NonWordCover(s: string, rs: seq<Run>)
    requires |s| > 0 && !IsWordChar(s[0])
    requires forall i :: 1 <= i < |s| && IsWordChar(s[i]) ==> exists k :: 0 <= k < |rs| && rs[k].lo <= i < rs[k].hi
    ensures RunsCover(s, rs)
  {
  }

  /** The head word's run covers the characters before the seam. */
  lemma HeadCover(s: string, e: nat, rs: seq<Run>)
    requires |s| > 0 && IsWordChar(s[0]) && e == SpanEnd(s, 0, IsWordChar)
    requires forall i :: e <= i < |s| && IsWordChar(s[i]) ==> exists k :: 0 <= k < |rs| && rs[k].lo <= i < rs[k].hi
    ensures RunsCover(s, [Run(0, e)] + rs)
  {
    var rs' := [Run(0, e)] + rs;
    forall i | 0 <= i < |s| && IsWordChar(s[i])
      ensures exists k :: 0 <= k < |rs'| && rs'[k].lo <= i < rs'[k].hi
    {
      if i < e {
        assert rs'[0].lo <= i < rs'[0].hi;
      } else {
        var k :| 0 <= k < |rs| && rs[k].lo <= i < rs[k].hi;
        assert rs'[k + 1] == rs[k];
      }
    }
  }

  /** Words separated by a space are found again. */
  lemma {:induction false} WordsOfUnwords(ws: seq<string>)
    requires forall i :: 0 <= i < |ws| ==> IsWord(ws[i])
    ensures Words(Unwords(ws)) == ws
  {
    if |ws| == 1 {
      var w := ws[0];
      SpanEndUnique(w, 0, |w|, IsWordChar);
      assert w[..|w|] == w && w[|w|..] == [];
    } else if |ws| > 1 {
      var w := ws[0];
      var rest := Unwords(ws[1..]);
      var s := w + [' '] + rest;
      assert Unwords(ws) == s;
      assert forall i :: 0 <= i < |w| ==> s[i] == w[i];
      SpanEndUnique(s, 0, |w|, IsWordChar);
      assert s[..|w|] == w;
      assert s[|w|..] == [' '] + rest;
      assert ([' '] + rest)[1..] == rest;
      WordsOfUnwords(ws[1..]);
      assert ws == [w] + ws[1..];
    }
  }

  /** The shape of joined words: no space at either end and no two spaces
      in a row. */
  predicate SingleSpacedWords(s: string)
  {
    && All(s, (c: char) => IsWordChar(c) || c == ' ')
    && (|s| > 0 ==> s[0] != ' ' && s[|s| - 1] != ' ')
    && (forall i :: 0 <= i < |s| - 1 ==> s[i] != ' ' || s[i + 1] != ' ')
  }

  lemma {:induction false} UnwordsShape(ws: seq<string>)
    requires forall i :: 0 <= i < |ws| ==> IsWord(ws[i])
    ensures SingleSpacedWords(Unwords(ws))
    ensures |ws| > 0 ==> |Unwords(ws)| > 0
  {
    if |ws| > 1 {
      var w := ws[0];
      var rest := Unwords(ws[1..]);
      UnwordsShape(ws[1..]);
      var s := w + [' '] + rest;
      assert Unwords(ws) == s;
      assert forall i :: 0 <= i < |w| ==> s[i] == w[i];
      assert forall i :: |w| < i < |s| ==> s[i] == rest[i - |w| - 1];
    }
  }

  // ------------------------------------------------------------ first 300

  const WordLimit := 300

  /** At most the first `WordLimit` words. */
  function Take(ws: seq<string>): (r: seq<string>)
    ensures |r| <= WordLimit && r <= ws
    ensures |ws| <= WordLimit ==> r == ws
    ensures |ws| > WordLimit ==> |r| == WordLimit
  {
    if |ws| <= WordLimit then ws else ws[..WordLimit]
  }

  /** get_first_300_words (lines 20-22). */
  function FirstWords(text: string): (r: string)
    ensures r == "" <==> Words(text) == []
    ensures SingleSpacedWords(r)
  {
    UnwordsShape(Take(Words(text)));
    Unwords(Take(Words(text)))
  }

  /** The result's words are the text's first (at most 300) words: a prefix
      of them, all of them when there are no more than 300. */
  lemma FirstWordsAreFirst(text: string)
    ensures Words(FirstWords(text)) == Take(Words(text))
  {
    WordsOfUnwords(Take(Words(text)));
  }

  /** Applying it to its own output changes nothing. */
  lemma FirstWordsIdempotent(text: string)
    ensures FirstWords(FirstWords(text)) == FirstWords(text)
  {
    FirstWordsAreFirst(text);
  }

  // ------------------------------------------------------------ fetching

  /** A page that loaded: the order number and the article text. */
  datatype Loaded = Loaded(number: int, text: string)

  /** The successful iterations of fetch_executive_orders's loop (lines
      41-60) over `range(first, last + 1)`: a page that loads is kept, one
      that raises is skipped. */
  function Loads(first: int, last: int, page: int -> Option<string>): (ls: seq<Loaded>)
    ensures last < first ==> ls == []
    decreases last - first + 1
  {
    if last < first then []
    else (if page(first).Some? then [Loaded(first, page(first).value)] else []) + Loads(first + 1, last, page)
  }

  /** Every kept page is a number in the range, with the text its page gave. */
  lemma {:induction false} LoadsSound(first: int, last: int, page: int -> Option<string>, k: nat)
    requires k < |Loads(first, last, page)|
    ensures var l := Loads(first, last, page)[k];
      first <= l.number <= last && page(l.number) == Some(l.text)
    decreases last - first + 1
  {
    var tail := Loads(first + 1, last, page);
    if page(first).Some? {
      if k > 0 {
        assert Loads(first, last, page)[k] == tail[k - 1];
        LoadsSound(first + 1, last, page, k - 1);
      }
    } else {
      assert Loads(first, last, page) == tail;
      LoadsSound(first + 1, last, page, k);
    }
  }

  /** Every number in the range whose page loaded is kept. */
  lemma {:induction false} LoadsComplete(first: int, last: int, page: int -> Option<string>, n: int)
    requires first <= n <= last && page(n).Some?
    ensures Loaded(n, page(n).value) in Loads(first, last, page)
    decreases last - first + 1
  {
    if n > first {
      LoadsComplete(first + 1, last, page, n);
    }
  }

  /** Numbers are kept in increasing order. */
  lemma {:induction false} LoadsIncreasing(first: int, last: int, page: int -> Option<string>, i: nat, j: nat)
    requires i < j < |Loads(first, last, page)|
    ensures Loads(first, last, page)[i].number < Loads(first, last, page)[j].number
    decreases last - first + 1
  {
    var ls := Loads(first, last, page);
    var tail := Loads(first + 1, last, page);
    if page(first).Some? {
      assert ls[j] == tail[j - 1];
      if i == 0 {
        LoadsSound(first + 1, last, page, j - 1);
      } else {
        assert ls[i] == tail[i - 1];
        LoadsIncreasing(first + 1, last, page, i - 1, j - 1);
      }
    } else {
      assert ls == tail;
      LoadsIncreasing(first + 1, last, page, i, j);
    }
  }

  /** One appended worksheet row. */
  datatype OrderRow = OrderRow(title: string, firstWords: string)

  /** The label of line 57. */
  function Label(n: int): string
  {
    "EO " + IntToString(n)
  }

  lemma LabelInjective(m: int, n: int)
    requires Label(m) == Label(n)
    ensures m == n
  {
    assert IntToString(m) == Label(m)[3..];
    assert IntToString(n) == Label(n)[3..];
    IntToStringInjective(m, n);
  }

  /** The row line 57 appends for a loaded page. */
  function RowFor(l: Loaded): OrderRow
  {
    OrderRow(Label(l.number), FirstWords(l.text))
  }

  /** The worksheet rows the loop appends, in order. */
  function Fetch(first: int, last: int, page: int -> Option<string>): (rows: seq<OrderRow>)
    ensures |rows| == |Loads(first, last, page)|
  {
    var ls := Loads(first, last, page);
    seq(|ls|, k requires 0 <= k < |ls| => RowFor(ls[k]))
  }

  /** Every row is "EO n" with the first words of page n, for a number n in
      the inclusive range whose page loaded. */
  lemma FetchSound(first: int, last: int, page: int -> Option<string>, k: nat)
    requires k < |Fetch(first, last, page)|
    ensures exists n :: first <= n <= last && page(n).Some?
                        && Fetch(first, last, page)[k] == OrderRow(Label(n), FirstWords(page(n).value))
  {
    LoadsSound(first, last, page, k);
    var l := Loads(first, last, page)[k];
    assert Fetch(first, last, page)[k] == OrderRow(Label(l.number), FirstWords(page(l.number).value));
  }

  /** Every number in the range whose page loaded has its row. */
  lemma FetchComplete(first: int, last: int, page: int -> Option<string>, n: int)
    requires first <= n <= last && page(n).Some?
    ensures OrderRow(Label(n), FirstWords(page(n).value)) in Fetch(first, last, page)
  {
    LoadsComplete(first, last, page, n);
    var ls := Loads(first, last, page);
    var k :| 0 <= k < |ls| && ls[k] == Loaded(n, page(n).value);
    assert Fetch(first, last, page)[k] == RowFor(ls[k]);
  }

  /** No number is written twice: the titles are pairwise distinct. */
  lemma FetchTitlesDistinct(first: int, last: int, page: int -> Option<string>, i: nat, j: nat)
    requires i < j < |Fetch(first, last, page)|
    ensures Fetch(first, last, page)[i].title != Fetch(first, last, page)[j].title
  {
    var ls := Loads(first, last, page);
    LoadsIncreasing(first, last, page, i, j);
    if Label(ls[i].number) == Label(ls[j].number) {
      LabelInjective(ls[i].number, ls[j].number);
    }
  }
}

=== FILE: infer_urls.dfy ===
/** Infer_URLs.py: fill missing component URLs from other rows naming the
    same component (lines 36-46), then check every URL once through a
    cache and count the broken ones (lines 57-98). The spreadsheet is a
    sequence of rows; the HTTP HEAD request is a parameter. */
module InferUrls {
  import opened Common

  // ------------------------------------------------------------ URL inference

  /** One side of a row: the component's name and its URL cell, `None` for
      a missing value. */
  datatype Link = Link(name: string, url: Option<string>)

  /** `df.dropna(subset=[url]).set_index(name)[url].to_dict()`: rows without
      a URL are dropped, and for a repeated name the later row wins. */
  function UrlMap(links: seq<Link>): map<string, string>
  {
    if |links| == 0 then map[]
    else
      var m := UrlMap(links[..|links| - 1]);
      var last := links[|links| - 1];
      if last.url.Some? then m[last.name := last.url.value] else m
  }

  /** The map's keys are exactly the names that have a URL in some row. */
  lemma {:induction false} UrlMapKeys(links: seq<Link>, k: string)
    ensures k in UrlMap(links) <==> exists i :: 0 <= i < |links| && links[i].name == k && links[i].url.Some?
  {
    if |links| > 0 {
      var init := links[..|links| - 1];
      UrlMapKeys(init, k);
      if exists i :: 0 <= i < |init| && init[i].name == k && init[i].url.Some? {
        var i :| 0 <= i < |init| && init[i].name == k && init[i].url.Some?;
        assert links[i] == init[i];
      }
      if exists i :: 0 <= i < |links| && links[i].name == k && links[i].url.Some? {
        var i :| 0 <= i < |links| && links[i].name == k && links[i].url.Some?;
        if i < |init| {
          assert init[i] == links[i];
        }
      }
    }
  }

  /** A name maps to the URL of the last row that names it with a URL. */
  lemma {:induction false} UrlMapLastWins(links: seq<Link>, i: nat)
    requires i < |links| && links[i].url.Some?
    requires forall j :: i < j < |links| && links[j].name == links[i].name ==> links[j].url.None?
    ensures links[i].name in UrlMap(links) && UrlMap(links)[links[i].name] == links[i].url.value
  {
    var n := |links|;
    if i < n - 1 {
      var init := links[..n - 1];
      assert init[i] == links[i];
      UrlMapLastWins(init, i);
    }
  }

  /** The lambda of lines 41-46: the mapped URL when the name has one,
      otherwise the row's own cell. */
  function FillLink(m: map<string, string>, l: Link): Link
  {
    Link(l.name, if l.name in m then Some(m[l.name]) else l.url)
  }

  function Fill(links: seq<Link>): (r: seq<Link>)
    ensures |r| == |links|
  {
    var m := UrlMap(links);
    seq(|links|, i requires 0 <= i < |links| => FillLink(m, links[i]))
  }

  /** `notna().sum()` */
  function CountKnown(links: seq<Link>): (n: nat)
    ensures n <= |links|
  {
    if |links| == 0 then 0 else CountKnown(links[..|links| - 1]) + (if links[|links| - 1].url.Some? then 1 else 0)
  }

  /** No URL is lost: a row that had one still has one. */
  lemma FillKeepsUrls(links: seq<Link>, i: nat)
    requires i < |links| && links[i].url.Some?
    ensures Fill(links)[i].url.Some? && Fill(links)[i].name == links[i].name
  {
    UrlMapKeys(links, links[i].name);
  }

  /** A row gets a URL from the fill exactly when some row with its name has
      one. */
  lemma FillFindsUrl(links: seq<Link>, i: nat)
    requires i < |links|
    ensures Fill(links)[i].url.Some? <==> exists j :: 0 <= j < |links| && links[j].name == links[i].name && links[j].url.Some?
  {
    UrlMapKeys(links, links[i].name);
  }

  lemma {:induction false} CountKnownMonotone(a: seq<Link>, b: seq<Link>)
    requires |a| == |b|
    requires forall i :: 0 <= i < |a| && a[i].url.Some? ==> b[i].url.Some?
    ensures CountKnown(a) <= CountKnown(b)
  {
    if |a| > 0 {
      CountKnownMonotone(a[..|a| - 1], b[..|b| - 1]);
    }
  }

  /** The count of known URLs never goes down across the fill. */
  lemma FillCountGrows(links: seq<Link>)
    ensures CountKnown(links) <= CountKnown(Fill(links))
  {
    forall i | 0 <= i < |links| && links[i].url.Some?
      ensures Fill(links)[i].url.Some?
    {
      FillKeepsUrls(links, i);
    }
    CountKnownMonotone(links, Fill(links));
  }

  /** A row's own URL is replaced by a later row's URL for the same name. */
  lemma FillOverwrites()
    ensures var links := [Link("A", Some("u1")), Link("A", Some("u2"))];
      Fill(links)[0].url == Some("u2")
  {
    var links := [Link("A", Some("u1")), Link("A", Some("u2"))];
    UrlMapLastWins(links, 1);
  }

  /** When every row naming `k` with a URL carries `v`, the map gives `v`. */
  lemma {:induction false} UrlMapUniform(links: seq<Link>, k: string, v: string)
    requires forall i :: 0 <= i < |links| && links[i].name == k && links[i].url.Some? ==> links[i].url.value == v
    ensures k in UrlMap(links) ==> UrlMap(links)[k] == v
  {
    if |links| > 0 {
      var init := links[..|links| - 1];
      assert forall i :: 0 <= i < |init| ==> init[i] == links[i];
      UrlMapUniform(init, k, v);
    }
  }

  /** The filled column yields the same map as the original. */
  lemma FillKeepsMap(links: seq<Link>)
    ensures UrlMap(Fill(links)) == UrlMap(links)
  {
    var m := UrlMap(links);
    var f := Fill(links);
    forall k
      ensures (k in UrlMap(f) <==> k in m) && (k in m ==> UrlMap(f)[k] == m[k])
    {
      UrlMapKeys(links, k);
      UrlMapKeys(f, k);
      if k in UrlMap(f) {
        var j :| 0 <= j < |f| && f[j].name == k && f[j].url.Some?;
        assert links[j].name == k;
      }
      if k in m {
        var j :| 0 <= j < |links| && links[j].name == k && links[j].url.Some?;
        assert f[j].name == k && f[j].url.Some?;
        UrlMapUniform(f, k, m[k]);
      }
    }
  }

  /** Filling a second time changes nothing. */
  lemma FillIdempotent(links: seq<Link>)
    ensures Fill(Fill(links)) == Fill(links)
  {
    FillKeepsMap(links);
  }

  // ------------------------------------------------------------ status checks

  const ValidStatus := "valid"
  const ErrorStatus := "error"

  /** What requests.head answered: it raised, or it gave a status code. */
  datatype Probe = Raised | Responded(code: int)

  predicate Fails(p: Probe) { p.Raised? || p.code >= 400 }

  /** Cached statuses are the two the checker writes. */
  predicate CacheOk(cache: map<string, string>)
  {
    forall u :: u in cache ==> cache[u] == ValidStatus || cache[u] == ErrorStatus
  }

  /** The new cache, the status, and whether a request was made. */
  datatype Check = Check(cache: map<string, string>, status: string, probed: bool)

  /** check_url_status with its module-level cache made explicit. */
  function CheckUrlStatus(cache: map<string, string>, url: string, probe: string -> Probe): (r: Check)
    requires CacheOk(cache)
    ensures CacheOk(r.cache)
    ensures r.status == ValidStatus || r.status == ErrorStatus
    ensures url in r.cache && r.cache[url] == r.status
    ensures forall u :: u in cache ==> u in r.cache && r.cache[u] == cache[u]
    ensures url in cache ==> r == Check(cache, cache[url], false)
    ensures url !in cache ==> r.probed && r.cache.Keys == cache.Keys + {url}
                              && (r.status == ErrorStatus <==> Fails(probe(url)))
  {
    if url in cache then Check(cache, cache[url], false)
    else
      var status := if Fails(probe(url)) then ErrorStatus else ValidStatus;
      Check(cache[url := status], status, true)
  }

  /** The URL and status cells of one row, for both sides. */
  datatype StatusRow = StatusRow(enablingUrl: Option<string>, enablingStatus: string,
                                 dependentUrl: Option<string>, dependentStatus: string)

  function CountBrokenEnabling(rows: seq<StatusRow>): nat
  {
    if |rows| == 0 then 0
    else
      var last := rows[|rows| - 1];
      CountBrokenEnabling(rows[..|rows| - 1]) + (if last.enablingUrl.Some? && last.enablingStatus == ErrorStatus then 1 else 0)
  }

  function CountBrokenDependent(rows: seq<StatusRow>): nat
  {
    if |rows| == 0 then 0
    else
      var last := rows[|rows| - 1];
      CountBrokenDependent(rows[..|rows| - 1]) + (if last.dependentUrl.Some? && last.dependentStatus == ErrorStatus then 1 else 0)
  }

  /** Row `o` is row `r` with each present URL's status taken from the
      cache, and the status of an absent URL left alone. */
  predicate Checked(r: StatusRow, o: StatusRow, cache: map<string, string>)
  {
    && o.enablingUrl == r.enablingUrl && o.dependentUrl == r.dependentUrl
    && (r.enablingUrl.None? ==> o.enablingStatus == r.enablingStatus)
    && (r.enablingUrl.Some? ==> r.enablingUrl.value in cache && o.enablingStatus == cache[r.enablingUrl.value])
    && (r.dependentUrl.None? ==> o.dependentStatus == r.dependentStatus)
    && (r.dependentUrl.Some? ==> r.dependentUrl.value in cache && o.dependentStatus == cache[r.dependentUrl.value])
  }

  /** The cache holds each probed URL with the status its probe gave. */
  ghost predicate Faithful(cache: map<string, string>, probe: string -> Probe)
  {
    forall u :: u in cache ==> (cache[u] == ValidStatus || cache[u] == ErrorStatus)
                               && (cache[u] == ErrorStatus <==> Fails(probe(u)))
  }

  /** The probe log and the cache agree: every URL in the cache was probed
      exactly once. */
  ghost predicate ProbedOnce(cache: map<string, string>, probes: seq<string>)
  {
    && (forall a, b :: 0 <= a < b < |probes| ==> probes[a] != probes[b])
    && (forall u :: u in probes ==> u in cache)
    && (forall u :: u in cache ==> u in probes)
  }

  /** One status cell of lines 88-96: a present URL is checked through the
      cache and its status written; an absent one leaves the cell as it was. */
  method CheckCell(url: Option<string>, status: string, cache: map<string, string>,
                   probes: seq<string>, probe: string -> Probe)
    returns (status': string, cache': map<string, string>, probes': seq<string>)
    requires Faithful(cache, probe) && ProbedOnce(cache, probes)
    ensures Faithful(cache', probe) && ProbedOnce(cache', probes')
    ensures forall u :: u in cache ==> u in cache' && cache'[u] == cache[u]
    ensures url.None? ==> status' == status
    ensures url.Some? ==> url.value in cache' && status' == cache'[url.value]
    ensures forall u :: u in cache' ==> u in cache || url == Some(u)
  {
    status', cache', probes' := status, cache, probes;
    if url.Some? {
      var r := CheckUrlStatus(cache, url.value, probe);
      if r.probed {
        probes' := probes + [url.value];
      }
      cache', status' := r.cache, r.status;
    }
  }

  /** One of the first `n` rows has URL `u` on either side. */
  ghost predicate UrlAmong(rows: seq<StatusRow>, n: nat, u: string)
  {
    exists j :: 0 <= j < n && j < |rows| && (rows[j].enablingUrl == Some(u) || rows[j].dependentUrl == Some(u))
  }

  /** Lines 86-98: check both URLs of every row through one cache, the
      enabling side before the dependent side. The cache ends up holding
      exactly the URLs the rows name. */
  method CheckAll(rows: seq<StatusRow>, probe: string -> Probe)
    returns (out: seq<StatusRow>, brokenEnabling: nat, brokenDependent: nat,
             cache: map<string, string>, probes: seq<string>)
    ensures |out| == |rows|
    ensures forall i :: 0 <= i < |rows| ==> Checked(rows[i], out[i], cache)
    ensures Faithful(cache, probe) && ProbedOnce(cache, probes)
    ensures brokenEnabling == CountBrokenEnabling(out) && brokenDependent == CountBrokenDependent(out)
    ensures forall u :: u in cache <==> UrlAmong(rows, |rows|, u)
  {
    out := [];
    brokenEnabling, brokenDependent := 0, 0;
    cache := map[];
    probes := [];
    var i := 0;
    while i < |rows|
      invariant 0 <= i <= |rows| && |out| == i
      invariant Faithful(cache, probe) && ProbedOnce(cache, probes)
      invariant forall j :: 0 <= j < i ==> Checked(rows[j], out[j], cache)
      invariant brokenEnabling == CountBrokenEnabling(out) && brokenDependent == CountBrokenDependent(out)
      invariant forall u :: u in cache ==> UrlAmong(rows, i, u)
    {
      var c0 := cache;
      var o;
      o, cache, probes := CheckRow(rows[i], cache, probes, probe);
      CheckedSnoc(rows, out, o, c0, cache);
      CountsSnoc(out, o);
      UrlAmongGrows(rows, i, c0, cache);
      if o.enablingUrl.Some? && o.enablingStatus == ErrorStatus {
        brokenEnabling := brokenEnabling + 1;
      }
      if o.dependentUrl.Some? && o.dependentStatus == ErrorStatus {
        brokenDependent := brokenDependent + 1;
      }
      out := out + [o];
      i := i + 1;
    }
    CheckedHoldsUrls(rows, out, cache);
  }

  /** Checking a row puts each URL it names into the cache. */
  lemma CheckedHoldsUrls(rows: seq<StatusRow>, out: seq<StatusRow>, cache: map<string, string>)
    requires |out| == |rows| && forall i :: 0 <= i < |rows| ==> Checked(rows[i], out[i], cache)
    ensures forall u :: UrlAmong(rows, |rows|, u) ==> u in cache
  {
    forall u | UrlAmong(rows, |rows|, u)
      ensures u in cache
    {
      var j :| 0 <= j < |rows| && (rows[j].enablingUrl == Some(u) || rows[j].dependentUrl == Some(u));
      assert Checked(rows[j], out[j], cache);
    }
  }

  /** A URL the cache gains from row `i` is one that row names. */
  lemma UrlAmongGrows(rows: seq<StatusRow>, i: nat, c0: map<string, string>, c1: map<string, string>)
    requires i < |rows|
    requires forall u :: u in c0 ==> UrlAmong(rows, i, u)
    requires forall u :: u in c1 ==> u in c0 || rows[i].enablingUrl == Some(u) || rows[i].dependentUrl == Some(u)
    ensures forall u :: u in c1 ==> UrlAmong(rows, i + 1, u)
  {
    forall u | u in c1
      ensures UrlAmong(rows, i + 1, u)
    {
      if u !in c0 {
        assert rows[i].enablingUrl == Some(u) || rows[i].dependentUrl == Some(u);
      }
    }
  }

  /** Both status cells of one row, the enabling side first. */
  method CheckRow(row: StatusRow, cache: map<string, string>, probes: seq<string>, probe: string -> Probe)
    returns (o: StatusRow, cache': map<string, string>, probes': seq<string>)
    requires Faithful(cache, probe) && ProbedOnce(cache, probes)
    ensures Faithful(cache', probe) && ProbedOnce(cache', probes')
    ensures forall u :: u in cache ==> u in cache' && cache'[u] == cache[u]
    ensures Checked(row, o, cache')
    ensures forall u :: u in cache' ==> u in cache || row.enablingUrl == Some(u) || row.dependentUrl == Some(u)
  {
    var es, ds;
    es, cache', probes' := CheckCell(row.enablingUrl, row.enablingStatus, cache, probes, probe);
    ds, cache', probes' := CheckCell(row.dependentUrl, row.dependentStatus, cache', probes', probe);
    o := row.(enablingStatus := es, dependentStatus := ds);
  }

  /** The broken counts of a list with one more row. */
  lemma CountsSnoc(out: seq<StatusRow>, o: StatusRow)
    ensures CountBrokenEnabling(out + [o])
         == CountBrokenEnabling(out) + (if o.enablingUrl.Some? && o.enablingStatus == ErrorStatus then 1 else 0)
    ensures CountBrokenDependent(out + [o])
         == CountBrokenDependent(out) + (if o.dependentUrl.Some? && o.dependentStatus == ErrorStatus then 1 else 0)
  {
    assert (out + [o])[..|out|] == out;
  }

  /** Statuses read from a cache stay valid as the cache grows. */
  /** The rows checked so far, and one more, against the grown cache. */
  lemma CheckedSnoc(rows: seq<StatusRow>, out: seq<StatusRow>, o: StatusRow,
                    c0: map<string, string>, c1: map<string, string>)
    requires |out| < |rows|
    requires forall u :: u in c0 ==> u in c1 && c1[u] == c0[u]
    requires forall j :: 0 <= j < |out| ==> Checked(rows[j], out[j], c0)
    requires Checked(rows[|out|], o, c1)
    ensures forall j :: 0 <= j < |out| + 1 ==> Checked(rows[j], (out + [o])[j], c1)
  {
    CheckedGrows(rows[..|out|], out, c0, c1);
    forall j | 0 <= j < |out| + 1
      ensures Checked(rows[j], (out + [o])[j], c1)
    {
      if j < |out| {
        assert rows[..|out|][j] == rows[j];
      }
    }
  }

  lemma CheckedGrows(rows: seq<StatusRow>, out: seq<StatusRow>, c0: map<string, string>, c1: map<string, string>)
    requires |rows| == |out|
    requires forall u :: u in c0 ==> u in c1 && c1[u] == c0[u]
    requires forall j :: 0 <= j < |rows| ==> Checked(rows[j], out[j], c0)
    ensures forall j :: 0 <= j < |rows| ==> Checked(rows[j], out[j], c1)
  {
  }
}

=== FILE: page_text.dfy ===
/** sanitize_text from extract_citations.py: every run of carriage returns
    and line feeds becomes one space, then the result is stripped. Page
    text, table-of-contents headings, citation contexts and saved cells all
    pass through it. */
module PageText {
  import opened Common

  predicate IsNewline(c: char) { c == '\r' || c == '\n' }

  predicate NotNewline(c: char) { !IsNewline(c) }

  /** re.sub(r"[\r\n]+", " ", s) */
  function CollapseNewlines(s: string): (r: string)
    ensures |r| <= |s|
    ensures All(r, NotNewline)
    decreases |s|
  {
    if |s| == 0 then []
    else if IsNewline(s[0]) then " " + CollapseNewlines(s[SpanEnd(s, 0, IsNewline)..])
    else [s[0]] + CollapseNewlines(s[1..])
  }

  function SanitizeText(s: string): (r: string)
    ensures |r| <= |s|
    ensures All(r, NotNewline)
    ensures Stripped(r)
  {
    var c := CollapseNewlines(s);
    StripKeeps(c, NotNewline);
    Strip(c)
  }

  lemma StripKeeps(s: string, p: char -> bool)
    requires All(s, p)
    ensures All(Strip(s), p)
  {
    var l := LStrip(s);
    var r := RStrip(l);
    assert forall i :: 0 <= i < |r| ==> r[i] == l[i] == s[|s| - |l| + i];
  }

  /** Text without line breaks is copied verbatim: only newline runs are
      rewritten, so spaces and tabs stay where they are. */
  lemma {:induction false} CollapseCopiesPlainText(x: string, y: string)
    requires All(x, NotNewline)
    ensures CollapseNewlines(x + y) == x + CollapseNewlines(y)
  {
    if |x| > 0 {
      assert (x + y)[0] == x[0];
      assert (x + y)[1..] == x[1..] + y;
      CollapseCopiesPlainText(x[1..], y);
    } else {
      assert x + y == y;
    }
  }

  lemma CollapseIdentity(s: string)
    requires All(s, NotNewline)
    ensures CollapseNewlines(s) == s
  {
    CollapseCopiesPlainText(s, []);
    assert s + [] == s;
  }

  /** With no line break in the input, sanitizing is exactly str.strip(). */
  lemma SanitizeWithoutNewlines(s: string)
    requires All(s, NotNewline)
    ensures SanitizeText(s) == Strip(s)
  {
    CollapseIdentity(s);
  }

  lemma SanitizeIdempotent(s: string)
    ensures SanitizeText(SanitizeText(s)) == SanitizeText(s)
  {
    var t := SanitizeText(s);
    CollapseIdentity(t);
    StripStripped(t);
  }

  /** A string that is already single-line and stripped is a fixed point. */
  lemma SanitizeFixes(s: string)
    requires All(s, NotNewline) && Stripped(s)
    ensures SanitizeText(s) == s
  {
    CollapseIdentity(s);
    StripStripped(s);
  }

  /** Sanitizing only ever removes or rewrites whitespace: the non-blank
      characters come out unchanged and in order. */
  lemma {:induction false} CollapseKeepsNonSpace(s: string)
    ensures Filter(CollapseNewlines(s), NotSpace) == Filter(s, NotSpace)
    decreases |s|
  {
    if |s| > 0 {
      if IsNewline(s[0]) {
        var k := SpanEnd(s, 0, IsNewline);
        assert s == s[..k] + s[k..];
        FilterAppend(s[..k], s[k..], NotSpace);
        FilterNone(s[..k], NotSpace);
        FilterAppend(" ", CollapseNewlines(s[k..]), NotSpace);
        CollapseKeepsNonSpace(s[k..]);
      } else {
        assert s == [s[0]] + s[1..];
        FilterAppend([s[0]], s[1..], NotSpace);
        FilterAppend([s[0]], CollapseNewlines(s[1..]), NotSpace);
        CollapseKeepsNonSpace(s[1..]);
      }
    }
  }

  lemma SanitizeKeepsNonSpace(s: string)
    ensures Filter(SanitizeText(s), NotSpace) == Filter(s, NotSpace)
  {
    CollapseKeepsNonSpace(s);
    StripKeepsNonSpace(CollapseNewlines(s));
  }
}

=== FILE: table_of_contents.dfy ===
/** extract_toc and infer_section_name from extract_citations.py.

    The table of contents is read with `findall` of `(?P<heading>.+?)\s+(\d+)`
    over the text of each of the first ten pages that carry the literal
    "Table of Contents". Section inference looks the page number up in that
    table and otherwise scans the page's lines bottom-up for one that occurs
    before the citation's context. */
module TableOfContents {
  import opened Common
  import opened PageText

  datatype TocEntry = TocEntry(heading: string, page: nat)

  /** One `findall` hit: the heading spans [start, headEnd), the number
      [numStart, numEnd). */
  datatype TocHit = TocHit(start: nat, headEnd: nat, numStart: nat, numEnd: nat)

  // ------------------------------------------------------------ the pattern

  /** `\s+(\d+)` right after a heading that ends at `h`; greedy `\s+` can
      only succeed at the end of the blank run, and nothing follows `\d+`. */
  predicate NumberFollows(s: string, h: nat)
    requires h <= |s|
  {
    h < |s| && IsSpace(s[h]) && SpanEnd(s, h, IsSpace) < |s| && IsDigit(s[SpanEnd(s, h, IsSpace)])
  }

  predicate ValidHit(s: string, hit: TocHit)
  {
    hit.start < hit.headEnd < hit.numStart < hit.numEnd <= |s|
    && All(s[hit.numStart..hit.numEnd], IsDigit)
  }

  /** The hit from `i` whose heading ends at `h`. */
  function HitAt(s: string, i: nat, h: nat): TocHit
    requires h <= |s| && NumberFollows(s, h)
  {
    var w := SpanEnd(s, h, IsSpace);
    TocHit(i, h, w, SpanEnd(s, w, IsDigit))
  }

  /** A hit built after a heading end where the number follows is a
      well-formed match. */
  lemma HitAtValid(s: string, i: nat, h: nat)
    requires i < h <= |s| && NumberFollows(s, h)
    ensures HitAt(s, i, h).start == i && ValidHit(s, HitAt(s, i, h))
  {
    var hit := HitAt(s, i, h);
    assert forall k :: hit.numStart <= k < hit.numEnd ==> IsDigit(s[k]);
    assert forall k :: 0 <= k < hit.numEnd - hit.numStart ==> s[hit.numStart..hit.numEnd][k] == s[hit.numStart + k];
  }

  /** The lazy `.+?`: the shortest heading from `i`, with no line feed in it,
      after which the number follows; `h` is the heading end being tried. */
  function TocMatchFrom(s: string, i: nat, h: nat): (r: Option<TocHit>)
    requires i < h <= |s| + 1
    ensures r.Some? ==> r.value.start == i && ValidHit(s, r.value)
    decreases |s| + 1 - h
  {
    if h > |s| || s[h - 1] == '\n' then None
    else if NumberFollows(s, h) then HitAtValid(s, i, h); Some(HitAt(s, i, h))
    else TocMatchFrom(s, i, h + 1)
  }

  /** What the search from heading end `h` finds: the first end from `h` on,
      before any line feed, after which the number follows. */
  lemma {:induction false} TocMatchFromLazy(s: string, i: nat, h: nat)
    requires i < h <= |s| + 1
    ensures var r := TocMatchFrom(s, i, h);
      && (r.Some? ==> h <= r.value.headEnd <= |s| && NumberFollows(s, r.value.headEnd)
                      && r.value == HitAt(s, i, r.value.headEnd)
                      && (forall k :: h - 1 <= k < r.value.headEnd ==> s[k] != '\n')
                      && (forall g :: h <= g < r.value.headEnd ==> !NumberFollows(s, g)))
      && (r.None? ==> forall g :: h <= g <= |s| && (forall k :: h - 1 <= k < g ==> s[k] != '\n')
                        ==> !NumberFollows(s, g))
    decreases |s| + 1 - h
  {
    if h <= |s| && s[h - 1] != '\n' && !NumberFollows(s, h) {
      TocMatchFromLazy(s, i, h + 1);
    }
  }

  function TocMatchAt(s: string, i: nat): (r: Option<TocHit>)
    requires i < |s|
    ensures r.Some? ==> r.value.start == i && ValidHit(s, r.value)
  {
    TocMatchFrom(s, i, i + 1)
  }

  /** The match at `i` is the lazy one: its heading is the shortest, with no
      line feed in it, after which whitespace and digits follow; and there is
      no match when no such heading exists. */
  lemma TocMatchAtLazy(s: string, i: nat)
    requires i < |s|
    ensures var r := TocMatchAt(s, i);
      && (r.Some? ==> NumberFollows(s, r.value.headEnd)
                      && r.value == HitAt(s, i, r.value.headEnd)
                      && (forall k :: i <= k < r.value.headEnd ==> s[k] != '\n')
                      && (forall g :: i < g < r.value.headEnd ==> !NumberFollows(s, g)))
      && (r.None? ==> forall g :: i < g <= |s| && (forall k :: i <= k < g ==> s[k] != '\n')
                        ==> !NumberFollows(s, g))
  {
    TocMatchFromLazy(s, i, i + 1);
  }

  /** `re.findall`: hits left to right, resuming after each one. */
  function TocScan(s: string, i: nat): (r: seq<TocHit>)
    requires i <= |s|
    ensures forall k :: 0 <= k < |r| ==> i <= r[k].start && ValidHit(s, r[k])
    decreases |s| - i
  {
    if i == |s| then []
    else
      match TocMatchAt(s, i)
      case Some(hit) => [hit] + TocScan(s, hit.numEnd)
      case None => TocScan(s, i + 1)
  }

  /** One step of the scan: a match is reported and the scan resumes after
      it, or the scan moves on by one character. */
  lemma TocScanStep(s: string, i: nat)
    requires i < |s|
    ensures TocMatchAt(s, i).Some? ==>
      TocScan(s, i) == [TocMatchAt(s, i).value] + TocScan(s, TocMatchAt(s, i).value.numEnd)
    ensures TocMatchAt(s, i).None? ==> TocScan(s, i) == TocScan(s, i + 1)
  {
  }

  /** Hits come left to right without overlapping: each starts at or after
      the end of the one before. */
  lemma {:induction false} TocScanOrdered(s: string, i: nat, k: nat)
    requires i <= |s| && k + 1 < |TocScan(s, i)|
    ensures TocScan(s, i)[k].numEnd <= TocScan(s, i)[k + 1].start
    decreases |s| - i
  {
    TocScanStep(s, i);
    var m := TocMatchAt(s, i);
    if m.None? {
      TocScanOrdered(s, i + 1, k);
    } else if k > 0 {
      TocScanOrdered(s, m.value.numEnd, k - 1);
    }
  }

  /** Every hit `findall` reports is a match of the pattern at its start. */
  lemma {:induction false} TocScanSound(s: string, i: nat, k: nat)
    requires i <= |s| && k < |TocScan(s, i)|
    ensures TocMatchAt(s, TocScan(s, i)[k].start) == Some(TocScan(s, i)[k])
    decreases |s| - i
  {
    TocScanStep(s, i);
    var m := TocMatchAt(s, i);
    if m.None? {
      TocScanSound(s, i + 1, k);
    } else if k > 0 {
      TocScanSound(s, m.value.numEnd, k - 1);
    }
  }

  /** Position `p` lies inside one of the hits. */
  ghost predicate HitCovered(r: seq<TocHit>, p: nat)
  {
    exists k :: 0 <= k < |r| && r[k].start <= p < r[k].numEnd
  }

  lemma HitCoveredCons(hit: TocHit, rest: seq<TocHit>, p: nat)
    requires HitCovered(rest, p) || hit.start <= p < hit.numEnd
    ensures HitCovered([hit] + rest, p)
  {
    var r := [hit] + rest;
    if !(hit.start <= p < hit.numEnd) {
      var k :| 0 <= k < |rest| && rest[k].start <= p < rest[k].numEnd;
      assert r[k + 1] == rest[k];
    } else {
      assert r[0] == hit;
    }
  }

  /** Nothing is skipped: every position where the pattern matches is the
      start of a hit or lies inside one. */
  lemma {:induction false} TocScanComplete(s: string, i: nat, p: nat)
    requires i <= p < |s| && TocMatchAt(s, p).Some?
    ensures HitCovered(TocScan(s, i), p)
    decreases |s| - i
  {
    TocScanStep(s, i);
    var m := TocMatchAt(s, i);
    if m.Some? {
      if p >= m.value.numEnd {
        TocScanComplete(s, m.value.numEnd, p);
      }
      HitCoveredCons(m.value, TocScan(s, m.value.numEnd), p);
    } else {
      TocScanComplete(s, i + 1, p);
    }
  }

  /** Leftmost first: no match starts between the scan's origin and its
      first hit, and with no hit none starts anywhere after it. */
  lemma {:induction false} TocScanLeftmost(s: string, i: nat)
    requires i <= |s|
    ensures var r := TocScan(s, i);
      && (|r| > 0 ==> forall q :: i <= q < r[0].start ==> TocMatchAt(s, q).None?)
      && (|r| == 0 ==> forall q :: i <= q < |s| ==> TocMatchAt(s, q).None?)
    decreases |s| - i
  {
    if i < |s| {
      TocScanStep(s, i);
      if TocMatchAt(s, i).None? {
        TocScanLeftmost(s, i + 1);
      }
    }
  }

  /** Between two consecutive hits no match starts either. */
  lemma TocScanGaps(s: string, i: nat, k: nat, q: nat)
    requires i <= |s| && k + 1 < |TocScan(s, i)|
    requires TocScan(s, i)[k].numEnd <= q < TocScan(s, i)[k + 1].start
    ensures TocMatchAt(s, q).None?
  {
    if TocMatchAt(s, q).Some? {
      TocScanComplete(s, i, q);
      TocScanChained(s, i);
      GapUncovered(TocScan(s, i), k, q);
      assert false;
    }
  }

  /** Each hit of the scan ends where the next may start. */
  lemma TocScanChained(s: string, i: nat)
    requires i <= |s|
    ensures Chained(TocScan(s, i))
  {
    var r := TocScan(s, i);
    forall j | 0 <= j < |r| - 1
      ensures r[j].numEnd <= r[j + 1].start
    {
      TocScanOrdered(s, i, j);
    }
  }

  /** Hits that do not overlap, each in order after the one before. */
  ghost predicate Chained(r: seq<TocHit>)
  {
    && (forall j :: 0 <= j < |r| ==> r[j].start <= r[j].numEnd)
    && (forall j :: 0 <= j < |r| - 1 ==> r[j].numEnd <= r[j + 1].start)
  }

  /** In a chain, a hit ends no later than any later hit starts. */
  lemma {:induction false} HitsApart(r: seq<TocHit>, a: nat, b: nat)
    requires Chained(r) && a < b < |r|
    ensures r[a].numEnd <= r[b].start
    decreases b - a
  {
    if a + 1 < b {
      HitsApart(r, a, b - 1);
    }
  }

  /** A position between two neighbouring hits of a chain lies in no hit. */
  lemma GapUncovered(r: seq<TocHit>, k: nat, q: nat)
    requires Chained(r) && k + 1 < |r|
    requires r[k].numEnd <= q < r[k + 1].start
    ensures !HitCovered(r, q)
  {
    forall c | 0 <= c < |r|
      ensures !(r[c].start <= q < r[c].numEnd)
    {
      if c < k {
        HitsApart(r, c, k);
      } else if k + 1 < c {
        HitsApart(r, k + 1, c);
      }
    }
  }

  function EntryOf(s: string, hit: TocHit): TocEntry
    requires ValidHit(s, hit)
  {
    TocEntry(SanitizeText(s[hit.start..hit.headEnd]), DigitsValue(s[hit.numStart..hit.numEnd]))
  }

  function EntriesOf(s: string, hits: seq<TocHit>): (r: seq<TocEntry>)
    requires forall k :: 0 <= k < |hits| ==> ValidHit(s, hits[k])
    ensures |r| == |hits|
    ensures forall k :: 0 <= k < |hits| ==> r[k] == EntryOf(s, hits[k])
  {
    seq(|hits|, k requires 0 <= k < |hits| => EntryOf(s, hits[k]))
  }

  /** The entries one page contributes. */
  function PageEntries(text: string): seq<TocEntry>
  {
    EntriesOf(text, TocScan(text, 0))
  }

  const Marker := "Table of Contents"

  /** What one page adds to the table: its entries if it carries the marker. */
  function PageContribution(text: string): seq<TocEntry>
  {
    if Contains(text, Marker) then PageEntries(text) else []
  }

  /** Each page's contribution, page by page. */
  function Contributions(pages: seq<string>): (r: seq<seq<TocEntry>>)
    ensures |r| == |pages|
    ensures forall j :: 0 <= j < |pages| ==> r[j] == PageContribution(pages[j])
  {
    seq(|pages|, j requires 0 <= j < |pages| => PageContribution(pages[j]))
  }

  /** The entries of a run of pages, in page order. */
  function TocPages(pages: seq<string>): (r: seq<TocEntry>)
  {
    Flatten(Contributions(pages))
  }

  /** extract_toc: only the first ten pages are read. */
  function ExtractToc(pages: seq<string>): seq<TocEntry>
  {
    TocPages(pages[..if |pages| < 10 then |pages| else 10])
  }

  // ------------------------------------------------------------ section inference

  /** Page `p` lies in entry `i`'s range: from its page up to the next
      entry's page, or onwards for the last entry. */
  predicate InInterval(toc: seq<TocEntry>, p: nat, i: nat)
    requires i < |toc|
  {
    || (i + 1 < |toc| && toc[i].page <= p < toc[i + 1].page)
    || (i == |toc| - 1 && toc[i].page <= p)
  }

  /** The loop over the table: the first entry whose range holds `p`. */
  function TocIndex(toc: seq<TocEntry>, p: nat, from: nat): (r: Option<nat>)
    requires from <= |toc|
    ensures r.Some? ==> from <= r.value < |toc| && InInterval(toc, p, r.value)
                        && forall j :: from <= j < r.value ==> !InInterval(toc, p, j)
    ensures r.None? ==> forall j :: from <= j < |toc| ==> !InInterval(toc, p, j)
    decreases |toc| - from
  {
    if from == |toc| then None
    else if InInterval(toc, p, from) then Some(from)
    else TocIndex(toc, p, from + 1)
  }

  /** A line counts when its stripped text is non-blank and occurs in the
      text before the context. */
  predicate LineQualifies(line: string, prefix: string)
  {
    |Strip(line)| > 0 && Contains(prefix, Strip(line))
  }

  /** The bottom-up scan over xs[..k]: the index of the last element kept. */
  function LastWhere<T>(xs: seq<T>, keep: T -> bool, k: nat): (r: Option<nat>)
    requires k <= |xs|
    ensures r.Some? ==> r.value < k && keep(xs[r.value])
                        && forall j :: r.value < j < k ==> !keep(xs[j])
    ensures r.None? ==> forall j :: 0 <= j < k ==> !keep(xs[j])
  {
    if k == 0 then None
    else if keep(xs[k - 1]) then Some(k - 1)
    else LastWhere(xs, keep, k - 1)
  }

  const UnknownSection := "Unknown Section"

  /** `page_text[:page_text.find(context)]`, where a missing context gives
      find's -1 and so the text without its last character. */
  function ContextPrefix(pageText: string, context: string): string
  {
    SliceTo(pageText, Find(pageText, context))
  }

  /** The fallback's test as a value, so the scan and the lemmas about it
      share one function. */
  function Qualifies(prefix: string): string -> bool
  {
    line => LineQualifies(line, prefix)
  }

  /** The fallback scan, given the text the lines must occur in. */
  function LineFallback(pageText: string, prefix: string): string
  {
    var lines := SplitLines(pageText);
    match LastWhere(lines, Qualifies(prefix), |lines|)
    case Some(i) => SanitizeText(lines[i])
    case None => UnknownSection
  }

  /** infer_section_name. */
  function InferSection(toc: seq<TocEntry>, p: nat, context: string, pageText: string): string
  {
    var hit := if |toc| > 0 then TocIndex(toc, p, 0) else None;
    if hit.Some? then toc[hit.value].heading
    else LineFallback(pageText, ContextPrefix(pageText, context))
  }

  // ------------------------------------------------------------ properties

  lemma TocPagesAppend(a: seq<string>, b: seq<string>)
    ensures TocPages(a + b) == TocPages(a) + TocPages(b)
  {
    assert Contributions(a + b) == Contributions(a) + Contributions(b);
    FlattenAppend(Contributions(a), Contributions(b));
  }

  /** Pages past the tenth never contribute. */
  lemma FirstTenPagesOnly(a: seq<string>, b: seq<string>)
    requires |a| >= 10
    ensures ExtractToc(a + b) == ExtractToc(a)
  {
    assert (a + b)[..10] == a[..10];
  }

  /** An entry comes from one of the pages, and every page's contribution
      is all there. */
  lemma TocPagesMembers(pages: seq<string>, e: TocEntry)
    ensures e in TocPages(pages) <==> exists j :: 0 <= j < |pages| && e in PageContribution(pages[j])
  {
    var cs := Contributions(pages);
    FlattenMembers(cs, e);
    if e in TocPages(pages) {
      var j :| 0 <= j < |cs| && e in cs[j];
      assert e in PageContribution(pages[j]);
    }
    if exists j :: 0 <= j < |pages| && e in PageContribution(pages[j]) {
      var j :| 0 <= j < |pages| && e in PageContribution(pages[j]);
      assert e in cs[j];
    }
  }

  /** A document without the marker on its first ten pages has no table. */
  lemma NoMarkerNoToc(pages: seq<string>)
    requires forall j :: 0 <= j < |pages| && j < 10 ==> !Contains(pages[j], Marker)
    ensures ExtractToc(pages) == []
  {
    var first := pages[..if |pages| < 10 then |pages| else 10];
    FlattenEmpty(Contributions(first));
  }

  /** Headings are sanitized: single-line and stripped. */
  lemma TocHeadingsSanitized(pages: seq<string>)
    ensures forall e :: e in ExtractToc(pages) ==> All(e.heading, NotNewline) && Stripped(e.heading)
  {
    var first := pages[..if |pages| < 10 then |pages| else 10];
    forall e | e in ExtractToc(pages)
      ensures All(e.heading, NotNewline) && Stripped(e.heading)
    {
      TocPagesMembers(first, e);
      var j :| 0 <= j < |first| && e in PageContribution(first[j]);
      var hits := TocScan(first[j], 0);
      var k :| 0 <= k < |hits| && PageEntries(first[j])[k] == e;
    }
  }

  /** When some entry's range holds the page, the answer is the heading of
      the first such entry. */
  lemma InferFromToc(toc: seq<TocEntry>, p: nat, context: string, pageText: string, i: nat)
    requires i < |toc| && InInterval(toc, p, i)
    requires forall j :: 0 <= j < i ==> !InInterval(toc, p, j)
    ensures InferSection(toc, p, context, pageText) == toc[i].heading
  {
    var r := TocIndex(toc, p, 0);
    if r.value < i {
    } else if r.value > i {
    }
  }

  /** With entries in page order, every page from the first entry's on is
      covered by the table. */
  lemma {:induction false} SortedTocCovers(toc: seq<TocEntry>, p: nat, from: nat)
    requires from < |toc| && toc[from].page <= p
    requires forall j, k :: 0 <= j < k < |toc| ==> toc[j].page <= toc[k].page
    ensures TocIndex(toc, p, from).Some?
    decreases |toc| - from
  {
    if !InInterval(toc, p, from) {
      SortedTocCovers(toc, p, from + 1);
    }
  }

  /** Otherwise the answer is the sanitized last qualifying line, or the
      sentinel when no line qualifies. */
  lemma InferFallback(toc: seq<TocEntry>, p: nat, context: string, pageText: string)
    requires forall j :: 0 <= j < |toc| ==> !InInterval(toc, p, j)
    ensures var lines, prefix, r := SplitLines(pageText), ContextPrefix(pageText, context),
              InferSection(toc, p, context, pageText);
      || (r == UnknownSection && forall j :: 0 <= j < |lines| ==> !LineQualifies(lines[j], prefix))
      || (exists i :: 0 <= i < |lines| && LineQualifies(lines[i], prefix) && r == SanitizeText(lines[i])
                      && forall j :: i < j < |lines| ==> !LineQualifies(lines[j], prefix))
  {
    var prefix := ContextPrefix(pageText, context);
    assert InferSection(toc, p, context, pageText) == LineFallback(pageText, prefix);
    FallbackSource(pageText, prefix);
  }

  /** A context that does not occur in the page leaves the whole page but
      its last character as the text the lines are looked for in. */
  lemma MissingContextPrefix(pageText: string, context: string)
    requires !Contains(pageText, context)
    ensures ContextPrefix(pageText, context) == if |pageText| == 0 then [] else pageText[..|pageText| - 1]
  {
  }

  /** The lookup of the three-entry table from the documentation. */
  lemma TocLookupExample()
    ensures var toc := [TocEntry("Introduction", 1), TocEntry("Scope", 5), TocEntry("Procedures", 12)];
      InferSection(toc, 7, "", "") == "Scope" && InferSection(toc, 20, "", "") == "Procedures"
  {
    var toc := [TocEntry("Introduction", 1), TocEntry("Scope", 5), TocEntry("Procedures", 12)];
    InferFromToc(toc, 7, "", "", 1);
    InferFromToc(toc, 20, "", "", 2);
  }

  // ------------------------------------------------------------ missing context

  /** The evidently intended prefix: the text before the context, and
      nothing when the context is not in the page. */
  function ContextPrefixFixed(pageText: string, context: string): (r: string)
    ensures Contains(pageText, context) ==> r == pageText[..Find(pageText, context)]
    ensures !Contains(pageText, context) ==> r == []
  {
    var cs := Find(pageText, context);
    if cs < 0 then [] else pageText[..cs]
  }

  function InferSectionFixed(toc: seq<TocEntry>, p: nat, context: string, pageText: string): string
  {
    var hit := if |toc| > 0 then TocIndex(toc, p, 0) else None;
    if hit.Some? then toc[hit.value].heading
    else LineFallback(pageText, ContextPrefixFixed(pageText, context))
  }

  /** The correction changes nothing unless the table gives no section and
      the context is missing from the page. */
  lemma FixedAgreesWhenFound(toc: seq<TocEntry>, p: nat, context: string, pageText: string)
    requires Contains(pageText, context)
    ensures InferSectionFixed(toc, p, context, pageText) == InferSection(toc, p, context, pageText)
  {
    assert ContextPrefixFixed(pageText, context) == ContextPrefix(pageText, context);
  }

  /** The fallback answers the sentinel when no line counts, and otherwise
      the sanitized last line that counts. */
  lemma FallbackSource(pageText: string, prefix: string)
    ensures var lines, r := SplitLines(pageText), LineFallback(pageText, prefix);
      || (r == UnknownSection && forall j :: 0 <= j < |lines| ==> !LineQualifies(lines[j], prefix))
      || (exists i :: 0 <= i < |lines| && LineQualifies(lines[i], prefix) && r == SanitizeText(lines[i])
                      && forall j :: i < j < |lines| ==> !LineQualifies(lines[j], prefix))
  {
    var lines := SplitLines(pageText);
    var keep := Qualifies(prefix);
    match LastWhere(lines, keep, |lines|)
    case Some(i) =>
      assert keep(lines[i]);
    case None =>
  }

  /** No line counts against an empty prefix. */
  lemma EmptyPrefixUnknown(pageText: string)
    ensures LineFallback(pageText, []) == UnknownSection
  {
    var lines := SplitLines(pageText);
    var keep := Qualifies([]);
    forall j | 0 <= j < |lines|
      ensures !keep(lines[j])
    {
      if Contains([], Strip(lines[j])) {
        var q: nat :| q <= 0 && OccursAt([], Strip(lines[j]), q);
      }
    }
    assert LastWhere(lines, keep, |lines|).None?;
  }

  /** With the fix, a line is only ever taken from above the context: the
      context is in the page and the line's text occurs before it. */
  lemma FixedLinePrecedesContext(toc: seq<TocEntry>, p: nat, context: string, pageText: string)
    requires forall j :: 0 <= j < |toc| ==> !InInterval(toc, p, j)
    ensures var lines, r := SplitLines(pageText), InferSectionFixed(toc, p, context, pageText);
      r == UnknownSection
      || (Contains(pageText, context)
          && exists i :: 0 <= i < |lines| && r == SanitizeText(lines[i])
                         && Contains(pageText[..Find(pageText, context)], Strip(lines[i])))
  {
    var prefix := ContextPrefixFixed(pageText, context);
    if Contains(pageText, context) {
      FallbackSource(pageText, prefix);
    } else {
      EmptyPrefixUnknown(pageText);
    }
  }

  /** A one-character line followed by a line feed. */
  lemma SplitShortLine(s: string)
    requires |s| >= 2 && NotLineBreak(s[0]) && s[1] == '\n'
    ensures SplitLines(s) == [s[..1]] + SplitLines(s[2..])
  {
    SpanEndUnique(s, 0, 1, NotLineBreak);
  }

  /** A one-character text is one line. */
  lemma SplitOneChar(s: string)
    requires |s| == 1 && NotLineBreak(s[0])
    ensures SplitLines(s) == [s]
  {
    SpanEndUnique(s, 0, 1, NotLineBreak);
  }

  lemma ExampleLines()
    ensures SplitLines("A\nB\nC") == ["A", "B", "C"]
  {
    var s := "A\nB\nC";
    SplitShortLine(s);
    var t := s[2..];
    assert t == "B\nC";
    SplitShortLine(t);
    var u := t[2..];
    assert u == "C";
    SplitOneChar(u);
    assert s[..1] == "A" && t[..1] == "B";
  }

  lemma ExampleContextMissing()
    ensures !Contains("A\nB\nC", "B C")
    ensures ContextPrefix("A\nB\nC", "B C") == "A\nB\n"
  {
    var page := "A\nB\nC";
    forall i: nat | i <= |page|
      ensures !OccursAt(page, "B C", i)
    {
      if i + 3 <= |page| {
        assert page[i..i + 3][1] == page[i + 1];
      }
    }
    assert page[..4] == "A\nB\n";
  }

  lemma StripSingle(c: char)
    requires !IsSpace(c)
    ensures Strip([c]) == [c]
  {
    assert LStrip([c]) == [c];
    assert RStrip([c]) == [c];
  }

  lemma ExampleNoC()
    ensures !Contains("A\nB\n", "C")
  {
    var prefix := "A\nB\n";
    forall i: nat | i <= |prefix|
      ensures !OccursAt(prefix, "C", i)
    {
      if i + 1 <= |prefix| {
        assert prefix[i..i + 1][0] == prefix[i];
      }
    }
  }

  lemma ExampleHasB()
    ensures Contains("A\nB\n", "B")
  {
    var prefix := "A\nB\n";
    assert prefix[2..3] == "B";
    assert OccursAt(prefix, "B", 2);
  }

  lemma ExampleSkipsC()
    ensures !LineQualifies("C", "A\nB\n")
  {
    StripSingle('C');
    assert Strip("C") == "C";
    ExampleNoC();
  }

  lemma ExampleTakesB()
    ensures LineQualifies("B", "A\nB\n")
  {
    StripSingle('B');
    assert Strip("B") == "B";
    ExampleHasB();
  }

  /** As written: the context "B C" spans a line break in the page, so it is
      not found, and the line "B" (the context's own first line) comes back
      as the section, though nothing places it above the context. The fixed
      version answers "Unknown Section". */
  lemma MissingContextExample()
    ensures !Contains("A\nB\nC", "B C")
    ensures InferSection([], 1, "B C", "A\nB\nC") == "B"
    ensures InferSectionFixed([], 1, "B C", "A\nB\nC") == UnknownSection
  {
    ExampleLines();
    ExampleContextMissing();
    ExampleSkipsC();
    ExampleTakesB();
    var lines: seq<string> := ["A", "B", "C"];
    var prefix := "A\nB\n";
    var keep := Qualifies(prefix);
    assert !keep(lines[2]) && keep(lines[1]);
    assert LastWhere(lines, keep, 3) == Some(1);
    SanitizeFixes("B");
    EmptyPrefixUnknown("A\nB\nC");
  }
}

=== FILE: text_scrub.dfy ===
/** clean_text from scrub_IVN_Excel.py:31-54: strip, collapse whitespace
    runs to one space, straighten dashes and quotes, normalise the space
    after a period, delete every character outside a small printable set,
    and strip again. */
module TextScrub {
  import opened Common
  import opened PageText

  /** A spreadsheet cell: a string, or anything else (a number, a missing
      value), for which clean_text answers the empty string. */
  datatype Cell = Text(s: string) | NotText

  // ------------------------------------------------------------ the steps

  /** En and em dashes become hyphens; curly quotes become straight ones. */
  function MapChar(c: char): char
  {
    if c == '–' || c == '—' then '-'
    else if c == '“' || c == '”' then '"'
    else if c == '‘' || c == '’' then '\''
    else c
  }

  function MapChars(s: string): (r: string)
    ensures |r| == |s| && forall i :: 0 <= i < |s| ==> r[i] == MapChar(s[i])
  {
    seq(|s|, i requires 0 <= i < |s| => MapChar(s[i]))
  }

  predicate Punctuation(c: char)
  {
    c == '.' || c == ',' || c == ';' || c == ':' || c == '\'' || c == '"'
    || c == '!' || c == '?' || c == '(' || c == ')' || c == '-'
  }

  /** The class `[a-zA-Z0-9.,;:'"!?()\-\s]` the deletion keeps. */
  predicate Kept(c: char) { IsAlnum(c) || Punctuation(c) || IsSpace(c) }

  /** What the docstring promises the result is made of. */
  predicate Printable(c: char) { IsAlnum(c) || Punctuation(c) || c == ' ' }

  /** Whitespace, if any, is the plain space. */
  predicate PlainSpace(c: char) { !IsSpace(c) || c == ' ' }

  /** No two whitespace characters side by side. */
  predicate SingleSpaced(s: string)
  {
    forall i :: 0 <= i < |s| - 1 && IsSpace(s[i]) ==> !IsSpace(s[i + 1])
  }

  /** re.sub(r"\s+", " ", s) */
  function CollapseSpaces(s: string): (r: string)
    ensures |s| > 0 <==> |r| > 0
    ensures |s| > 0 ==> (IsSpace(r[0]) <==> IsSpace(s[0]))
    ensures SingleSpaced(r) && All(r, PlainSpace)
    decreases |s|
  {
    if |s| == 0 then []
    else if IsSpace(s[0]) then " " + CollapseSpaces(s[SpanEnd(s, 0, IsSpace)..])
    else [s[0]] + CollapseSpaces(s[1..])
  }

  /** re.sub(r"\.\s+", ". ", s) */
  function Periods(s: string): (r: string)
    decreases |s|
  {
    if |s| == 0 then []
    else if s[0] == '.' && |s| > 1 && IsSpace(s[1]) then ". " + Periods(s[SpanEnd(s, 1, IsSpace)..])
    else [s[0]] + Periods(s[1..])
  }

  function DeleteSpecial(s: string): (r: string)
    ensures All(r, Kept)
  {
    Filter(s, Kept)
  }

  /** Lines 46-51: everything before the deletion. */
  function Normalized(s: string): (r: string)
    ensures All(r, PlainSpace)
  {
    var m := MapChars(CollapseSpaces(Strip(s)));
    MapPlain(CollapseSpaces(Strip(s)));
    PeriodsPlain(m);
    Periods(m)
  }

  /** Lines 52-53: the deletion and the final strip. */
  function Finish(x: string): (r: string)
    requires All(x, PlainSpace)
    ensures All(r, Printable) && Stripped(r)
  {
    var d := DeleteSpecial(x);
    FilterKeepsProperty(x, Kept, PlainSpace);
    StripKeeps(d, PlainSpace);
    StripKeeps(d, Kept);
    Strip(d)
  }

  /** clean_text as written. */
  function CleanText(v: Cell): (r: string)
    ensures v.NotText? ==> r == []
    ensures All(r, Printable) && Stripped(r)
  {
    match v
    case NotText => []
    case Text(s) => Finish(Normalized(s))
  }

  // ------------------------------------------------------------ step lemmas

  lemma {:induction false} FilterKeepsProperty(s: string, keep: char -> bool, p: char -> bool)
    requires All(s, p)
    ensures All(Filter(s, keep), p)
  {
    if |s| > 0 {
      FilterKeepsProperty(s[1..], keep, p);
    }
  }

  lemma {:induction false} FilterFilter(s: string, p: char -> bool, q: char -> bool, pq: char -> bool)
    requires forall c :: pq(c) == (p(c) && q(c))
    ensures Filter(Filter(s, p), q) == Filter(s, pq)
  {
    if |s| > 0 {
      FilterAppend(if p(s[0]) then [s[0]] else [], Filter(s[1..], p), q);
      FilterFilter(s[1..], p, q, pq);
    }
  }

  /** The period rule only rewrites whitespace to plain spaces. */
  lemma {:induction false} PeriodsPlain(s: string)
    requires All(s, PlainSpace)
    ensures All(Periods(s), PlainSpace)
    decreases |s|
  {
    if |s| > 0 {
      if s[0] == '.' && |s| > 1 && IsSpace(s[1]) {
        PeriodsPlain(s[SpanEnd(s, 1, IsSpace)..]);
      } else {
        PeriodsPlain(s[1..]);
      }
    }
  }

  lemma MapPlain(s: string)
    requires All(s, PlainSpace)
    ensures All(MapChars(s), PlainSpace)
  {
  }

  /** Mapping never turns a space into a non-space or back. */
  lemma MapKeepsSpaces(s: string)
    ensures forall i :: 0 <= i < |s| ==> (IsSpace(MapChars(s)[i]) <==> IsSpace(s[i]))
    ensures forall i :: 0 <= i < |s| && IsSpace(s[i]) ==> MapChars(s)[i] == s[i]
  {
  }

  lemma SliceSingleSpaced(s: string, a: nat, b: nat)
    requires a <= b <= |s| && SingleSpaced(s)
    ensures SingleSpaced(s[a..b])
  {
    var t := s[a..b];
    forall i | 0 <= i < |t| - 1 && IsSpace(t[i])
      ensures !IsSpace(t[i + 1])
    {
      assert t[i] == s[a + i] && t[i + 1] == s[a + i + 1];
    }
  }

  lemma StripSingleSpaced(s: string)
    requires SingleSpaced(s)
    ensures SingleSpaced(Strip(s))
  {
    var l := LStrip(s);
    SliceSingleSpaced(s, |s| - |l|, |s|);
    SliceSingleSpaced(l, 0, |RStrip(l)|);
  }

  lemma MapSingleSpaced(s: string)
    requires SingleSpaced(s)
    ensures SingleSpaced(MapChars(s))
  {
    MapKeepsSpaces(s);
  }

  /** Text that is already single-spaced with plain spaces collapses to
      itself. */
  lemma {:induction false} CollapseSpacesIdentity(s: string)
    requires SingleSpaced(s) && All(s, PlainSpace)
    ensures CollapseSpaces(s) == s
    decreases |s|
  {
    if |s| > 0 {
      SliceSingleSpaced(s, 1, |s|);
      if IsSpace(s[0]) {
        SpanEndUnique(s, 0, 1, IsSpace);
        CollapseSpacesIdentity(s[1..]);
        assert s == " " + s[1..];
      } else {
        CollapseSpacesIdentity(s[1..]);
        assert s == [s[0]] + s[1..];
      }
    }
  }

  /** On single-spaced text the period rule has nothing to do. */
  lemma {:induction false} PeriodsIdentity(s: string)
    requires SingleSpaced(s) && All(s, PlainSpace)
    ensures Periods(s) == s
    decreases |s|
  {
    if |s| > 0 {
      if s[0] == '.' && |s| > 1 && IsSpace(s[1]) {
        SpanEndUnique(s, 1, 2, IsSpace);
        SliceSingleSpaced(s, 2, |s|);
        PeriodsIdentity(s[2..]);
        assert s == ". " + s[2..];
      } else {
        SliceSingleSpaced(s, 1, |s|);
        PeriodsIdentity(s[1..]);
        assert s == [s[0]] + s[1..];
      }
    }
  }

  lemma MapIdentity(s: string)
    requires All(s, Printable)
    ensures MapChars(s) == s
  {
  }

  /** Collapsing never brings in a character outside a class that holds the
      plain space. */
  lemma {:induction false} CollapseKeepsAll(s: string, p: char -> bool)
    requires All(s, p) && p(' ')
    ensures All(CollapseSpaces(s), p)
    decreases |s|
  {
    if |s| > 0 {
      if IsSpace(s[0]) {
        CollapseKeepsAll(s[SpanEnd(s, 0, IsSpace)..], p);
      } else {
        CollapseKeepsAll(s[1..], p);
      }
    }
  }

  // ------------------------------------------------------------ clean_text laws

  /** Single-spaced, stripped, printable text is a fixed point of clean_text. */
  lemma CleanTextFixes(r: string)
    requires SingleSpaced(r) && All(r, Printable) && Stripped(r)
    ensures CleanText(Text(r)) == r
  {
    StripStripped(r);
    CollapseSpacesIdentity(r);
    MapIdentity(r);
    PeriodsIdentity(r);
    FilterKeepsAll(r, Kept);
  }

  /** When the deletion removes nothing, the docstring holds: the result is
      single-spaced, and cleaning it again changes nothing. */
  lemma CleanTextWhenNothingDeleted(s: string)
    requires All(MapChars(s), Kept)
    ensures SingleSpaced(CleanText(Text(s)))
    ensures CleanText(Text(CleanText(Text(s)))) == CleanText(Text(s))
  {
    var q := c => Kept(MapChar(c));
    assert All(s, q);
    StripKeeps(s, q);
    var c := CollapseSpaces(Strip(s));
    CollapseKeepsAll(Strip(s), q);
    var m := MapChars(c);
    assert All(m, Kept);
    MapSingleSpaced(c);
    MapPlain(c);
    PeriodsIdentity(m);
    FilterKeepsAll(m, Kept);
    StripSingleSpaced(m);
    CleanTextFixes(CleanText(Text(s)));
  }

  predicate Visible(c: char) { IsAlnum(c) || Punctuation(c) }

  lemma {:induction false} CollapseSpacesKeepsNonSpace(s: string)
    ensures Filter(CollapseSpaces(s), NotSpace) == Filter(s, NotSpace)
    decreases |s|
  {
    if |s| > 0 {
      if IsSpace(s[0]) {
        var k := SpanEnd(s, 0, IsSpace);
        assert s == s[..k] + s[k..];
        FilterAppend(s[..k], s[k..], NotSpace);
        FilterNone(s[..k], NotSpace);
        FilterAppend(" ", CollapseSpaces(s[k..]), NotSpace);
        CollapseSpacesKeepsNonSpace(s[k..]);
      } else {
        assert s == [s[0]] + s[1..];
        FilterAppend([s[0]], s[1..], NotSpace);
        FilterAppend([s[0]], CollapseSpaces(s[1..]), NotSpace);
        CollapseSpacesKeepsNonSpace(s[1..]);
      }
    }
  }

  lemma {:induction false} PeriodsKeepsNonSpace(s: string)
    ensures Filter(Periods(s), NotSpace) == Filter(s, NotSpace)
    decreases |s|
  {
    if |s| > 0 {
      if s[0] == '.' && |s| > 1 && IsSpace(s[1]) {
        var k := SpanEnd(s, 1, IsSpace);
        assert s == s[..1] + s[1..k] + s[k..];
        FilterAppend(s[..1] + s[1..k], s[k..], NotSpace);
        FilterAppend(s[..1], s[1..k], NotSpace);
        FilterNone(s[1..k], NotSpace);
        FilterAppend(". ", Periods(s[k..]), NotSpace);
        assert Filter(". ", NotSpace) == "." by {
          assert ". "[1..] == " ";
        }
        PeriodsKeepsNonSpace(s[k..]);
      } else {
        assert s == [s[0]] + s[1..];
        FilterAppend([s[0]], s[1..], NotSpace);
        FilterAppend([s[0]], Periods(s[1..]), NotSpace);
        PeriodsKeepsNonSpace(s[1..]);
      }
    }
  }

  lemma MapCharsCons(c: char, rest: string)
    ensures MapChars([c] + rest) == [MapChar(c)] + MapChars(rest)
  {
  }

  /** Mapping and dropping whitespace commute. */
  lemma {:induction false} MapFilter(s: string)
    ensures Filter(MapChars(s), NotSpace) == MapChars(Filter(s, NotSpace))
  {
    if |s| > 0 {
      var c, rest := s[0], s[1..];
      assert s == [c] + rest;
      MapCharsCons(c, rest);
      FilterAppend([MapChar(c)], MapChars(rest), NotSpace);
      MapFilter(rest);
      if NotSpace(c) {
        MapCharsCons(c, Filter(rest, NotSpace));
      }
    }
  }

  lemma NormalizedNonSpace(s: string)
    ensures Filter(Normalized(s), NotSpace) == Filter(MapChars(s), NotSpace)
  {
    var c := CollapseSpaces(Strip(s));
    PeriodsKeepsNonSpace(MapChars(c));
    MapFilter(c);
    CollapseSpacesKeepsNonSpace(Strip(s));
    StripKeepsNonSpace(s);
    MapFilter(s);
  }

  lemma VisibleChars()
    ensures forall c :: Visible(c) == (Kept(c) && NotSpace(c))
    ensures forall c :: Visible(c) == (NotSpace(c) && Visible(c))
  {
  }

  lemma FinishVisible(y: string)
    requires All(y, PlainSpace)
    ensures Filter(Finish(y), NotSpace) == Filter(Filter(y, NotSpace), Visible)
  {
    var d := DeleteSpecial(y);
    assert Finish(y) == Strip(d);
    StripKeepsNonSpace(d);
    VisibleChars();
    FilterFilter(y, Kept, NotSpace, Visible);
    FilterFilter(y, NotSpace, Visible, Visible);
  }

  /** Case is kept and nothing but whitespace and the deleted characters is
      lost: the non-blank characters of the result are exactly the input's
      mapped characters that the class keeps, in order. */
  lemma CleanTextVisible(s: string)
    ensures Filter(CleanText(Text(s)), NotSpace) == Filter(MapChars(s), Visible)
  {
    FinishVisible(Normalized(s));
    NormalizedNonSpace(s);
    VisibleChars();
    FilterFilter(MapChars(s), NotSpace, Visible, Visible);
  }

  // ------------------------------------------------------------ the deletion finding

  /** Lines 47, 51 and 53 applied to text the deletion has already
      filtered. */
  function Tidy(d: string): (r: string)
    requires All(d, Kept)
    ensures All(r, Printable) && Stripped(r) && SingleSpaced(r)
  {
    var c := CollapseSpaces(d);
    CollapseKeepsAll(d, Kept);
    PeriodsIdentity(c);
    StripKeeps(c, Kept);
    StripKeeps(c, PlainSpace);
    StripSingleSpaced(c);
    Strip(Periods(c))
  }

  /** clean_text with the deletion moved before the whitespace collapse, so
      that a deleted character cannot leave two spaces side by side. */
  function CleanTextFixed(v: Cell): (r: string)
    ensures v.NotText? ==> r == []
    ensures All(r, Printable) && Stripped(r) && SingleSpaced(r)
  {
    match v
    case NotText => []
    case Text(s) => Tidy(DeleteSpecial(MapChars(Strip(s))))
  }

  lemma TidyFixes(r: string)
    requires SingleSpaced(r) && All(r, Printable) && Stripped(r)
    ensures Tidy(r) == r
  {
    CollapseSpacesIdentity(r);
    PeriodsIdentity(r);
    StripStripped(r);
  }

  lemma PrepareFixes(r: string)
    requires All(r, Printable) && Stripped(r)
    ensures DeleteSpecial(MapChars(Strip(r))) == r
  {
    StripStripped(r);
    MapIdentity(r);
    FilterKeepsAll(r, Kept);
  }

  /** The corrected cleaner is idempotent on every input. */
  lemma CleanTextFixedIdempotent(v: Cell)
    ensures CleanTextFixed(Text(CleanTextFixed(v))) == CleanTextFixed(v)
  {
    var r := CleanTextFixed(v);
    PrepareFixes(r);
    TidyFixes(r);
  }

  const Sample: string := "a \U{A7} b"

  lemma SampleShape()
    ensures SingleSpaced(Sample) && All(Sample, PlainSpace) && Stripped(Sample)
  {
  }

  lemma SampleSteps()
    ensures Strip(Sample) == Sample && CollapseSpaces(Sample) == Sample
    ensures MapChars(Sample) == Sample && Periods(Sample) == Sample
  {
    SampleShape();
    StripStripped(Sample);
    CollapseSpacesIdentity(Sample);
    assert MapChars(Sample) == Sample;
    PeriodsIdentity(Sample);
  }

  /** Deleting the one character that is not kept joins its neighbours. */
  lemma DeleteMiddle(x: string, c: char, z: string)
    requires All(x, Kept) && All(z, Kept) && !Kept(c)
    ensures DeleteSpecial(x + [c] + z) == x + z
  {
    FilterAppend(x + [c], z, Kept);
    FilterAppend(x, [c], Kept);
    FilterKeepsAll(x, Kept);
    FilterKeepsAll(z, Kept);
    FilterNone([c], Kept);
  }

  lemma SampleDeletion()
    ensures DeleteSpecial(Sample) == "a  b"
  {
    assert Sample == "a " + ['\U{A7}'] + " b";
    DeleteMiddle("a ", '\U{A7}', " b");
  }

  lemma DoubleSpaceCollapse()
    ensures CollapseSpaces("a  b") == "a b"
  {
    var s := "a  b";
    assert s[1..] == "  b";
    SpanEndUnique(s[1..], 0, 2, IsSpace);
    assert s[1..][2..] == "b";
    assert CollapseSpaces("b") == "b";
  }

  lemma SampleAsWritten()
    ensures CleanText(Text(Sample)) == "a  b"
  {
    SampleSteps();
    SampleDeletion();
    StripStripped("a  b");
  }

  lemma SecondCleaning()
    ensures CleanText(Text("a  b")) == "a b"
  {
    StripStripped("a  b");
    DoubleSpaceCollapse();
    assert All("a b", Printable) && SingleSpaced("a b");
    MapIdentity("a b");
    PeriodsIdentity("a b");
    FilterKeepsAll("a b", Kept);
    StripStripped("a b");
  }

  lemma SampleFixed()
    ensures CleanTextFixed(Text(Sample)) == "a b"
  {
    SampleSteps();
    SampleDeletion();
    DoubleSpaceCollapse();
    assert All("a b", Printable) && SingleSpaced("a b");
    PeriodsIdentity("a b");
    StripStripped("a b");
  }

  /** As written, a character deleted between two spaces leaves both: the
      result is not single-spaced, and a second cleaning changes it. The
      corrected order gives the single-spaced text at once. */
  lemma DeletionLeavesDoubleSpace()
    ensures CleanText(Text(Sample)) == "a  b" && !SingleSpaced("a  b")
    ensures CleanText(Text(CleanText(Text(Sample)))) != CleanText(Text(Sample))
    ensures CleanTextFixed(Text(Sample)) == "a b"
  {
    SampleAsWritten();
    assert "a  b"[1] == ' ' && "a  b"[2] == ' ';
    SecondCleaning();
    assert "a b" != "a  b";
    SampleFixed();
  }
}
